=== FILE: README.md ===
# Tethered event photography: enhancement, post-processing and upload — a Dafny model

The system drives a camera tethered over gPhoto2, or watches a folder. Every new JPEG goes
through a fixed chain:

1. Face protection: faces are found and a soft mask covers them.
2. Enhancement, by one of three methods:
   - Gemini, reached through a bounded retry loop;
   - OpenCV's traditional filters;
   - "auto": AI first, with the traditional path as a fallback.
3. Face restoration: the original pixels are blended back in under the mask.
4. Post-processing: a `.cube` colour table, an orientation-aware crop and a watermark.
5. Upload to the event website, with an event resolved or created on the fly.

Around that chain the system has:

- a console menu to pick the event;
- an interactive configuration wizard;
- a manual trigger script;
- counters behind the progress statistics.

This project models that logic in Dafny 4.11 and proves what each step promises. It uses pure
functions over immutable datatypes:

- Images and masks are rectangular grids (`seq<seq<_>>`).
- Colour values are `real`, with explicit floor and clip where the program truncates to `uint8`.
- Counters, the dedupe set and the caches are small state records.

Everything the program asks of the outside world becomes a parameter of the model:

- the pixel kernels of OpenCV and PIL (blur, resize, the ellipse rasteriser, the enhancement filters);
- the Haar detector;
- Gemini's success or failure per attempt;
- HTTP replies;
- gPhoto2's return code and output;
- whether a file exists, whether a copy succeeds;
- the clock.

| module (file) | models |
|---|---|
| `Wrappers`, `Seqs`, `Text`, `Imaging`, `Retry`, `Paths`, `Accounting`, `EventApi`, `Config` | shared vocabulary: `Option`, filters and maps over sequences, Python string methods, grids and pixel blends, the `2**k` back-off, suffix tests, the success rate, the event-list reply, configuration constants |
| `FaceDetection` (face_detection.dfy) | `face_detection.py` |
| `GeminiEnhancer` (gemini_enhancer.dfy) | `gemini_enhancer.py` |
| `CubeLut`, `LutApply`, `AutoCrop`, `Watermark`, `Pipeline` | `image_processor.py` |
| `CaptureSystem` (capture_system.dfy) | `auto_capture_ai_enhanced.py` |
| `FolderWatcher` (folder_watcher.dfy) | `folder_watcher.py` |
| `InteractiveSetup` (interactive_setup.dfy) | `interactive_setup.py` |
| `EventSelector` (event_selector.dfy) | `event_selector.py` |
| `WebIntegrator` (web_integrator.dfy) | `web_integrator.py` |
| `Camera` (camera.dfy) | `camera_controller.py` |
| `ManualTrigger` (manual_trigger.dfy) | `manual_trigger.py` |

Five places where the code does not do what it evidently means are listed under "Findings".
For each one the model keeps both a member that follows the code as written and the corrected
member that the rest of the model uses. A lemma about the pair shows the input on which they
differ.

## Model

| member | source | states |
|---|---|---|
| FaceDetection.DetectFaces | face_detection.py:49-79 | a detector error yields the empty face list; otherwise the detector's faces are returned as they are |
| FaceDetection.PaddedBox | face_detection.py:97-101 | the padded box is clamped inside the image; it holds the whole face when the face lies inside the image, and it is exactly the face plus the padding on every side where that fits |
| FaceDetection.InscribedEllipse | face_detection.py:104-110 | the ellipse built from the box's centre and half-sides lies inside the box; a radius is negative (so drawing raises) exactly when the clamped box is empty |
| FaceDetection.DrawEllipse | face_detection.py:104-110 | drawing a filled ellipse paints its pixels 255 and leaves every other mask pixel as it was |
| FaceDetection.FaceMaskMeaning | face_detection.py:81-114 | a mask exists exactly when every face's ellipse can be drawn; then every pixel is 0 or 255, and it is 255 exactly when some face's ellipse covers it |
| FaceDetection.EmptyFaceMask | face_detection.py:92-114 | with no faces the mask is all zero |
| FaceDetection.FaceMaskOrderIndependent | face_detection.py:104-114 | the mask depends on the multiset of faces, not on the order the detector lists them |
| FaceDetection.PaintedWithinBox | face_detection.py:97-110 | every painted pixel lies inside that face's clamped padded box |
| FaceDetection.ApplyFaceProtection | face_detection.py:116-161 | faces are reported exactly when the detector found some and their mask could be drawn; then the mask is the face mask and the softened image is `Soften` of the image under it (the blurred face area alone inside the mask, the saturating sum outside it, as `SoftenedPixels` states); otherwise the result is the unchanged image, an all-zero mask and no faces, which is also what the error path returns |
| FaceDetection.SoftenedPixels | face_detection.py:139-156 | inside the mask a pixel becomes the blur of the face area; outside it, the saturating sum of the pixel and that blur |
| FaceDetection.RestoreFaceAreas | face_detection.py:163-201 | an all-zero mask or mismatched shapes return the enhanced image; otherwise each pixel is the clipped blend `clip(enh·(1−α) + orig·α)` with α the 21×21-blurred mask over 255, so it lies between the enhanced and the original value and equals the original where the blurred mask is 255 and the enhanced image where it is 0 |
| Imaging.BlendPixel | face_detection.py:180-193 | the convex blend `a·(1−α)+b·α` truncated to bytes lies between its two inputs and is each input at α = 0 and α = 1 |
| Imaging.SatAdd | face_detection.py:152 | `cv2.add` on bytes is the sum when it fits and 255 otherwise |
| GeminiEnhancer.SelectMethod | gemini_enhancer.py:159-177 | disabled when AI is off or the mode is "disabled"; "opencv" and "gemini" pick their single path; every other string, "auto" included, picks the auto branch |
| GeminiEnhancer.FitForAi | gemini_enhancer.py:74-89 | an image inside the box keeps its size; a larger one becomes exactly `(int(w·s), int(h·s))` with `s = min(maxW/w, maxH/h)`, which fits inside the box, touches it on one side and never grows; a zero side, or a side that truncates to zero, is the raising path (`None`) |
| GeminiEnhancer.ScaledSides | gemini_enhancer.py:77-86 | with s = min(maxW/w, maxH/h), both scaled sides fit the box and one of them meets it exactly |
| GeminiEnhancer.EnhancementPrompt | gemini_enhancer.py:91-121 | the prompt is the base prompt followed by a blank line and the face instructions when faces were found, and by the no-face suffix otherwise |
| GeminiEnhancer.PromptTellsFaces | gemini_enhancer.py:101-121 | the two prompts differ whenever the two endings differ |
| GeminiEnhancer.EnhanceWithRetry | gemini_enhancer.py:220-261 | at most `retry_attempts` calls; the first attempt that does not raise returns a result, which is the traditional enhancement of the downsized input; a `2**k` sleep follows every failed attempt except the last; no result iff every attempt raised |
| GeminiEnhancer.AiSuccessIsTraditional | gemini_enhancer.py:240-251 | a successful "AI" enhancement is the OpenCV enhancement of the image prepared for the AI, reached after some attempt succeeded; see also gemini_enhancer.py lines 351-386 |
| GeminiEnhancer.AutoEnhancement | gemini_enhancer.py:388-426 | auto mode returns the AI result when there is one; otherwise the traditional result when the fallback flag is set, and nothing when it is not |
| GeminiEnhancer.DisabledKeepsSoftened | gemini_enhancer.py:159-197 | with enhancement disabled the written image is the face-softened image, not the original, and no restoration happens |
| GeminiEnhancer.FailureHandling | gemini_enhancer.py:180-187 | a failed enhancement with `skip_on_failure` continues with the softened image under the method "skipped"; without the flag `enhance_image` fails |
| GeminiEnhancer.DisabledNeverFails | gemini_enhancer.py:159-163 | only the AI paths can fail: the disabled method always yields an image |
| GeminiEnhancer.RestoreIffFacesAndNotDisabled | gemini_enhancer.py:190-198 | the enhanced image is first resized back to the original's size; the reported method is "disabled" exactly when the selected one is; faces are restored into it exactly when faces were found and the selected method is not "disabled", a skipped failure included |
| GeminiEnhancer.EnhanceImage | gemini_enhancer.py:123-218 | an unreadable input or a failed write makes the whole enhancement fail; otherwise it succeeds exactly when the selected method produced an image or skip-on-failure is set, and reports the selected method when it produced one and "skipped" otherwise |
| CubeLut.ClassifyLine | image_processor.py:55-73 | a blank line is skipped; a size line starts with `LUT_3D_SIZE`; a data line is non-blank and carries no metadata keyword |
| CubeLut.Decode | image_processor.py:47-85 | a table is accepted exactly when the parse succeeds with a size of at least 1 and exactly size³ rows; the accepted table is the rows rescaled |
| CubeLut.Rescale | image_processor.py:83-85 | a table whose largest value is at most 1 is multiplied by 255; any other table is kept |
| CubeLut.RowPlacement | image_processor.py:80-81 | the row-major reshape puts row n at `[n / s²][(n / s) % s][n % s]` |
| CubeLut.LoadLut | image_processor.py:24-95 | a cached path is served from the cache without reading; a missing or rejected file yields nothing and leaves the cache alone; an accepted table is cached under its path |
| CubeLut.SecondLoadHits | image_processor.py:37-40 | once a table is loaded, the next load of that path returns it whatever the file now holds; see also image_processor.py line 88 |
| CubeLut.CacheOnlyGrows | image_processor.py:88 | loading never drops or changes a cached table |
| CubeLut.WriteThenDecode | image_processor.py:47-85 | a table written as a size line and one data line per row, with comments or blank lines around, decodes back to that table rescaled |
| LutApply.Lower | image_processor.py:127-131 | the lower lattice corner is clamped to [0, s−2] (to −1 for a one-entry axis, which numpy's negative index wraps) |
| LutApply.CornersInBounds | image_processor.py:130-145 | all eight corners index inside the table |
| LutApply.Frac | image_processor.py:134 | the interpolation fraction lies in [0, 1] |
| LutApply.WithIntensity | image_processor.py:166-169 | the intensity blend lies between the original and the graded pixel, is the original at intensity 0 and the graded pixel at intensity 1 and above |
| LutApply.ApplyLut | image_processor.py:97-179 | a missing table returns the image unchanged; otherwise every pixel is the trilinear lookup of its colour, blended by intensity, with the blue channel on the table's first axis |
| LutApply.ZeroIntensityIsIdentity | image_processor.py:166-169 | intensity 0 returns the input image |
| LutApply.IdentityCubeIsIdentity | image_processor.py:97-179 | the identity `.cube` table leaves every image unchanged |
| LutApply.ApplyLutAsWritten | image_processor.py:116-145 | the code as written: every pixel is looked up with red on the first axis |
| LutApply.AsWrittenSwapsImage | image_processor.py:138-145 | as written, the identity table swaps the red and blue channels of every pixel; see also image_processor.py lines 80-81 |
| LutApply.AsWrittenIdentityChangesImage | image_processor.py:138-145 | as written, the identity table changes any image with a pixel whose red and blue differ |
| LutApply.SampleIdentityFile | test/test-ai-enhancement.py:219-240 | the sample identity file, with red varying fastest, decodes to a table that leaves images unchanged under the corrected lookup and swaps red and blue under the lookup as written |
| AutoCrop.DetectOrientation | image_processor.py:181-192 | portrait exactly when the height exceeds the width |
| AutoCrop.CropDimensions | image_processor.py:194-225 | a wider-than-target image keeps its full height, takes width ⌊H·tw/th⌋ and is centred horizontally; otherwise it keeps its full width, takes height ⌊W·th/tw⌋ and is centred vertically; the window always lies inside the image; a zero height or ratio component is the division error |
| AutoCrop.Apply | image_processor.py:227-262 | the crop is kept only when its width and height reach the minimum resolution, read as (width, height) for both orientations; then the result is the window's pixels; otherwise the original is returned |
| AutoCrop.ExactRatioUnchanged | image_processor.py:209-225 | an image already at its orientation's ratio is returned whole |
| Watermark.LoadWatermark | image_processor.py:264-299 | the per-path cache: a hit returns the cached asset; a readable file is loaded and cached; a missing or unreadable one yields nothing and leaves the cache alone |
| Watermark.AssetCacheOnlyGrows | image_processor.py:291-292 | loading never drops or changes a cached asset |
| Watermark.SecondAssetLoadHits | image_processor.py:277-280 | the second load of a path returns the first asset |
| Watermark.RawX | image_processor.py:336-343 | left placement is 50 pixels in, right placement leaves 50 pixels to the edge, centre placement splits the slack evenly |
| Watermark.Place | image_processor.py:323-349 | the width is ⌊W·ratio⌋, the height follows the asset's aspect ratio rounded down; x is the horizontal offset clamped to `[0, W − w]`, y is `int(H·vertical) − h // 2` clamped to `[0, H − h]`, so the asset starts inside the frame and ends inside it whenever it fits |
| Watermark.PlaceHonoursPosition | image_processor.py:336-349 | where the asset has room, it sits 50 pixels from the left or right edge as asked, or is centred with the left margin at most one pixel narrower |
| Watermark.Over | image_processor.py:355-367 | each channel is the shared clipped blend (`Imaging.BlendPixel`) from the pixel towards the asset colour at effective alpha `assetAlpha/255·opacity`; it lies between the two, keeps the pixel at opacity 0 or a transparent asset pixel, and is exactly the asset colour for an opaque asset pixel at opacity 1 |
| Watermark.Fitted | image_processor.py:323-378 | the rectangle used is exactly `Place`'s; there is none (the image is returned by the `except`) exactly when the asset cannot be placed, a side is zero or negative so the resize fails, or the asset is wider or taller than the frame so the slice assignment fails |
| Watermark.ApplyWatermark | image_processor.py:301-378 | no asset, or one that cannot be placed, leaves the image unchanged; otherwise the resized asset is stamped at its placement; the image keeps its size |
| Watermark.StampedAtPlace | image_processor.py:323-372 | when the placed asset has a positive size and fits, the image is the asset resized to that size and stamped at the rectangle `Place` computes |
| Watermark.ZeroOpacityUnchanged | image_processor.py:358-367 | opacity 0 leaves the image unchanged |
| Watermark.OutsideUnchanged | image_processor.py:362-367 | pixels outside the placed watermark are unchanged |
| Watermark.InsideBlended | image_processor.py:362-367 | pixels inside it are the blend of the pixel with the matching asset pixel |
| Pipeline.Processed | image_processor.py:394-401 | the corrected pipeline grades with the blue-first lookup, then crops, then watermarks; the result has the crop's shape |
| Pipeline.ProcessedAsWritten | image_processor.py:394-401 | the pipeline as written grades with `apply_lut`'s red-first lookup, then crops, then watermarks |
| Pipeline.ProcessedAgreeWithoutLut | image_processor.py:394-401 | without a loaded table the two lookups are never reached and both pipelines produce the same image |
| Pipeline.OnlyCropWithoutAssets | image_processor.py:394-401 | with no table and no watermark asset only the crop acts |
| Pipeline.ProcessFullPipelineAsWritten | image_processor.py:380-418 | as written: without an output path the run fails, since the default name needs the missing `time` module; with a path it succeeds exactly when the write does, and writes the image graded by the red-first lookup |
| Pipeline.ProcessFullPipeline | image_processor.py:403-414 | succeeds exactly when the write does, writing the processed image to the given path or to `final_<clock>.jpg` in the processed folder |
| Pipeline.DefaultPathInjective | image_processor.py:405 | distinct clock readings give distinct default names |
| Pipeline.AsWrittenNeedsAPath | image_processor.py:404-418 | with a path both versions write to it, differing only in the lookup, and agree fully without a table; without a path the code as written fails where the corrected one writes the file |
| CaptureSystem.OnNewCapture | auto_capture_ai_enhanced.py:145-152 | each capture notification adds exactly one to the captured count before the task is submitted |
| CaptureSystem.SourceOf | auto_capture_ai_enhanced.py:185-188 | a failed enhancement falls back to the original file |
| CaptureSystem.UploadToWeb | auto_capture_ai_enhanced.py:256-291 | the processed file is uploaded with the chosen event; only when that fails is the original uploaded once more, with no event id |
| CaptureSystem.ProcessImage | auto_capture_ai_enhanced.py:161-228 | a non-JPEG suffix returns nothing; an exception returns nothing; an unreadable source or a failed pipeline returns nothing; otherwise the result path, with uploads exactly when both web flags are set |
| CaptureSystem.CompleteAsWritten | auto_capture_ai_enhanced.py:225-250 | as written, a finished task adds one processed, an empty result one error, and a crash two errors |
| CaptureSystem.Complete | auto_capture_ai_enhanced.py:238-250 | each completed task adds exactly one to either the processed or the error count, processed exactly when it finished |
| CaptureSystem.AsWrittenAccounting | auto_capture_ai_enhanced.py:225-250 | as written, processed plus errors exceeds the captures by the number of crashed tasks |
| CaptureSystem.AsWrittenCountsCrashTwice | auto_capture_ai_enhanced.py:225-250 | one crashing task raises the error count by two as written and by one when booked once |
| CaptureSystem.RunAccounting | auto_capture_ai_enhanced.py:145-152 | booked once, every capture ends as exactly one processed image or one error; see also auto_capture_ai_enhanced.py lines 238-250 |
| CaptureSystem.RunRateAtMost100 | auto_capture_ai_enhanced.py:334 | booked once, the logged success rate is at most 100%, and exactly 100% when every task finished |
| CaptureSystem.ApplyCliFlags | auto_capture_ai_enhanced.py:664-691 | in the non-interactive session `--no-ai` disables AI; `--ai-mode m` sets the mode and enables AI iff m is not "disabled"; the fallback and skip switches only ever turn their flag on; an interactive session changes nothing |
| CaptureSystem.CliFlagsIdempotent | auto_capture_ai_enhanced.py:664-691 | applying the same switches twice changes nothing more |
| CaptureSystem.CliSelectsMethod | auto_capture_ai_enhanced.py:664-691 | the switches decide which enhancement method runs; see also gemini_enhancer.py lines 159-177 |
| Accounting.SuccessRate | auto_capture_ai_enhanced.py:334 | processed / max(1, total) · 100: never negative, at most 100 when processed ≤ total, and 100 exactly when all succeeded; see also folder_watcher.py line 293 |
| Paths.Suffix | auto_capture_ai_enhanced.py:177 | the suffix is the text from the last dot of a name that neither starts with that dot nor ends with it, and empty otherwise |
| Paths.RawIgnoresCase | camera_controller.py:225 | the RAW and JPEG tests ignore letter case; see also auto_capture_ai_enhanced.py line 177 |
| FolderWatcher.Key | folder_watcher.py:121 | the dedupe key is the name, an underscore, and the size in decimal digits |
| FolderWatcher.KeyInjective | folder_watcher.py:121 | two files share a key only when they share both name and size |
| FolderWatcher.ScanFolderAsWritten | folder_watcher.py:106-130 | as written, the processed keys only grow, including on the error path |
| FolderWatcher.ScanFolder | folder_watcher.py:106-126 | with unreadable files skipped, the processed keys only grow and only listed files are offered |
| FolderWatcher.ScanFolderOffersFresh | folder_watcher.py:119-124 | a watched file is offered exactly when its name-size key has not been seen |
| FolderWatcher.ScanFolderRecordsFresh | folder_watcher.py:119-124 | the scan adds exactly the keys of the files it offers |
| FolderWatcher.ScanOffersListed | folder_watcher.py:114-123 | every offered name is a listed file |
| FolderWatcher.RescanOffersNothing | folder_watcher.py:118-126 | rescanning an unchanged folder offers nothing |
| FolderWatcher.ScansAgreeWithoutStatFailure | folder_watcher.py:106-126 | when every size can be read, the code as written and the corrected scan agree |
| FolderWatcher.AsWrittenLosesFile | folder_watcher.py:119-130 | as written, a failing `stat` on a later file empties the scan yet keeps the earlier file's key, so that file is never offered, though the corrected scan offers it |
| FolderWatcher.ProcessImage | folder_watcher.py:132-197 | a finished image adds one processed, and one uploaded only when the upload succeeded; an exception adds one error; a load or pipeline failure returns False with no counter touched |
| FolderWatcher.ProcessImageKeepsConsistent | folder_watcher.py:132-197 | uploads never exceed processed images, no counter ever decreases, and each call books at most one outcome |
| FolderWatcher.WatchStep | folder_watcher.py:223-234 | one pass of the watch loop over the corrected scan: detections grow by the number of new files, which are submitted only while running |
| FolderWatcher.WatchStepAsWritten | folder_watcher.py:223-234 | the same pass over the scan as written: detections grow by what that scan offers, submitted only while running |
| FolderWatcher.WatchStepsAgreeWithoutStatFailure | folder_watcher.py:223-234 | when every size can be read, the pass as written and the corrected pass agree |
| FolderWatcher.WatchStepAsWrittenLosesFile | folder_watcher.py:223-234 | as written, a fresh file followed by an unreadable one is not detected or submitted, and the next pass skips it, while the corrected pass submits it |
| FolderWatcher.SecondPassDetectsNothing | folder_watcher.py:223-234 | a second pass over an unchanged folder detects and submits nothing |
| FolderWatcher.ApplyWatcherFlags | folder_watcher.py:346-354 | `--no-ai` disables AI; `--ai-mode` sets the mode and can only ever turn AI off |
| FolderWatcher.WatcherModeCannotEnable | folder_watcher.py:346-354 | unlike the capture system, `--ai-mode` cannot enable AI that the configuration disables; see also gemini_enhancer.py lines 159-163 |
| InteractiveSetup.QualityName | interactive_setup.py:329-348 | each upload quality's name reads back as that quality |
| InteractiveSetup.ModeChoice | interactive_setup.py:123-148 | "1" to "3" set the mode to auto, gemini and opencv with AI on, and fallback only for auto; "4" sets it to disabled and turns AI and face protection off; anything else asks again |
| InteractiveSetup.ModeMenu | interactive_setup.py:115-148 | the menu settles exactly when some answer is a valid choice |
| InteractiveSetup.ModeChoiceSelectsMethod | interactive_setup.py:123-148 | the chosen entry is the enhancement method that then runs; see also gemini_enhancer.py lines 159-177 |
| InteractiveSetup.SpeedRewrite | interactive_setup.py:356-363 | the speed rewrite turns auto into opencv and sets skip-on-failure, touching nothing else |
| InteractiveSetup.QualityRewrite | interactive_setup.py:365-372 | the quality rewrite turns opencv into auto and sets the fallback, touching nothing else |
| InteractiveSetup.RewritesIdempotent | interactive_setup.py:356-372 | each rewrite applied twice is applied once |
| InteractiveSetup.PerformanceChoice | interactive_setup.py:306-325 | "1" selects speed and its rewrite, "2" balanced, "3" quality and its rewrite; anything else asks again |
| InteractiveSetup.QualityChoice | interactive_setup.py:329-348 | "1" to "3" pick high, medium and low and change nothing else; anything else asks again |
| InteractiveSetup.AdvertisedQualityIsUsed | interactive_setup.py:329-348 | the quality picked in the wizard reaches the uploader's JPEG encoder as 95, 80 or 70; see also interactive_setup.py line 542, web_integrator.py lines 173-179 |
| InteractiveSetup.EstimateSeconds | interactive_setup.py:486-520 | speed mode gives ⌊0.7·base⌋ and quality mode ⌊1.3·base⌋, raised to 3 when lower; other modes keep the base; so the estimate lies between 3 and 35, speed never raises the base and quality never lowers it |
| InteractiveSetup.BaseEstimate | interactive_setup.py:488-512 | the unscaled estimate lies between 4 and 27 seconds |
| InteractiveSetup.ModeCost | interactive_setup.py:491-497 | gemini adds 15 seconds, auto 10, opencv 3, any other mode nothing |
| InteractiveSetup.UploadCost | interactive_setup.py:510-512 | the upload adds 5 seconds at high quality, 3 at medium and 2 at low |
| InteractiveSetup.BaseEstimateFloor | interactive_setup.py:488-512 | with AI disabled, no extra step and low quality the base is 4 seconds |
| InteractiveSetup.ModeAddsItsCost | interactive_setup.py:491-497 | switching from disabled to a mode adds exactly that mode's cost to the base |
| InteractiveSetup.StepsAddTheirCost | interactive_setup.py:499-508 | face protection, cropping and the watermark each add one second; a named table adds two and an empty name adds nothing |
| InteractiveSetup.QualityAddsItsCost | interactive_setup.py:510-512 | medium and high quality add one and three seconds over low |
| InteractiveSetup.RewritesMoveEstimate | interactive_setup.py:356-372 | the speed rewrite never raises the estimate and the quality rewrite never lowers it; see also interactive_setup.py lines 486-520 |
| InteractiveSetup.EstimateMono | interactive_setup.py:515-520 | the scaling keeps the order of base estimates |
| InteractiveSetup.ApplyConfiguration | interactive_setup.py:522-542 | the four AI fields are always copied; the LUT fields only when a table is named; the watermark fields only when the watermark is on; the upload quality always |
| InteractiveSetup.ApplyIgnoresUnwiredChoices | interactive_setup.py:522-542 | crop mode, face protection and performance mode never reach the configuration |
| InteractiveSetup.ApplyIdempotent | interactive_setup.py:522-542 | applying the same selection twice is applying it once |
| EventSelector.GetActiveEvent | event_selector.py:95-122 | on a 200 reply with a non-empty list, the first listed event's id (nothing when it has none); nothing when the server is unreachable, answers another status, or lists no events |
| WebIntegrator.MissAgreesWithSelector | web_integrator.py:83-123 | once the cache misses, the integrator's `get_active_event` returns the same id as the event selector's; see also event_selector.py lines 95-122 |
| EventSelector.Indicator | event_selector.py:147-156 | unknown statuses show ⚪ |
| EventSelector.IndicatorIgnoresCase | event_selector.py:147-156 | the status indicator ignores letter case |
| EventSelector.Take | event_selector.py:170 | the id is cut to its first 12 characters |
| EventSelector.FormatEvent | event_selector.py:124-175 | the entry starts with the numbered header and ends with the truncated id line |
| EventSelector.DisplayShowsIdPrefixOnly | event_selector.py:169-170 | ids agreeing in their first 12 characters are displayed identically |
| EventSelector.FormatWithoutDetails | event_selector.py:157-170 | an event with no date, time or location (missing, empty or the placeholder) displays as the header line directly followed by the id line, with no details line |
| EventSelector.FormatLocationOnly | event_selector.py:157-170 | a present location alone gives a details line holding exactly `📍 <location>` between the header and the id line |
| EventSelector.FormatAllDetails | event_selector.py:157-170 | with date, time and location all present the details line lists `📅 <date>`, `🕒 <time>` and `📍 <location>` in that order, joined by a space, a vertical bar and a space, the date reformatted when the parser accepts it and kept as given otherwise |
| EventSelector.GroupsPartition | event_selector.py:189-191 | every event falls in exactly one of the active, upcoming and other groups |
| EventSelector.ShownCount | event_selector.py:189-214 | the menu shows every event exactly when there are at most 10 "other" events |
| EventSelector.Menu | event_selector.py:189-224 | menu numbers run from 1 across the groups; create, refresh and exit follow the last event |
| EventSelector.ReadChoice | event_selector.py:231-277 | a picked event index is always below the count the code compares against |
| EventSelector.TypedNumber | event_selector.py:236-268 | typing a number within 1..n+3 and confirming selects that number |
| EventSelector.SelectAsWritten | event_selector.py:231-277 | as written, the chosen number indexes the fetched list, so the chosen event is one fetched |
| EventSelector.Select | event_selector.py:189-277 | corrected: the chosen event is one shown in the menu |
| EventSelector.MenuNumberSelectsItem | event_selector.py:193-224 | corrected: the typed menu number selects the item shown under that number; see also event_selector.py lines 250-268 |
| EventSelector.GroupedIsShownAsFetched | event_selector.py:189-214 | a list already grouped, with at most 10 "other" events, is shown in fetch order |
| EventSelector.SelectionsAgreeWhenShownAsFetched | event_selector.py:189-224 | when the menu shows the list in fetch order, the code as written selects what was shown; see also event_selector.py lines 250-251 |
| EventSelector.AsWrittenPicksFetchOrder | event_selector.py:189-224 | as written, number 1 can show an active event yet select a different, first-fetched one; see also event_selector.py lines 250-251 |
| EventSelector.AsWrittenCreateNumberPicksEvent | event_selector.py:210-224 | as written, with more than 10 "other" events the number shown for "create" selects an event; see also event_selector.py lines 250-251 |
| EventSelector.SelectInteractive | event_selector.py:363-388 | the loop never returns the refresh marker, and what it returns is some round's answer; a first pass that settles (a declined retry gives None, any other selection is returned as is) decides the result, and a refresh or accepted retry defers to the remaining passes |
| EventSelector.SelectInteractiveFirstSettling | event_selector.py:363-388 | the result is what the first settling pass gives, whatever passes follow it |
| EventSelector.SelectInteractiveUnsettled | event_selector.py:363-388 | when every pass refreshes or retries, the loop returns nothing |
| EventSelector.RefreshIdIsNeverReturned | event_selector.py:363-388 | an event whose id is the refresh marker makes the loop ask again |
| WebIntegrator.AuthHeaders | web_integrator.py:54-61 | exactly the bearer token, the JSON content type and the fixed source tag |
| WebIntegrator.GetActiveEvent | web_integrator.py:83-123 | a truthy cached id younger than 300 s is returned as is; otherwise the first listed id, which refreshes the cache; otherwise nothing, with the cache untouched |
| WebIntegrator.FetchedIdIsCached | web_integrator.py:87-109 | for five minutes after a fetch the cached id is returned whatever the server says |
| WebIntegrator.CacheExpires | web_integrator.py:87-90 | after five minutes the server is asked again |
| WebIntegrator.CreateDefaultEvent | web_integrator.py:124-167 | a 200 or 201 with a readable body returns the new id and caches it; anything else returns nothing |
| WebIntegrator.ResolveEvent | web_integrator.py:216-226 | the given id when truthy, else the active event, else a newly created one; no event exactly when all three are falsy |
| WebIntegrator.JpegQuality | web_integrator.py:173-179 | high 95, medium 80, low 70, anything else 85 |
| WebIntegrator.MaxBox | web_integrator.py:188-189 | 3840×2160 for high and 1920×1080 otherwise |
| WebIntegrator.HighBoxHoldsEveryBox | web_integrator.py:188-189 | an image too large for the high box is shrunk at every quality |
| WebIntegrator.PostWithRetry | web_integrator.py:252-305 | at most `retry_attempts` POSTs; acceptance returns True, a 413 returns False at once, and any other outcome is retried after a `2**attempt` sleep except after the last attempt |
| WebIntegrator.UnreadableSuccessPostsAgain | web_integrator.py:271-302 | a 2xx whose body is not JSON counts as a failed attempt, so the photo is posted again |
| WebIntegrator.TooLargeStops | web_integrator.py:285-287 | a 413 ends the upload after one POST |
| WebIntegrator.UploadPhoto | web_integrator.py:204-309 | the upload succeeds exactly when an event is resolved, the image is prepared and the retry loop succeeds; no POST is made otherwise |
| Camera.CameraListedIff | camera_controller.py:74-82 | some camera is listed exactly when a line after the two header lines is non-blank and contains `usb:` |
| Camera.OneCameraListed | camera_controller.py:74-82 | a table with one camera line lists exactly that line |
| Camera.DetectCamera | camera_controller.py:61-100 | connected exactly when auto-detect succeeds, a camera is listed and the summary succeeds; the camera reported is a listed one |
| Camera.ParseCaptureOutput | camera_controller.py:203-218 | a file is reported exactly when some output line names it after `Saving file as ` and the file exists; there are no more files than lines |
| Camera.SavedNames | camera_controller.py:207-216 | a name is reported exactly when some output line names it after `Saving file as ` and the file exists |
| Camera.SavedNameOfLine | camera_controller.py:209-213 | a saving line yields the stripped name after the marker |
| Camera.ParseOneSavedFile | camera_controller.py:203-218 | one saving line for an existing file yields exactly that file |
| Camera.SavedNamesOfLine | camera_controller.py:207-216 | a single line yields its saved name when that file exists, and nothing otherwise |
| Camera.SavedNamesAppend | camera_controller.py:207-216 | the names of two runs of lines are those of the first followed by those of the second, so names are reported in the order of their lines, which is the order `BackupFiles` copies them in |
| Camera.BackupDirOf | camera_controller.py:224-228 | `.cr2`, `.nef`, `.arw` and `.raw` in any case go to the RAW backup and everything else to JPG |
| Camera.BackupDirIgnoresCase | camera_controller.py:225 | the backup folder does not depend on letter case |
| Camera.BackupFiles | camera_controller.py:220-237 | copies are made in order, each to its folder; the first failing copy aborts the rest; all files are copied when every copy succeeds |
| Camera.HookLine | camera_controller.py:320-342 | `CAPTURE_START` wins over `File:`; the file name is the output with every `File:` removed, stripped; lines with neither are ignored |
| Camera.HookLineRoundTrip | camera_controller.py:320-342 | the hook line `File: <name>` for an existing file reports that name |
| Camera.ProcessTetheredOutput | camera_controller.py:317-345 | an existing file is backed up, queued and handed to the callback; nothing else changes the state |
| Camera.CallbackSeesQueue | camera_controller.py:336-342 | with a callback, every queued file is delivered |
| Camera.TetheredLoop | camera_controller.py:259-315 | the loop stops exactly at the first point where 5 consecutive iterations have failed, sleeping once after every other failure; without that it runs all iterations |
| Camera.FewFailuresNeverGiveUp | camera_controller.py:261-313 | fewer than 5 failures in all never stop the loop |
| Camera.SuccessResets | camera_controller.py:261-313 | a success within every window of 5 iterations keeps the loop running |
| Camera.StartTethered | camera_controller.py:239-250 | starting while capturing is a no-op; otherwise it starts one loop |
| Camera.StopTethered | camera_controller.py:252-257 | stopping leaves the controller not capturing and starts nothing |
| Camera.Disconnect | camera_controller.py:370-374 | disconnecting stops capture and marks the camera gone |
| Camera.StartStopIdempotent | camera_controller.py:239-257 | starting twice is starting once; stopping twice is stopping once |
| Camera.CaptureSingle | camera_controller.py:145-201 | success exactly when connected, gPhoto2 returns 0 and some existing file is reported; then the files are the reported ones and the backups are those made of them in order; otherwise (False, []) with no backups |
| ManualTrigger.CheckConnection | manual_trigger.py:39-71 | connected exactly when auto-detect returns 0 and some line after the two header lines is non-blank and contains `usb:` |
| ManualTrigger.CheckAgreesWithController | manual_trigger.py:47-60 | the script's check agrees with the controller's detection when the summary succeeds; see also camera_controller.py lines 74-82 |
| ManualTrigger.CaptureSingle | manual_trigger.py:117-169 | the counter goes up before every attempt; success exactly when gPhoto2 returns 0; the files are the existing files named after `Saving file as ` |
| ManualTrigger.ScriptCountsEmptyCaptureAsSuccess | manual_trigger.py:139-159 | a capture that reports no file succeeds in the script but fails in the controller; see also camera_controller.py lines 156-201 |
| ManualTrigger.CapturesAgreeOnFiles | manual_trigger.py:143-153 | when files are reported, the script and the controller agree on success, files and backups; see also manual_trigger.py lines 177-180, camera_controller.py lines 207-237 |
| ManualTrigger.Burst | manual_trigger.py:226-243 | `range(count)` shots, each counted; successes at most the count; one sleep between consecutive shots |
| ManualTrigger.AllFailuresNoSuccess | manual_trigger.py:231-243 | a burst of failed shots reports no success |
| ManualTrigger.AllSuccessesCounted | manual_trigger.py:231-243 | a burst of good shots reports every one |
| ManualTrigger.ParseCommand | manual_trigger.py:204-215 | `''`, `c` and `capture` capture; `q`, `quit` and `exit` leave |
| ManualTrigger.CommandWordRoundTrip | manual_trigger.py:204-215 | typing a command's word with any surrounding blanks runs that command |
| ManualTrigger.Interact | manual_trigger.py:189-224 | the loop ends exactly at a quit command; the capture count grows by at most one per line |
| ManualTrigger.QuitIgnoresRest | manual_trigger.py:189-224 | input after a quit is ignored |

## Left out

- OpenCV and PIL kernels are parameters of the model. That covers Gaussian blur, CLAHE, bilateral filtering, Lanczos and thumbnail resizing, colour-space conversion, `cv2.ellipse` rasterisation and the Haar cascade. Only the shape of what they return is constrained.
- float32 and IEEE rounding are not modelled. Blends, ratios and scale factors are exact `real` arithmetic with explicit floor and clip. The crop, the AI downscale and the watermark height (`int(w · (assetH / assetW))`) are therefore exact where the program may be off by one pixel.
- InteractiveSetup.EstimateSeconds: the program multiplies by the floats 0.7 and 1.3; the model uses the integer quotients `7·b/10` and `13·b/10`. For every base the wizard can produce (4 to 27) the truncated double-precision product equals that quotient, including the exact multiples 10 and 20.
- Python `float()` in the `.cube` parser is a parameter. `int()` is modelled for plain ASCII digits with an optional sign; underscores and Unicode digits are not.
- Letter case and whitespace are ASCII only. Unicode case folding and Unicode whitespace are not modelled.
- LutApply.WithIntensity: negative intensities are excluded by a precondition (1 or more gives the graded pixel, as in the program). This is a modelling choice: the wizard stores `float(input)` unchecked, so the program can receive a negative value, but then `orig·(1 − i) + res·i` leaves [0, 255], and numpy's `astype(np.uint8)` on out-of-range floats is not modelled.
- LutApply.ApplyLut: the same intensity restriction, for the same reason.
- LutApply.ApplyLutAsWritten: the same intensity restriction, for the same reason.
- Watermark.Over: opacities outside [0, 1] are excluded by a precondition. The wizard stores this value unchecked too, and an opacity above 1 or below 0 leaves [0, 255] before the unmodelled `astype(np.uint8)`.
- Watermark.ApplyWatermark: the same opacity restriction, for the same reason.
- Concurrency is not modelled. The thread pools, future callbacks, the unsynchronised statistics and the event queue's timeout are left out. Each task is one atomic step.
- The executor shutdown with a timeout argument is left out. It is a runtime-library issue.
- The network is left out. HTTP calls, JWT encoding, the realtime socket notification and the Gemini call become oracle answers.
- `test_connection`, `get_upload_stats`, the failed-upload JSON file and `validate_config` are left out. They are I/O with no decision logic.
- Files, processes and the clock are parameters. That covers the file system, globbing, gPhoto2 subprocesses, `input()` and printing, logging, signal handlers, memory monitoring and temp cleanup.
- The extension filter of the folder scan is the `Watched` predicate. It accepts exact lower-case or all-upper-case extensions and has no lemma of its own.
- Date reformatting with `strptime` in `format_event_display` is a parameter of `EventSelector.FormatEvent`.
- `_create_new_event_interactive` is a parameter of `EventSelector.UserSelection`.
- The prompt texts are parameters of `GeminiEnhancer.EnhancementPrompt`.
- The camera controller's `configure_camera`, `configure_camera_basic`, `get_camera_summary`, `get_camera_status`, `get_next_captured_file` and `_check_gphoto2` are left out. They only pass settings through to gPhoto2 or report them.
- The backup copies are identified by the file name and the target folder only. The destination path is not modelled.
- `ManualTrigger.Interact`: when the input runs out, the model ends with the loop still running. The script catches `EOFError` and keeps reading, so the model cannot show it ever stopping.
- `Camera.CameraLines` states only a bound on its length. The property that it lists exactly the camera lines is `Camera.CameraListedIff`, a separate lemma.
- `GeminiEnhancer.EnhanceImage` states when it succeeds and which method it reports, but not the written image itself. That image is stated by `DisabledKeepsSoftened`, `FailureHandling` and `RestoreIffFacesAndNotDisabled`.
- The test scripts, the API probes and the source-patching script are not part of this model.

## Findings

| source | as written | input that shows it | evidently intended | confidence | as-written member | corrected member |
|---|---|---|---|---|---|---|
| image_processor.py:80-81, image_processor.py:138-145 | `apply_lut` indexes the reshaped table with red on the first axis, but a `.cube` file lists red fastest, so its first axis is blue | the identity table written as in test/test-ai-enhancement.py:219-240 and any pixel whose red and blue differ: the two channels come out swapped | blue on the first axis, so the identity table leaves images unchanged | not executed | LutApply.ApplyLutAsWritten (LutApply.AsWrittenSwapsImage, LutApply.AsWrittenIdentityChangesImage) | LutApply.ApplyLut (LutApply.IdentityCubeIsIdentity, LutApply.SampleIdentityFile) |
| auto_capture_ai_enhanced.py:225-228, auto_capture_ai_enhanced.py:238-250 | an exception inside `_process_image` adds an error there and returns None, and the completion callback adds another error for the None | one capture whose processing raises: errors go up by 2 | each task booked once, so processed + errors = captured | not executed | CaptureSystem.CompleteAsWritten (CaptureSystem.AsWrittenCountsCrashTwice, CaptureSystem.AsWrittenAccounting) | CaptureSystem.Complete (CaptureSystem.RunAccounting) |
| image_processor.py:4-11, image_processor.py:405 | the default output name calls `time.time()`, but `time` is never imported; the NameError is caught and the run reports `(False, None)` | `process_full_pipeline(image)` with no output path | write to `final_<timestamp>.jpg` in the processed folder | not executed | Pipeline.ProcessFullPipelineAsWritten (Pipeline.AsWrittenNeedsAPath) | Pipeline.ProcessFullPipeline (Pipeline.DefaultPathInjective) |
| event_selector.py:189-224, event_selector.py:250-251 | the menu numbers events after grouping them and capping "other" at 10, but the typed number indexes the ungrouped fetched list | an upcoming event fetched before an active one: number 1 shows the active event but selects the upcoming one; with 11 "other" events the number shown for "create" selects an event | the typed number selects the item shown under it | not executed | EventSelector.SelectAsWritten (EventSelector.AsWrittenPicksFetchOrder, EventSelector.AsWrittenCreateNumberPicksEvent) | EventSelector.Select (EventSelector.MenuNumberSelectsItem) |
| folder_watcher.py:119-130 | keys are inserted while visiting; when a later file's `stat()` raises, the scan returns the empty set but keeps the keys already inserted | a new file followed by a file whose size cannot be read: the new file is not offered, and later scans skip it as already seen | a file whose key is recorded is one that was offered | not executed | FolderWatcher.ScanFolderAsWritten (FolderWatcher.AsWrittenLosesFile, FolderWatcher.WatchStepAsWrittenLosesFile) | FolderWatcher.ScanFolder (FolderWatcher.ScanFolderOffersFresh, FolderWatcher.RescanOffersNothing) |

=== FILE: accounting.dfy ===
/** The success rate both front ends report: processed / max(1, total) * 100. */
module Accounting {

  /** `done / max(1, total) * 100`, as a real number. */
  function SuccessRate(done: nat, total: nat): (r: real)
    ensures r >= 0.0
    ensures total == 0 ==> r == done as real * 100.0
    ensures done <= total ==> r <= 100.0
    ensures total > 0 ==> (r == 100.0 <==> done == total)
  {
    var d := if total > 0 then total else 1;
    RatioBound(done, d);
    done as real / d as real * 100.0
  }

  lemma RatioBound(p: nat, d: nat)
    requires d > 0
    ensures p <= d ==> p as real / d as real <= 1.0
    ensures p as real / d as real == 1.0 <==> p == d
  {
    var q := p as real / d as real;
    assert q * d as real == p as real;
  }
}

=== FILE: camera.dfy ===
/**
 * The gPhoto2 camera controller: reading the camera list out of `--auto-detect`, the file
 * names out of a capture's output and out of the tethered hook's lines, the RAW/JPG backup
 * split, the consecutive-error counter of the tethered loop, and the start/stop/capture
 * guards.
 *
 * Every subprocess is an oracle: its return code (`None` when it timed out or could not be
 * started) and its standard output. Whether a file exists and whether a copy succeeds are
 * oracles too.
 */
module Camera {
  import opened Wrappers
  import opened Text
  import opened Paths
  import opened Retry

  /** A line of the detection table that names a camera: not blank, and holding a `usb:` port. */
  predicate IsCameraLine(line: string) {
    Strip(line) != "" && Contains(line, "usb:")
  }

  /** The images under `f` of the elements that `keep` accepts, in order. */
  function FilterMap<T, U>(xs: seq<T>, keep: T -> bool, f: T -> U): (r: seq<U>)
    ensures |r| <= |xs|
    decreases |xs|
  {
    if |xs| == 0 then []
    else (if keep(xs[0]) then [f(xs[0])] else []) + FilterMap(xs[1..], keep, f)
  }

  /** Every kept image comes from an accepted element. */
  lemma {:induction false} FilterMapSound<T, U>(xs: seq<T>, keep: T -> bool, f: T -> U, k: nat)
    requires k < |FilterMap(xs, keep, f)|
    ensures exists i :: 0 <= i < |xs| && keep(xs[i]) && FilterMap(xs, keep, f)[k] == f(xs[i])
    decreases |xs|
  {
    var rest := FilterMap(xs[1..], keep, f);
    if keep(xs[0]) && k == 0 {
      assert FilterMap(xs, keep, f)[0] == f(xs[0]);
    } else {
      var k' := if keep(xs[0]) then k - 1 else k;
      assert FilterMap(xs, keep, f)[k] == rest[k'];
      FilterMapSound(xs[1..], keep, f, k');
      var i :| 0 <= i < |xs[1..]| && keep(xs[1..][i]) && rest[k'] == f(xs[1..][i]);
      assert xs[i + 1] == xs[1..][i];
    }
  }

  /** Every accepted element is kept. */
  lemma {:induction false} FilterMapComplete<T, U>(xs: seq<T>, keep: T -> bool, f: T -> U, i: nat)
    requires i < |xs| && keep(xs[i])
    ensures f(xs[i]) in FilterMap(xs, keep, f)
    decreases |xs|
  {
    if i > 0 {
      FilterMapComplete(xs[1..], keep, f, i - 1);
      assert xs[1..][i - 1] == xs[i];
    }
  }

  /** The stripped camera lines, in order. */
  function UsbLines(lines: seq<string>): seq<string> {
    FilterMap(lines, IsCameraLine, Strip)
  }

  /** The lines of `gphoto2 --auto-detect` output after the two header lines. */
  function TableBody(stdout: string): (body: seq<string>)
    ensures var lines := SplitOn(Strip(stdout), '\n');
      |lines| > 2 ==> body == lines[2..]
    ensures var lines := SplitOn(Strip(stdout), '\n');
      |lines| <= 2 ==> body == []
  {
    var lines := SplitOn(Strip(stdout), '\n');
    if |lines| <= 2 then [] else lines[2..]
  }

  /** The cameras listed by `gphoto2 --auto-detect`: the stripped camera lines of the table body. */
  function CameraLines(stdout: string): (r: seq<string>)
    ensures |r| <= |TableBody(stdout)|
  {
    UsbLines(TableBody(stdout))
  }

  /** Some camera is listed exactly when some line of the table body names one. */
  lemma CameraListedIff(stdout: string)
    ensures |CameraLines(stdout)| > 0 <==> exists i :: 0 <= i < |TableBody(stdout)| && IsCameraLine(TableBody(stdout)[i])
  {
    var body := TableBody(stdout);
    if |CameraLines(stdout)| > 0 {
      FilterMapSound(body, IsCameraLine, Strip, 0);
    }
    if i :| 0 <= i < |body| && IsCameraLine(body[i]) {
      FilterMapComplete(body, IsCameraLine, Strip, i);
    }
  }

  /** A string without the separator splits into itself. */
  lemma SplitWithoutSeparator(s: string, sep: char)
    requires sep !in s
    ensures SplitOn(s, sep) == [s]
  {
    assert IndexOfChar(s, sep).None?;
  }

  /** Splitting at the first separator. */
  lemma SplitAtFirst(a: string, b: string, sep: char)
    requires sep !in a
    ensures SplitOn(a + [sep] + b, sep) == [a] + SplitOn(b, sep)
  {
    var s := a + [sep] + b;
    assert s[|a|] == sep;
    assert forall j :: 0 <= j < |a| ==> s[j] == a[j];
    assert IndexOfChar(s, sep) == Some(|a|);
    assert s[..|a|] == a;
    assert s[|a| + 1..] == b;
  }

  /** A table with the two header lines and one camera line lists exactly that camera. */
  lemma OneCameraListed(h1: string, h2: string, line: string)
    requires '\n' !in h1 && '\n' !in h2 && '\n' !in line
    requires h1 != "" && !IsSpace(h1[0]) && IsCameraLine(line) && line == Strip(line)
    ensures CameraLines(h1 + "\n" + h2 + "\n" + line) == [line]
  {
    ThreeLineBody(h1, h2, line);
    OneLineKept(line);
  }

  /** The body of a three-line table is its last line. */
  lemma ThreeLineBody(h1: string, h2: string, line: string)
    requires '\n' !in h1 && '\n' !in h2 && '\n' !in line
    requires h1 != "" && !IsSpace(h1[0]) && line != "" && line == Strip(line)
    ensures TableBody(h1 + "\n" + h2 + "\n" + line) == [line]
  {
    var s := h1 + "\n" + h2 + "\n" + line;
    assert Strip(s) == s by {
      assert !IsSpace(Strip(line)[|line| - 1]);
      JoinedEnds(h1, h2, line);
      StripKeeps(s);
    }
    assert SplitOn(s, '\n') == [h1, h2, line] by {
      SplitThree(h1, h2, line);
    }
  }

  /** Three non-empty lines joined by newlines start with the first's first character and end with the last's last. */
  lemma JoinedEnds(h1: string, h2: string, line: string)
    requires h1 != "" && line != ""
    ensures var s := h1 + "\n" + h2 + "\n" + line;
      |s| > 0 && s[0] == h1[0] && s[|s| - 1] == line[|line| - 1]
  {
  }

  /** Three lines joined by newlines split back into the three. */
  lemma SplitThree(h1: string, h2: string, line: string)
    requires '\n' !in h1 && '\n' !in h2 && '\n' !in line
    ensures SplitOn(h1 + "\n" + h2 + "\n" + line, '\n') == [h1, h2, line]
  {
    SplitWithoutSeparator(line, '\n');
    SplitAtFirst(h2, line, '\n');
    assert h1 + "\n" + h2 + "\n" + line == h1 + ['\n'] + (h2 + ['\n'] + line);
    SplitAtFirst(h1, h2 + ['\n'] + line, '\n');
  }

  /** A stripped camera line on its own is listed as it is. */
  lemma OneLineKept(line: string)
    requires IsCameraLine(line) && line == Strip(line)
    ensures UsbLines([line]) == [line]
  {
    assert [line][1..] == [];
  }

  /** The outcome of `_detect_camera`: connected to the first listed camera, or not connected. */
  datatype Detection = Connected(camera: string) | NotConnected

  /**
   * `_detect_camera`: connected exactly when `--auto-detect` succeeds, lists at least one
   * camera, and `--summary` succeeds too.
   */
  function DetectCamera(rc: Option<int>, stdout: string, summaryRc: Option<int>): (d: Detection)
    ensures d.Connected? <==> rc == Some(0) && |CameraLines(stdout)| > 0 && summaryRc == Some(0)
    ensures d.Connected? ==> d.camera in CameraLines(stdout)
  {
    if rc != Some(0) then NotConnected
    else
      var cams := CameraLines(stdout);
      if |cams| == 0 then NotConnected
      else if summaryRc != Some(0) then NotConnected
      else Connected(cams[0])
  }

  /** The marker gPhoto2 prints before the name of a downloaded file. */
  const SavingMarker: string := "Saving file as "

  /** The regular expression `Saving file as (.+)` on one line: the stripped rest of the line. */
  function SavedName(line: string): (r: Option<string>)
    ensures r.Some? ==> Contains(line, SavingMarker)
  {
    match IndexOf(line, SavingMarker)
    case Some(j) => if j + |SavingMarker| < |line| then Some(Strip(line[j + |SavingMarker|..])) else None
    case None => None
  }

  /** A saving line yields its stripped file name. */
  lemma SavedNameOfLine(name: string)
    requires |name| > 0
    ensures SavedName(SavingMarker + name) == Some(Strip(name))
  {
    var line := SavingMarker + name;
    assert line[..|SavingMarker|] == SavingMarker;
    assert line[|SavingMarker|..] == name;
  }

  /** The names found on the lines that name existing files. */
  function SavedNames(lines: seq<string>, present: string -> bool): (r: seq<string>)
    ensures |r| <= |lines|
    ensures forall x :: x in r <==> exists i :: 0 <= i < |lines| && SavedName(lines[i]) == Some(x) && present(x)
    decreases |lines|
  {
    if |lines| == 0 then []
    else
      var rest := SavedNames(lines[1..], present);
      assert forall i :: 0 < i < |lines| ==> lines[i] == lines[1..][i - 1];
      match SavedName(lines[0])
      case Some(n) => if present(n) then [n] + rest else rest
      case None => rest
  }

  /** One line contributes its saved name when the file exists, and nothing otherwise. */
  lemma SavedNamesOfLine(line: string, present: string -> bool)
    ensures SavedNames([line], present)
      == if SavedName(line).Some? && present(SavedName(line).value) then [SavedName(line).value] else []
  {
    assert [line][1..] == [];
  }

  /**
   * The names of a report split into two parts are the names of the first part followed by
   * those of the second: with `SavedNamesOfLine`, the names come out in the order of their lines.
   */
  lemma {:induction false} SavedNamesAppend(a: seq<string>, b: seq<string>, present: string -> bool)
    ensures SavedNames(a + b, present) == SavedNames(a, present) + SavedNames(b, present)
    decreases |a|
  {
    if |a| == 0 {
      assert a + b == b;
    } else {
      assert (a + b)[0] == a[0];
      assert (a + b)[1..] == a[1..] + b;
      SavedNamesAppend(a[1..], b, present);
    }
  }

  /** `_parse_capture_output`: the existing files named on `Saving file as` lines, in order. */
  function ParseCaptureOutput(output: string, present: string -> bool): (r: seq<string>)
    ensures |r| <= |SplitOn(output, '\n')|
    ensures forall x :: x in r <==>
      exists i :: 0 <= i < |SplitOn(output, '\n')| && SavedName(SplitOn(output, '\n')[i]) == Some(x) && present(x)
  {
    SavedNames(SplitOn(output, '\n'), present)
  }

  /** A one-line capture report of an existing file yields exactly that file. */
  lemma ParseOneSavedFile(name: string, present: string -> bool)
    requires |name| > 0 && '\n' !in name && present(Strip(name))
    ensures ParseCaptureOutput(SavingMarker + name, present) == [Strip(name)]
  {
    var line := SavingMarker + name;
    SavingLineIsOneLine(name);
    SplitWithoutSeparator(line, '\n');
    SavedNameOfLine(name);
    assert [line][1..] == [];
  }

  /** The marker holds no newline, so a saving line of a one-line name is one line. */
  lemma SavingLineIsOneLine(name: string)
    requires '\n' !in name
    ensures '\n' !in SavingMarker + name
  {
    assert '\n' !in SavingMarker;
  }

  /** The two backup folders. */
  datatype BackupDir = RawBackup | JpgBackup

  /** One `shutil.copy2` into a backup folder. */
  datatype Copy = Copy(name: string, dir: BackupDir)

  /** RAW extensions, in any case, go to the RAW folder and everything else to the JPG folder. */
  function BackupDirOf(name: string): (d: BackupDir)
    ensures d == RawBackup <==> ToLower(Suffix(name)) in RawSuffixes
  {
    if IsRaw(name) then RawBackup else JpgBackup
  }

  /** The upper-case spelling of a name goes to the same folder. */
  lemma BackupDirIgnoresCase(name: string)
    ensures BackupDirOf(ToUpper(name)) == BackupDirOf(name)
  {
    RawIgnoresCase(name);
  }

  /**
   * The steps a loop attempts when the first failing step raises out of it: every step up
   * to and including the first failure.
   */
  function Attempted<T>(steps: seq<T>, ok: T -> bool): (r: seq<T>)
    ensures |r| <= |steps| && r == steps[..|r|]
    ensures forall i :: 0 <= i < |r| - 1 ==> ok(r[i])
    ensures |r| < |steps| ==> |r| > 0 && !ok(r[|r| - 1])
    ensures (forall i :: 0 <= i < |steps| ==> ok(steps[i])) ==> |r| == |steps|
    decreases |steps|
  {
    if |steps| == 0 then []
    else if !ok(steps[0]) then [steps[0]]
    else
      var rest := Attempted(steps[1..], ok);
      assert forall i :: 0 < i < |steps| ==> steps[i] == steps[1..][i - 1];
      [steps[0]] + rest
  }

  /** The copy each file calls for, in order. */
  function CopiesOf(files: seq<string>): (cs: seq<Copy>)
    ensures |cs| == |files| && forall i :: 0 <= i < |files| ==> cs[i] == Copy(files[i], BackupDirOf(files[i]))
  {
    seq(|files|, i requires 0 <= i < |files| => Copy(files[i], BackupDirOf(files[i])))
  }

  /**
   * `_backup_files`: the copies attempted, in order; the first failing copy raises out of
   * the loop, so the files after it are not copied.
   */
  function BackupFiles(files: seq<string>, copyOk: Copy -> bool): (r: seq<Copy>)
    ensures |r| <= |files| && r == CopiesOf(files)[..|r|]
    ensures forall i :: 0 <= i < |r| - 1 ==> copyOk(r[i])
    ensures |r| < |files| ==> |r| > 0 && !copyOk(r[|r| - 1])
    ensures (forall i :: 0 <= i < |files| ==> copyOk(CopiesOf(files)[i])) ==> |r| == |files|
  {
    Attempted(CopiesOf(files), copyOk)
  }

  /** The text after the `File:` markers, stripped. */
  function HookFileName(output: string): string {
    Strip(ReplaceAll(output, "File:", ""))
  }

  /** What one line of the tethered hook leads to. */
  datatype HookEvent = TriggerSeen | FileReady(name: string) | FileMissing(name: string) | Ignored

  /**
   * `_process_tethered_output`: a `CAPTURE_START` line only reports the trigger, even when it
   * also holds `File:`; a `File:` line names a file that is handled when it exists.
   */
  function HookLine(output: string, present: string -> bool): (e: HookEvent)
    ensures e == TriggerSeen <==> Contains(output, "CAPTURE_START")
    ensures e == Ignored <==> !Contains(output, "CAPTURE_START") && !Contains(output, "File:")
    ensures e.FileReady? ==> present(e.name) && e.name == HookFileName(output)
    ensures e.FileMissing? ==> !present(e.name) && e.name == HookFileName(output)
  {
    if Contains(output, "CAPTURE_START") then TriggerSeen
    else if Contains(output, "File:") then
      var name := HookFileName(output);
      if present(name) then FileReady(name) else FileMissing(name)
    else Ignored
  }

  /** What the controller holds between hook lines: the file queue and the callback's arguments. */
  datatype Tethered = Tethered(queue: seq<string>, delivered: seq<string>, backups: seq<Copy>)

  /**
   * One hook line: an existing file is backed up, enqueued and, when a callback is set, passed
   * to it; anything else changes nothing.
   */
  function ProcessTetheredOutput(t: Tethered, output: string, present: string -> bool, hasCallback: bool,
                                 copyOk: Copy -> bool): (r: Tethered)
    ensures HookLine(output, present).FileReady? ==>
              r.queue == t.queue + [HookFileName(output)]
              && r.delivered == t.delivered + (if hasCallback then [HookFileName(output)] else [])
              && r.backups == t.backups + [Copy(HookFileName(output), BackupDirOf(HookFileName(output)))]
    ensures !HookLine(output, present).FileReady? ==> r == t
  {
    match HookLine(output, present)
    case FileReady(name) =>
      Tethered(t.queue + [name], t.delivered + (if hasCallback then [name] else []),
               t.backups + BackupFiles([name], copyOk))
    case _ => t
  }

  /** With a callback set, it receives exactly the files that are queued, in queue order. */
  lemma CallbackSeesQueue(t: Tethered, output: string, present: string -> bool, copyOk: Copy -> bool)
    requires t.delivered == t.queue
    ensures var r := ProcessTetheredOutput(t, output, present, true, copyOk); r.delivered == r.queue
  {
  }

  lemma {:induction false} ReplaceAllAbsent(s: string, p: string, rep: string)
    requires |p| > 0 && !Contains(s, p)
    ensures ReplaceAll(s, p, rep) == s
    decreases |s|
  {
    if |s| >= |p| {
      assert !MatchAt(s, p, 0);
      forall j | 0 <= j
        ensures !MatchAt(s[1..], p, j)
      {
        assert !MatchAt(s, p, j + 1);
        if j + |p| <= |s| - 1 {
          assert s[1..][j..j + |p|] == s[j + 1..j + 1 + |p|];
        }
      }
      assert IndexOf(s[1..], p).None?;
      ReplaceAllAbsent(s[1..], p, rep);
      assert s == [s[0]] + s[1..];
    }
  }

  /** No match of `CAPTURE_START` can start inside the `File: ` prefix. */
  lemma HookPrefixHasNoTrigger(name: string)
    requires !Contains(name, "CAPTURE_START")
    ensures !Contains("File: " + name, "CAPTURE_START")
  {
    forall j | 0 <= j
      ensures !MatchAt("File: " + name, "CAPTURE_START", j)
    {
      if j < 6 {
        NoTriggerInPrefix(name, j);
      } else {
        NoTriggerAfterPrefix(name, j);
      }
    }
  }

  /** A match starting inside `File: ` would need a `C` there. */
  lemma NoTriggerInPrefix(name: string, j: nat)
    requires j < 6
    ensures !MatchAt("File: " + name, "CAPTURE_START", j)
  {
    var s := "File: " + name;
    var p := "CAPTURE_START";
    assert s[j] != p[0];
    if j + |p| <= |s| {
      assert s[j..j + |p|][0] == s[j];
    }
  }

  /** A match starting after `File: ` would be a match in the name. */
  lemma NoTriggerAfterPrefix(name: string, j: nat)
    requires j >= 6 && !Contains(name, "CAPTURE_START")
    ensures !MatchAt("File: " + name, "CAPTURE_START", j)
  {
    var s := "File: " + name;
    var p := "CAPTURE_START";
    assert !MatchAt(name, p, j - 6);
    if j + |p| <= |s| {
      assert s[j..j + |p|] == name[j - 6..j - 6 + |p|];
    }
  }

  /** Removing the markers from a hook line leaves the space and the name. */
  lemma HookLineRemovesMarker(name: string)
    requires !Contains(name, "File:")
    ensures ReplaceAll("File: " + name, "File:", "") == " " + name
  {
    var s := "File: " + name;
    assert s[..5] == "File:";
    assert s[5..] == " " + name;
    var t := " " + name;
    assert t[..1] == " " && t[1..] == name;
    ReplaceAllAbsent(name, "File:", "");
    assert ReplaceAll(t, "File:", "") == [t[0]] + ReplaceAll(t[1..], "File:", "");
  }

  /** The file name of the hook's `File: %f` line is the stripped name. */
  lemma HookFileNameOf(name: string)
    requires !Contains(name, "File:")
    ensures HookFileName("File: " + name) == Strip(name)
  {
    HookLineRemovesMarker(name);
    assert (" " + name)[1..] == name;
    assert TrimLeft(" " + name) == TrimLeft(name);
  }

  lemma HookLineHasMarker(name: string)
    ensures Contains("File: " + name, "File:")
  {
    assert MatchAt("File: " + name, "File:", 0);
  }

  /** The hook's `File: %f` line for an existing file queues exactly that file. */
  lemma HookLineRoundTrip(name: string, present: string -> bool)
    requires !Contains(name, "File:") && !Contains(name, "CAPTURE_START") && present(Strip(name))
    ensures HookLine("File: " + name, present) == FileReady(Strip(name))
  {
    HookPrefixHasNoTrigger(name);
    HookLineHasMarker(name);
    HookFileNameOf(name);
  }

  /** The number of failed iterations at the end of a history. */
  function TrailingFailures(ok: seq<bool>): (n: nat)
    ensures n <= |ok|
  {
    if |ok| == 0 || ok[|ok| - 1] then 0 else TrailingFailures(ok[..|ok| - 1]) + 1
  }

  /** The trailing failures are failures, and the iteration before them succeeded. */
  lemma {:induction false} TrailingRun(ok: seq<bool>)
    ensures var n := TrailingFailures(ok);
      (n < |ok| ==> ok[|ok| - 1 - n]) && forall i :: |ok| - n <= i < |ok| ==> !ok[i]
    decreases |ok|
  {
    if |ok| > 0 && !ok[|ok| - 1] {
      var p := ok[..|ok| - 1];
      TrailingRun(p);
      assert forall i :: 0 <= i < |p| ==> p[i] == ok[i];
    }
  }

  /** The number of failed iterations in a history. */
  function Failures(ok: seq<bool>): (n: nat)
    ensures n <= |ok|
  {
    if |ok| == 0 then 0 else Failures(ok[..|ok| - 1]) + (if ok[|ok| - 1] then 0 else 1)
  }

  /** The loop gives up after this many consecutive failed iterations. */
  const MaxConsecutiveErrors: nat := 5

  /** Iteration `k` is the one after which the loop gives up. */
  function GivesUpAt(ok: seq<bool>): nat -> bool {
    (k: nat) => k < |ok| && TrailingFailures(ok[..k + 1]) >= MaxConsecutiveErrors
  }

  /**
   * `_tethered_capture_loop` over the outcomes of its iterations (`false`: an exception
   * escaped the iteration), until the outcomes run out (capture was stopped) or the loop
   * gives up; five seconds of sleep follow every failure it does not give up on.
   */
  method TetheredLoop(ok: seq<bool>) returns (iterations: nat, sleeps: nat, gaveUp: bool)
    ensures gaveUp <==> FirstWhere(|ok|, GivesUpAt(ok)).Some?
    ensures gaveUp ==> iterations == FirstWhere(|ok|, GivesUpAt(ok)).value + 1
    ensures !gaveUp ==> iterations == |ok|
    ensures iterations <= |ok|
    ensures sleeps + (if gaveUp then 1 else 0) == Failures(ok[..iterations])
    ensures gaveUp ==> TrailingFailures(ok[..iterations]) == MaxConsecutiveErrors
  {
    var consecutive := 0;
    iterations := 0;
    sleeps := 0;
    gaveUp := false;
    while iterations < |ok|
      invariant iterations <= |ok|
      invariant consecutive == TrailingFailures(ok[..iterations]) && consecutive < MaxConsecutiveErrors
      invariant sleeps == Failures(ok[..iterations])
      invariant KeepsGoing(ok, iterations)
    {
      var i := iterations;
      PrefixStep(ok, i);
      GivesUpAtIff(ok, i);
      if ok[i] {
        consecutive := 0;
      } else {
        consecutive := consecutive + 1;
        if consecutive >= MaxConsecutiveErrors {
          FirstWhereIsFirst(|ok|, GivesUpAt(ok), i);
          iterations := i + 1;
          gaveUp := true;
          return;
        }
        sleeps := sleeps + 1;
      }
      KeepsGoingStep(ok, i);
      iterations := i + 1;
    }
    assert ok[..iterations] == ok;
    FirstWhereNone(|ok|, GivesUpAt(ok));
  }

  /** The loop has not given up during the first `n` iterations. */
  predicate KeepsGoing(ok: seq<bool>, n: nat) {
    forall k :: 0 <= k < n ==> !GivesUpAt(ok)(k)
  }

  lemma KeepsGoingStep(ok: seq<bool>, n: nat)
    requires KeepsGoing(ok, n) && !GivesUpAt(ok)(n)
    ensures KeepsGoing(ok, n + 1)
  {
  }

  /** The loop gives up after iteration `i` exactly when the failures ending there reach the limit. */
  lemma GivesUpAtIff(ok: seq<bool>, i: nat)
    requires i < |ok|
    ensures GivesUpAt(ok)(i) <==> TrailingFailures(ok[..i + 1]) >= MaxConsecutiveErrors
  {
  }

  /** How one more iteration extends both counters. */
  lemma PrefixStep(ok: seq<bool>, i: nat)
    requires i < |ok|
    ensures TrailingFailures(ok[..i + 1]) == if ok[i] then 0 else TrailingFailures(ok[..i]) + 1
    ensures Failures(ok[..i + 1]) == Failures(ok[..i]) + (if ok[i] then 0 else 1)
  {
    assert ok[..i + 1][..i] == ok[..i];
  }

  /** A trailing run of failures is part of all failures. */
  lemma {:induction false} TrailingAtMostFailures(ok: seq<bool>)
    ensures TrailingFailures(ok) <= Failures(ok)
    decreases |ok|
  {
    if |ok| > 0 {
      TrailingAtMostFailures(ok[..|ok| - 1]);
    }
  }

  /** A session with fewer than five failures in total never gives up. */
  lemma FewFailuresNeverGiveUp(ok: seq<bool>)
    requires Failures(ok) < MaxConsecutiveErrors
    ensures FirstWhere(|ok|, GivesUpAt(ok)).None?
  {
    forall k: nat | k < |ok|
      ensures !GivesUpAt(ok)(k)
    {
      FewFailuresBelowLimit(ok, k);
    }
    FirstWhereNone(|ok|, GivesUpAt(ok));
  }

  /** With fewer than five failures in all, no prefix ends in five consecutive ones. */
  lemma FewFailuresBelowLimit(ok: seq<bool>, k: nat)
    requires k < |ok| && Failures(ok) < MaxConsecutiveErrors
    ensures !GivesUpAt(ok)(k)
  {
    TrailingAtMostFailures(ok[..k + 1]);
    FailuresOfPrefix(ok, k + 1);
  }

  lemma {:induction false} FailuresOfPrefix(ok: seq<bool>, n: nat)
    requires n <= |ok|
    ensures Failures(ok[..n]) <= Failures(ok)
    decreases |ok|
  {
    if n < |ok| {
      assert ok[..|ok| - 1][..n] == ok[..n];
      FailuresOfPrefix(ok[..|ok| - 1], n);
      assert Failures(ok[..|ok| - 1]) <= Failures(ok);
    } else {
      assert ok[..n] == ok;
    }
  }

  /** Some iteration among the five starting at `i` succeeded. */
  predicate SuccessWithin(ok: seq<bool>, i: nat) {
    exists j :: i <= j < i + MaxConsecutiveErrors && j < |ok| && ok[j]
  }

  /** A success among the last five iterations keeps the counter below the limit. */
  lemma TrailingBelowLimit(ok: seq<bool>, k: nat)
    requires k < |ok| && (k + 1 >= MaxConsecutiveErrors ==> SuccessWithin(ok, k + 1 - MaxConsecutiveErrors))
    ensures TrailingFailures(ok[..k + 1]) < MaxConsecutiveErrors && !GivesUpAt(ok)(k)
  {
    var p := ok[..k + 1];
    if k + 1 >= MaxConsecutiveErrors {
      var j :| k + 1 - MaxConsecutiveErrors <= j < k + 1 && j < |ok| && ok[j];
      assert p[j];
      TrailingRun(p);
    }
  }

  /** A success between failures resets the counter: with a success in every five iterations, the loop never gives up. */
  lemma SuccessResets(ok: seq<bool>)
    requires forall i :: 0 <= i && i + MaxConsecutiveErrors <= |ok| ==> SuccessWithin(ok, i)
    ensures FirstWhere(|ok|, GivesUpAt(ok)).None?
  {
    forall k: nat | k < |ok|
      ensures !GivesUpAt(ok)(k)
    {
      TrailingBelowLimit(ok, k);
    }
    FirstWhereNone(|ok|, GivesUpAt(ok));
  }

  /** The controller's flags and the number of capture loops it has started. */
  datatype Controller = Controller(connected: bool, capturing: bool, loopsStarted: nat)

  /** `start_tethered_capture`: a second start while capturing starts no second loop. */
  function StartTethered(c: Controller): (r: Controller)
    ensures r.capturing && r.connected == c.connected
    ensures r.loopsStarted == c.loopsStarted + (if c.capturing then 0 else 1)
  {
    if c.capturing then c else c.(capturing := true, loopsStarted := c.loopsStarted + 1)
  }

  /** `stop_tethered_capture`: clears the flag the loop polls. */
  function StopTethered(c: Controller): (r: Controller)
    ensures !r.capturing && r.connected == c.connected && r.loopsStarted == c.loopsStarted
  {
    if c.capturing then c.(capturing := false) else c
  }

  /** `disconnect`: stops capturing, then drops the connection. */
  function Disconnect(c: Controller): (r: Controller)
    ensures !r.capturing && !r.connected && r.loopsStarted == c.loopsStarted
  {
    StopTethered(c).(connected := false)
  }

  /** Starting twice is starting once; stopping twice is stopping once. */
  lemma StartStopIdempotent(c: Controller)
    ensures StartTethered(StartTethered(c)) == StartTethered(c)
    ensures StopTethered(StopTethered(c)) == StopTethered(c)
    ensures StopTethered(StartTethered(c)).loopsStarted <= c.loopsStarted + 1
  {
  }

  /**
   * `capture_single` of the controller: `(False, [])` when not connected, on a failed or
   * timed-out command, and when no existing file was reported; otherwise the files, which
   * are backed up.
   */
  function CaptureSingle(c: Controller, rc: Option<int>, stdout: string, present: string -> bool,
                         copyOk: Copy -> bool): (r: (bool, seq<string>, seq<Copy>))
    ensures r.0 <==> c.connected && rc == Some(0) && |ParseCaptureOutput(stdout, present)| > 0
    ensures r.0 ==> r.1 == ParseCaptureOutput(stdout, present)
    ensures !r.0 ==> r.1 == [] && r.2 == []
    ensures r.0 ==> r.2 == BackupFiles(r.1, copyOk)
    ensures |r.2| <= |r.1|
  {
    if !c.connected || rc != Some(0) then (false, [], [])
    else
      var files := ParseCaptureOutput(stdout, present);
      if |files| == 0 then (false, [], []) else (true, files, BackupFiles(files, copyOk))
  }
}

=== FILE: capture_system.dfy ===
/**
 * The tethered-capture orchestrator: a camera notification bumps the capture counter and
 * submits a processing task; the task filters JPEG files, enhances (falling back to the
 * original file), loads, runs the post-processing pipeline and optionally uploads; a
 * completion callback books the task's outcome in the statistics.
 *
 * Each task runs as one atomic step (notification, processing, completion); the thread pool
 * and the unsynchronised statistics dictionary are not modelled. The enhancer, the image
 * reader, the pipeline and the uploader are oracles in `World`.
 */
module CaptureSystem {
  import opened Wrappers
  import opened Text
  import opened Paths
  import opened GeminiEnhancer
  import opened Accounting

  /** `total_captured`, `total_processed` and `total_errors`. */
  datatype Stats = Stats(captured: nat, processed: nat, errors: nat)

  /** One call of `upload_photo`: the file and the event id passed (`None` = auto-detect). */
  datatype Upload = Upload(path: string, eventId: Option<string>)

  /** What the outside world answers while one file is processed. */
  datatype World = World(
    enhanced: Option<string>,               // path reported by a successful enhancement
    readable: string -> bool,               // `cv2.imread` returns an image for this path
    pipelineOk: bool,                       // `process_full_pipeline` reports success
    resultPath: string,                     // the path the pipeline wrote
    raises: bool,                           // an exception escapes a processing step
    uploadOk: Upload -> bool)               // `upload_photo` returns True for this call

  /** The web settings `WEB_INTEGRATION["enabled"]` and `["upload_to_web"]`, and the chosen event. */
  datatype Web = Web(enabled: bool, uploadToWeb: bool, eventId: Option<string>)

  /** How `_process_image` ended. */
  datatype Outcome =
    | NotJpeg
    | Raised
    | Unreadable(path: string)
    | PipelineFailed
    | Finished(result: string, uploads: seq<Upload>)

  /** `_on_new_capture`: one more capture, nothing else changes. */
  function OnNewCapture(s: Stats): (r: Stats)
    ensures r.captured == s.captured + 1 && r.processed == s.processed && r.errors == s.errors
  {
    s.(captured := s.captured + 1)
  }

  /** The file the image is read from: the enhanced file, or the original when enhancement failed. */
  function SourceOf(original: string, enhanced: Option<string>): (p: string)
    ensures enhanced.Some? && enhanced.value != "" ==> p == enhanced.value
    ensures enhanced.None? || enhanced.value == "" ==> p == original
  {
    if enhanced.Some? && enhanced.value != "" then enhanced.value else original
  }

  /**
   * `_upload_to_web`: the processed file goes to the selected event; only when that fails is
   * the original uploaded once more, with no event id.
   */
  function UploadToWeb(processed: string, original: string, eventId: Option<string>, ok: Upload -> bool): (r: seq<Upload>)
    ensures 1 <= |r| <= 2 && r[0] == Upload(processed, eventId)
    ensures |r| == 2 <==> !ok(Upload(processed, eventId))
    ensures |r| == 2 ==> r[1] == Upload(original, None)
  {
    var first := Upload(processed, eventId);
    if ok(first) then [first] else [first, Upload(original, None)]
  }

  /** `_process_image` for the file `name`. */
  function ProcessImage(name: string, w: World, web: Web): (o: Outcome)
    ensures o == NotJpeg <==> !IsJpeg(name)
    ensures o == Raised <==> IsJpeg(name) && w.raises
    ensures o.Unreadable? <==> IsJpeg(name) && !w.raises && !w.readable(SourceOf(name, w.enhanced))
    ensures o.Unreadable? ==> o.path == SourceOf(name, w.enhanced)
    ensures o.Finished? <==> IsJpeg(name) && !w.raises && w.readable(SourceOf(name, w.enhanced)) && w.pipelineOk
    ensures o.Finished? ==> o.result == w.resultPath
    ensures o.Finished? ==> (|o.uploads| > 0 <==> web.enabled && web.uploadToWeb)
  {
    if !IsJpeg(name) then NotJpeg
    else if w.raises then Raised
    else
      var source := SourceOf(name, w.enhanced);
      if !w.readable(source) then Unreadable(source)
      else if !w.pipelineOk then PipelineFailed
      else
        var uploads := if web.enabled && web.uploadToWeb
                       then UploadToWeb(w.resultPath, name, web.eventId, w.uploadOk) else [];
        Finished(w.resultPath, uploads)
  }

  /** The value `_process_image` returns: the result path, or `None`. */
  function Returned(o: Outcome): Option<string> {
    if o.Finished? then Some(o.result) else None
  }

  /**
   * `_process_image` followed by `_on_processing_complete`, as written: the exception handler
   * inside the task counts an error, and the callback, seeing `None`, counts another one.
   */
  function CompleteAsWritten(s: Stats, o: Outcome): (r: Stats)
    ensures r.captured == s.captured
    ensures o.Finished? ==> r.processed == s.processed + 1 && r.errors == s.errors
    ensures o == Raised ==> r.processed == s.processed && r.errors == s.errors + 2
    ensures !o.Finished? && o != Raised ==> r.processed == s.processed && r.errors == s.errors + 1
  {
    var inTask := if o == Raised then s.(errors := s.errors + 1) else s;
    if Returned(o).Some? then inTask.(processed := inTask.processed + 1)
    else inTask.(errors := inTask.errors + 1)
  }

  /** Task completion with each task booked exactly once. */
  function Complete(s: Stats, o: Outcome): (r: Stats)
    ensures r.captured == s.captured
    ensures r.processed + r.errors == s.processed + s.errors + 1
    ensures r.processed == s.processed + 1 <==> o.Finished?
  {
    if Returned(o).Some? then s.(processed := s.processed + 1) else s.(errors := s.errors + 1)
  }

  /** The number of tasks that raised. */
  function RaisedCount(os: seq<Outcome>): (n: nat)
    ensures n <= |os|
  {
    if |os| == 0 then 0 else RaisedCount(os[..|os| - 1]) + (if os[|os| - 1] == Raised then 1 else 0)
  }

  /** The number of tasks that finished. */
  function FinishedCount(os: seq<Outcome>): (n: nat)
    ensures n <= |os|
  {
    if |os| == 0 then 0 else FinishedCount(os[..|os| - 1]) + (if os[|os| - 1].Finished? then 1 else 0)
  }

  /** A session as written: every capture is notified, then its task completes. */
  function RunAsWritten(s: Stats, os: seq<Outcome>): Stats {
    if |os| == 0 then s else CompleteAsWritten(OnNewCapture(RunAsWritten(s, os[..|os| - 1])), os[|os| - 1])
  }

  /** A session with each task booked once. */
  function Run(s: Stats, os: seq<Outcome>): Stats {
    if |os| == 0 then s else Complete(OnNewCapture(Run(s, os[..|os| - 1])), os[|os| - 1])
  }

  /**
   * As written, the error counter over-counts by exactly the number of tasks that raised:
   * processed + errors = captured + raised.
   */
  lemma {:induction false} AsWrittenAccounting(os: seq<Outcome>)
    ensures var r := RunAsWritten(Stats(0, 0, 0), os);
      r.captured == |os| && r.processed == FinishedCount(os)
      && r.processed + r.errors == r.captured + RaisedCount(os)
  {
    if |os| > 0 {
      AsWrittenAccounting(os[..|os| - 1]);
    }
  }

  /** A crashing task is counted as two errors. */
  lemma AsWrittenCountsCrashTwice(s: Stats)
    ensures RunAsWritten(s, [Raised]).errors == s.errors + 2
    ensures Run(s, [Raised]).errors == s.errors + 1
  {
    assert [Raised][..0] == [];
  }

  /** With each task booked once, every capture is either processed or an error. */
  lemma {:induction false} RunAccounting(os: seq<Outcome>)
    ensures var r := Run(Stats(0, 0, 0), os);
      r.captured == |os| && r.processed == FinishedCount(os)
      && r.processed + r.errors == r.captured
  {
    if |os| > 0 {
      RunAccounting(os[..|os| - 1]);
    }
  }

  /** With each task booked once, the logged success rate never exceeds 100%. */
  lemma RunRateAtMost100(os: seq<Outcome>)
    ensures var r := Run(Stats(0, 0, 0), os);
      SuccessRate(r.processed, r.captured) <= 100.0
      && (|os| > 0 ==> (SuccessRate(r.processed, r.captured) == 100.0 <==> FinishedCount(os) == |os|))
  {
    RunAccounting(os);
  }

  /** The command-line switches read when the session is not interactive. */
  datatype CliFlags = CliFlags(interactive: bool, noAi: bool, aiMode: Option<string>, aiFallback: bool, aiSkip: bool)

  /**
   * The AI flag handling of `main`: `--no-ai` wins over `--ai-mode`, a mode sets `enabled`
   * exactly when it is not "disabled", and the two boolean switches can only turn on.
   */
  function ApplyCliFlags(cfg: AiConfig, f: CliFlags): (r: AiConfig)
    ensures f.interactive ==> r == cfg
    ensures !f.interactive && f.noAi ==> !r.enabled && r.mode == "disabled"
    ensures !f.interactive && !f.noAi && f.aiMode.Some? && f.aiMode.value != "" ==>
              r.mode == f.aiMode.value && (r.enabled <==> f.aiMode.value != "disabled")
    ensures (!f.interactive && !f.noAi && (f.aiMode.None? || f.aiMode.value == "")) ==> r.mode == cfg.mode && r.enabled == cfg.enabled
    ensures r.fallbackToOpencv == (cfg.fallbackToOpencv || (!f.interactive && f.aiFallback))
    ensures r.skipOnFailure == (cfg.skipOnFailure || (!f.interactive && f.aiSkip))
    ensures r.retryAttempts == cfg.retryAttempts && r.maxWidth == cfg.maxWidth
            && r.maxHeight == cfg.maxHeight && r.padding == cfg.padding
  {
    if f.interactive then cfg
    else
      var c1 := if f.noAi then cfg.(enabled := false, mode := "disabled")
                else if f.aiMode.Some? && f.aiMode.value != "" then cfg.(mode := f.aiMode.value, enabled := f.aiMode.value != "disabled")
                else cfg;
      var c2 := if f.aiFallback then c1.(fallbackToOpencv := true) else c1;
      if f.aiSkip then c2.(skipOnFailure := true) else c2
  }

  /** Applying the same switches twice changes nothing more. */
  lemma CliFlagsIdempotent(cfg: AiConfig, f: CliFlags)
    ensures ApplyCliFlags(ApplyCliFlags(cfg, f), f) == ApplyCliFlags(cfg, f)
  {
  }

  /**
   * After the switches, the enhancement method is fixed by the switches alone: `--no-ai`
   * disables enhancement and `--ai-mode m` selects what mode `m` selects when enabled.
   */
  lemma CliSelectsMethod(cfg: AiConfig, f: CliFlags)
    requires !f.interactive
    ensures f.noAi ==> SelectMethod(ApplyCliFlags(cfg, f).enabled, ApplyCliFlags(cfg, f).mode) == Disabled
    ensures !f.noAi && f.aiMode.Some? && f.aiMode.value != "" ==>
              SelectMethod(ApplyCliFlags(cfg, f).enabled, ApplyCliFlags(cfg, f).mode) == SelectMethod(true, f.aiMode.value)
  {
  }
}

=== FILE: config.dfy ===
/** The settings the modelled code reads from its configuration class. */
module Config {

  /** Pixels added around each detected face before the mask ellipse is drawn. */
  const FacePadding: nat := 20

  /** Largest width and height sent to the AI service. */
  const AiMaxWidth: nat := 2048
  const AiMaxHeight: nat := 2048

  /** Calls made to the AI service before giving up. */
  const AiRetryAttempts: nat := 3

  /** Target aspect ratios (width, height) of the print crop. */
  const PortraitRatio: (nat, nat) := (5, 7)
  const LandscapeRatio: (nat, nat) := (7, 5)

  /** Smallest crop (width, height) accepted; smaller crops keep the original image. */
  const MinResolution: (nat, nat) := (1500, 2100)

  /** Watermark width as a fraction of the image width. */
  const WatermarkSizeRatio: real := 0.15

  /** Vertical position of the watermark centre as a fraction of the image height. */
  const WatermarkVertical: real := 0.85

  const WatermarkOpacity: real := 0.8

  const LutIntensity: real := 1.0

  /** Upload attempts made by the web integration. */
  const WebRetryAttempts: nat := 3

  const WebUploadQuality: string := "high"
}

=== FILE: crop.dfy ===
/**
 * Orientation-dependent cropping to a fixed aspect ratio, with a minimum-resolution
 * guard. The ratio comparison `width / height > tw / th` is done by cross-multiplication
 * and the truncated float products by exact floor division.
 */
module AutoCrop {
  import opened Wrappers
  import opened Imaging

  datatype Orientation = Portrait | Landscape

  /** Portrait exactly when the image is taller than it is wide; a square is landscape. */
  function DetectOrientation(height: nat, width: nat): (o: Orientation)
    ensures o == Portrait <==> height > width
  {
    if height > width then Portrait else Landscape
  }

  /** A crop window: top-left corner `(x, y)` and size `w x h`. */
  datatype Window = Window(x: int, y: int, w: int, h: int)

  predicate Inside(r: Window, height: nat, width: nat) {
    0 <= r.x && 0 <= r.y && 0 <= r.w && 0 <= r.h && r.x + r.w <= width && r.y + r.h <= height
  }

  /** An image wider than `tw : th` keeps its height and loses width on both sides. */
  function WideWindow(height: nat, width: nat, tw: nat, th: nat): (r: Window)
    requires th > 0 && width * th > height * tw
    ensures Inside(r, height, width)
    ensures r.h == height && r.y == 0 && r.x == (width - r.w) / 2
    ensures r.w * th <= height * tw < (r.w + 1) * th
  {
    var w := (height * tw) / th;
    FloorBelow(height * tw, th, width);
    Window((width - w) / 2, 0, w, height)
  }

  /** An image no wider than `tw : th` keeps its width and loses height at top and bottom. */
  function TallWindow(height: nat, width: nat, tw: nat, th: nat): (r: Window)
    requires tw > 0 && width * th <= height * tw
    ensures Inside(r, height, width)
    ensures r.w == width && r.x == 0 && r.y == (height - r.h) / 2
    ensures r.h * tw <= width * th < (r.h + 1) * tw
  {
    var h := (width * th) / tw;
    FloorBelow(width * th, tw, height);
    Window(0, (height - h) / 2, width, h)
  }

  /**
   * `calculate_crop_dimensions` for target ratio `tw : th`: a too-wide image keeps its
   * height, any other its width. A zero height, or a zero side of the ratio on the branch
   * that divides by it, is a division by zero: `None`.
   */
  function CropDimensions(height: nat, width: nat, tw: nat, th: nat): (r: Option<Window>)
    ensures r.None? <==> height == 0 || th == 0 || (tw == 0 && width * th <= height * tw)
    ensures r.Some? ==> Inside(r.value, height, width)
    ensures r.Some? && width * th > height * tw ==>
      r.value.h == height && r.value.y == 0 && r.value.x == (width - r.value.w) / 2
      && r.value.w * th <= height * tw < (r.value.w + 1) * th
    ensures r.Some? && width * th <= height * tw ==>
      r.value.w == width && r.value.x == 0 && r.value.y == (height - r.value.h) / 2
      && r.value.h * tw <= width * th < (r.value.h + 1) * tw
  {
    if height == 0 || th == 0 then None
    else if width * th > height * tw then Some(WideWindow(height, width, tw, th))
    else if tw == 0 then None
    else Some(TallWindow(height, width, tw, th))
  }

  /** `n / d` is below `m` whenever `n < m * d`, and is the floor of `n / d`. */
  lemma FloorBelow(n: nat, d: nat, m: nat)
    requires d > 0
    ensures (n / d) * d <= n < (n / d + 1) * d
    ensures n < m * d ==> n / d < m
    ensures n <= m * d ==> n / d <= m
  {
    var q := n / d;
    assert q * d + n % d == n;
    if n < m * d && q >= m {
      MulLe(m, q, d);
    }
    if n <= m * d && q > m {
      MulLe(m + 1, q, d);
    }
  }

  lemma MulLe(a: nat, b: nat, d: nat)
    requires a <= b
    ensures a * d <= b * d
  {
  }

  /** The configured minimum output size, applied as (width, height) in either orientation. */
  datatype CropSettings = CropSettings(portrait: (nat, nat), landscape: (nat, nat), minWidth: nat, minHeight: nat)

  function TargetRatio(s: CropSettings, o: Orientation): (nat, nat) {
    if o == Portrait then s.portrait else s.landscape
  }

  /** The window `auto_crop` cuts, if the crop arithmetic succeeds. */
  function Planned(img: Image, s: CropSettings): Option<Window> {
    var (tw, th) := TargetRatio(s, DetectOrientation(Height(img), Width(img)));
    CropDimensions(Height(img), Width(img), tw, th)
  }

  /**
   * `auto_crop`: the cropped image when it meets the minimum size; otherwise, or when the
   * crop divides by zero, the image itself.
   */
  function Apply(img: Image, s: CropSettings): (r: Image)
    ensures r == img || (s.minHeight <= Height(r) <= Height(img) && (Height(r) > 0 ==> s.minWidth <= Width(r) <= Width(img)))
    ensures Planned(img, s).None? ==> r == img
    ensures Planned(img, s).Some? ==> var win := Planned(img, s).value;
      (win.w < s.minWidth || win.h < s.minHeight ==> r == img)
      && (win.w >= s.minWidth && win.h >= s.minHeight ==>
            HasShape(r, win.h, win.w) && forall i, j :: 0 <= i < win.h && 0 <= j < win.w ==> r[i][j] == img[win.y + i][win.x + j])
  {
    ApplyPlan(img, Planned(img, s), s)
  }

  /** `Apply` once the window is planned. */
  function ApplyPlan(img: Image, plan: Option<Window>, s: CropSettings): (r: Image)
    requires plan.Some? ==> Inside(plan.value, Height(img), Width(img))
    ensures r == img || (s.minHeight <= Height(r) <= Height(img) && (Height(r) > 0 ==> s.minWidth <= Width(r) <= Width(img)))
    ensures plan.None? ==> r == img
    ensures plan.Some? ==> var win := plan.value;
      (win.w < s.minWidth || win.h < s.minHeight ==> r == img)
      && (win.w >= s.minWidth && win.h >= s.minHeight ==>
            HasShape(r, win.h, win.w) && forall i, j :: 0 <= i < win.h && 0 <= j < win.w ==> r[i][j] == img[win.y + i][win.x + j])
  {
    match plan
    case None => img
    case Some(win) =>
      if win.w < s.minWidth || win.h < s.minHeight then img
      else CropTo(img, win)
  }

  /** The part of the image a window covers. */
  function CropTo(img: Image, win: Window): (r: Image)
    requires Inside(win, Height(img), Width(img))
    ensures HasShape(r, win.h, win.w) && (win.h > 0 ==> Width(r) == win.w)
    ensures forall i, j :: 0 <= i < win.h && 0 <= j < win.w ==> r[i][j] == img[win.y + i][win.x + j]
  {
    Imaging.Crop(img, win.x, win.y, win.w, win.h)
  }

  /** An image already at the target ratio is left whole. */
  lemma ExactRatioUnchanged(img: Image, s: CropSettings)
    requires Height(img) > 0
    requires var (tw, th) := TargetRatio(s, DetectOrientation(Height(img), Width(img)));
      tw > 0 && th > 0 && Width(img) * th == Height(img) * tw
    ensures Apply(img, s) == img
  {
    var (tw, th) := TargetRatio(s, DetectOrientation(Height(img), Width(img)));
    var win := Planned(img, s).value;
    assert win.w == Width(img);
    SameProductSameSide(win.h, Height(img), tw, Width(img) * th);
    GridExt(Apply(img, s), img);
  }

  /** `h` with `h * d <= n < (h + 1) * d` is unique. */
  lemma SameProductSameSide(h: int, h': int, d: nat, n: int)
    requires d > 0 && h * d <= n < (h + 1) * d && h' * d == n
    ensures h == h'
  {
  }
}

=== FILE: cube_lut.dfy ===
/**
 * Loading `.cube` 3D colour lookup tables: line classification, the `size^3` row count
 * check, the row-major reshape, the 0..1 to 0..255 rescale and the per-path cache.
 *
 * Python's `float()` is a parameter `toReal`; a file is the list of its lines, or
 * `None` when it does not exist.
 */
module CubeLut {
  import opened Wrappers
  import opened Text
  import opened Seqs

  /** One table row: the output red, green and blue values. */
  datatype Entry = Entry(r: real, g: real, b: real)

  /** What one line contributes to the table. */
  datatype LineKind =
    | Ignored
    | SizeDecl(size: Option<int>)   // `LUT_3D_SIZE n`; `None` when `int()` raises
    | Row(e: Entry)

  /** The parser state: the current size (default 33) and the rows read so far, or the failure of `int()`. */
  datatype Parse = Parse(size: int, rows: seq<Entry>) | Failed

  const DefaultSize: int := 33

  const Init := Parse(DefaultSize, [])

  /** Metadata lines the loader skips outright. */
  predicate IsMetadata(line: string) {
    StartsWith(line, "#") || StartsWith(line, "TITLE") || StartsWith(line, "DOMAIN_MIN") || StartsWith(line, "DOMAIN_MAX")
  }

  /** The first three whitespace-separated numbers of a line, when there are three that parse. */
  function RowOf(line: string, toReal: string -> Option<real>): Option<Entry> {
    var ws := Words(line);
    if |ws| >= 3 && toReal(ws[0]).Some? && toReal(ws[1]).Some? && toReal(ws[2]).Some? then
      Some(Entry(toReal(ws[0]).value, toReal(ws[1]).value, toReal(ws[2]).value))
    else None
  }

  /** How the loader treats one raw line (after `strip()`). */
  function ClassifyLine(raw: string, toReal: string -> Option<real>): (k: LineKind)
    ensures k.SizeDecl? ==> StartsWith(Strip(raw), "LUT_3D_SIZE")
    ensures k.Row? ==> |Strip(raw)| > 0 && !IsMetadata(Strip(raw)) && !StartsWith(Strip(raw), "LUT_1D_SIZE")
    ensures |Strip(raw)| == 0 ==> k == Ignored
  {
    var line := Strip(raw);
    if IsMetadata(line) then Ignored
    else if StartsWith(line, "LUT_3D_SIZE") then
      var ws := Words(line);
      SizeDecl(if |ws| >= 2 then ParseInt(ws[1]) else None)
    else if |line| > 0 && !StartsWith(line, "LUT_1D_SIZE") then
      match RowOf(line, toReal)
      case Some(e) => Row(e)
      case None => Ignored
    else Ignored
  }

  /** One iteration of the parsing loop. */
  function Step(st: Parse, k: LineKind): Parse {
    match st
    case Failed => Failed
    case Parse(n, rows) =>
      match k
      case Ignored => st
      case SizeDecl(None) => Failed
      case SizeDecl(Some(m)) => Parse(m, rows)
      case Row(e) => Parse(n, rows + [e])
  }

  /** Each line's classification, in file order. */
  function Kinds(lines: seq<string>, toReal: string -> Option<real>): (ks: seq<LineKind>)
    ensures |ks| == |lines| && forall k :: 0 <= k < |lines| ==> ks[k] == ClassifyLine(lines[k], toReal)
  {
    MapSeq(lines, Classifier(toReal))
  }

  function Classifier(toReal: string -> Option<real>): string -> LineKind {
    line => ClassifyLine(line, toReal)
  }

  /** The parsing loop, over the classified lines. */
  function Run(st: Parse, ks: seq<LineKind>): Parse
    decreases |ks|
  {
    if |ks| == 0 then st else Run(Step(st, ks[0]), ks[1..])
  }

  lemma {:induction false} RunAppend(st: Parse, a: seq<LineKind>, b: seq<LineKind>)
    ensures Run(st, a + b) == Run(Run(st, a), b)
    decreases |a|
  {
    if |a| > 0 {
      assert (a + b)[0] == a[0] && (a + b)[1..] == a[1..] + b;
      RunAppend(Step(st, a[0]), a[1..], b);
    } else {
      assert a + b == b;
    }
  }

  /** The parser state after every line of a file. */
  function ParseFile(lines: seq<string>, toReal: string -> Option<real>): Parse {
    Run(Init, Kinds(lines, toReal))
  }

  function Cube(n: int): int {
    n * n * n
  }

  /** A table as reshaped by the loader: `size^3` rows, `size >= 1`. */
  datatype Table = Table(size: nat, rows: seq<Entry>)

  predicate Valid(t: Table) {
    t.size >= 1 && |t.rows| == Cube(t.size)
  }

  type Lut = t: Table | Valid(t) witness Table(1, [Entry(0.0, 0.0, 0.0)])

  /** `lut_array.max() <= 1.0`. */
  predicate AllAtMostOne(rows: seq<Entry>) {
    forall k :: 0 <= k < |rows| ==> rows[k].r <= 1.0 && rows[k].g <= 1.0 && rows[k].b <= 1.0
  }

  function Times255(e: Entry): Entry {
    Entry(e.r * 255.0, e.g * 255.0, e.b * 255.0)
  }

  /** A table whose values all lie at or below 1 is taken to be 0..1 and multiplied by 255. */
  function Rescale(t: Lut): (r: Lut)
    ensures r.size == t.size
    ensures AllAtMostOne(t.rows) ==> forall k :: 0 <= k < |t.rows| ==> r.rows[k] == Times255(t.rows[k])
    ensures !AllAtMostOne(t.rows) ==> r == t
  {
    if AllAtMostOne(t.rows) then Table(t.size, seq(|t.rows|, k requires 0 <= k < |t.rows| => Times255(t.rows[k])))
    else t
  }

  /**
   * The table a file's lines give: `None` when a size line does not hold an integer, when
   * the row count is not `size^3`, or when the table is empty (numpy's `max` of nothing raises).
   */
  function Decode(lines: seq<string>, toReal: string -> Option<real>): (r: Option<Lut>)
    ensures r.Some? <==> ParseFile(lines, toReal).Parse?
                         && ParseFile(lines, toReal).size >= 1
                         && |ParseFile(lines, toReal).rows| == Cube(ParseFile(lines, toReal).size)
    ensures r.Some? ==> r.value == Rescale(Table(ParseFile(lines, toReal).size, ParseFile(lines, toReal).rows))
  {
    match ParseFile(lines, toReal)
    case Failed => None
    case Parse(n, rows) =>
      if n >= 1 && |rows| == Cube(n) then Some(Rescale(Table(n, rows))) else None
  }

  /** The numpy reshape `(s, s, s, 3)`: row `(i*s + j)*s + k` is cell `[i][j][k]`. */
  function At(t: Lut, i: int, j: int, k: int): Entry
    requires 0 <= i < t.size && 0 <= j < t.size && 0 <= k < t.size
  {
    CellInRange(t.size, i, j, k);
    t.rows[(i * t.size + j) * t.size + k]
  }

  lemma CellInRange(s: nat, i: int, j: int, k: int)
    requires 0 <= i < s && 0 <= j < s && 0 <= k < s
    ensures 0 <= (i * s + j) * s + k < Cube(s)
  {
    LtSquare(j, k, s);
    LtSquare(i, j, s);
    MulMono(i * s + j, s * s - 1, s);
    assert (s * s - 1) * s + s == s * s * s;
  }

  /** Division with remainder is unique. */
  lemma DivModUnique(n: int, s: int, q: int, m: int)
    requires s > 0 && 0 <= m < s && n == q * s + m
    ensures n / s == q && n % s == m
  {
    var q' := n / s;
    var m' := n % s;
    var d := q - q';
    assert d * s == q * s - q' * s;
    assert d * s == m' - m;
    if d >= 1 {
      MulAtLeast(d, s);
    } else if d <= -1 {
      assert (-d) * s == -(d * s);
      MulAtLeast(-d, s);
    }
  }

  lemma MulAtLeast(d: int, s: int)
    requires d >= 1 && s >= 0
    ensures d * s >= s
  {
    assert d * s == s + (d - 1) * s;
  }

  /** Row `k` of the file lands at `[k / s^2][(k / s) % s][k % s]`. */
  lemma RowPlacement(t: Lut, n: int)
    requires 0 <= n < |t.rows|
    ensures var s := t.size;
      0 <= n / (s * s) < s && 0 <= (n / s) % s < s && 0 <= n % s < s
      && At(t, n / (s * s), (n / s) % s, n % s) == t.rows[n]
  {
    var s := t.size;
    Digits3(n, s);
  }

  /** The base-`s` digits of `n < s^3`. */
  lemma Digits3(n: int, s: int)
    requires s >= 1 && 0 <= n < s * s * s
    ensures 0 <= n / (s * s) < s && 0 <= (n / s) % s < s && 0 <= n % s < s
    ensures ((n / (s * s)) * s + (n / s) % s) * s + n % s == n
  {
    var k := n % s;
    var q := n / s;
    var j := q % s;
    var i := q / s;
    assert n == q * s + k;
    assert q == i * s + j;
    Regroup(i, j, k, s);
    LtSquare(j, k, s);
    DivModUnique(n, s * s, i, j * s + k);
    BelowCube(i, j * s + k, s);
  }

  lemma BelowCube(i: int, m: int, s: int)
    requires s >= 1 && 0 <= m && 0 <= i * (s * s) + m < s * s * s
    ensures i < s
  {
    assert s * (s * s) == s * s * s;
    if i >= s {
      MulMono(s, i, s * s);
    }
  }

  lemma Regroup(i: int, j: int, k: int, s: int)
    ensures (i * s + j) * s + k == i * (s * s) + (j * s + k)
  {
  }

  lemma LtSquare(j: int, k: int, s: int)
    requires 0 <= j < s && 0 <= k < s
    ensures 0 <= j * s + k < s * s
  {
    assert j * s <= (s - 1) * s;
  }

  lemma MulMono(a: int, b: int, c: int)
    requires 0 <= a <= b && c >= 0
    ensures a * c <= b * c
  {
    assert b * c - a * c == (b - a) * c;
  }

  /** The per-path table cache. */
  type LutCache = map<string, Lut>

  /** The loader's answer and the cache after it. */
  datatype Loaded = Loaded(table: Option<Lut>, cache: LutCache)

  /**
   * `load_lut`: a cached table is returned without reading the file; otherwise a missing
   * file or a rejected table gives `None` and leaves the cache alone, and an accepted
   * table is cached under the path string.
   */
  function LoadLut(cache: LutCache, path: string, file: Option<seq<string>>, toReal: string -> Option<real>): (r: Loaded)
    ensures path in cache ==> r == Loaded(Some(cache[path]), cache)
    ensures path !in cache && file.None? ==> r == Loaded(None, cache)
    ensures path !in cache && file.Some? ==> r.table == Decode(file.value, toReal)
    ensures r.table.Some? ==> r.cache == cache[path := r.table.value]
    ensures r.table.None? ==> r.cache == cache
  {
    if path in cache then Loaded(Some(cache[path]), cache)
    else match file
      case None => Loaded(None, cache)
      case Some(lines) =>
        match Decode(lines, toReal)
        case None => Loaded(None, cache)
        case Some(t) => Loaded(Some(t), cache[path := t])
  }

  /** The cache only grows and never changes an entry it holds. */
  lemma CacheOnlyGrows(cache: LutCache, path: string, file: Option<seq<string>>, toReal: string -> Option<real>)
    ensures var c := LoadLut(cache, path, file, toReal).cache;
      cache.Keys <= c.Keys && forall p :: p in cache ==> c[p] == cache[p]
  {
  }

  /** A second load of the same path answers from the cache, whatever the file now says. */
  lemma SecondLoadHits(cache: LutCache, path: string, f1: Option<seq<string>>, f2: Option<seq<string>>,
                       toReal: string -> Option<real>)
    requires LoadLut(cache, path, f1, toReal).table.Some?
    ensures var first := LoadLut(cache, path, f1, toReal);
      LoadLut(first.cache, path, f2, toReal) == first
  {
  }

  // ---------------------------------------------------------------------------
  // Writing a table and reading it back.

  /** A number formatter whose output `toReal` reads back exactly and that looks like a number. */
  predicate Faithful(fmt: real -> string, toReal: string -> Option<real>, x: real) {
    toReal(fmt(x)) == Some(x) && IsWord(fmt(x)) && (IsDigit(fmt(x)[0]) || fmt(x)[0] == '-' || fmt(x)[0] == '.')
  }

  predicate FaithfulRows(fmt: real -> string, toReal: string -> Option<real>, rows: seq<Entry>) {
    forall k :: 0 <= k < |rows| ==> FaithfulEntry(fmt, toReal, rows[k])
  }

  predicate FaithfulEntry(fmt: real -> string, toReal: string -> Option<real>, e: Entry) {
    Faithful(fmt, toReal, e.r) && Faithful(fmt, toReal, e.g) && Faithful(fmt, toReal, e.b)
  }

  function RowLine(e: Entry, fmt: real -> string): string {
    fmt(e.r) + " " + fmt(e.g) + " " + fmt(e.b)
  }

  function RowLines(rows: seq<Entry>, fmt: real -> string): (ls: seq<string>)
    ensures |ls| == |rows|
  {
    seq(|rows|, k requires 0 <= k < |rows| => RowLine(rows[k], fmt))
  }

  /**
   * A `.cube` file as the sample table writer lays it out: metadata lines, the size
   * line, more metadata lines, then one line per row.
   */
  function WriteCube(size: nat, before: seq<string>, after: seq<string>, rows: seq<Entry>, fmt: real -> string): seq<string> {
    before + ["LUT_3D_SIZE " + NatToString(size)] + after + RowLines(rows, fmt)
  }

  lemma NotStartsWith(s: string, p: string)
    requires |s| > 0 && |p| > 0 && s[0] != p[0]
    ensures !StartsWith(s, p)
  {
    if |p| <= |s| {
      assert s[..|p|][0] == s[0];
    }
  }

  /** A line that is already stripped, carries no keyword and has three numbers is a row. */
  lemma DataLineClassifies(line: string, e: Entry, toReal: string -> Option<real>)
    requires |line| > 0 && Strip(line) == line
    requires !IsMetadata(line) && !StartsWith(line, "LUT_3D_SIZE") && !StartsWith(line, "LUT_1D_SIZE")
    requires RowOf(line, toReal) == Some(e)
    ensures ClassifyLine(line, toReal) == Row(e)
  {
  }

  /** A line starting with a digit, a sign or a point carries no keyword. */
  lemma NumericLineNoKeyword(line: string)
    requires |line| > 0 && (IsDigit(line[0]) || line[0] == '-' || line[0] == '.')
    ensures !IsMetadata(line) && !StartsWith(line, "LUT_3D_SIZE") && !StartsWith(line, "LUT_1D_SIZE")
  {
    NotStartsWith(line, "#");
    NotStartsWith(line, "TITLE");
    NotStartsWith(line, "DOMAIN_MIN");
    NotStartsWith(line, "DOMAIN_MAX");
    NotStartsWith(line, "LUT_3D_SIZE");
    NotStartsWith(line, "LUT_1D_SIZE");
  }

  lemma RowLineWords(e: Entry, fmt: real -> string, toReal: string -> Option<real>)
    requires FaithfulEntry(fmt, toReal, e)
    ensures Words(RowLine(e, fmt)) == [fmt(e.r), fmt(e.g), fmt(e.b)]
  {
    WordsThree(fmt(e.r), fmt(e.g), fmt(e.b));
  }

  lemma RowLineRow(e: Entry, fmt: real -> string, toReal: string -> Option<real>)
    requires FaithfulEntry(fmt, toReal, e)
    ensures RowOf(RowLine(e, fmt), toReal) == Some(e)
  {
    RowLineWords(e, fmt, toReal);
  }

  lemma RowLineEnds(e: Entry, fmt: real -> string, toReal: string -> Option<real>)
    requires FaithfulEntry(fmt, toReal, e)
    ensures var line := RowLine(e, fmt);
      |line| > 0 && line[0] == fmt(e.r)[0] && line[|line| - 1] == fmt(e.b)[|fmt(e.b)| - 1]
  {
  }

  /** A row line reads back as its row. */
  lemma RowLineReads(e: Entry, fmt: real -> string, toReal: string -> Option<real>)
    requires FaithfulEntry(fmt, toReal, e)
    ensures ClassifyLine(RowLine(e, fmt), toReal) == Row(e)
  {
    var line := RowLine(e, fmt);
    RowLineEnds(e, fmt, toReal);
    StripKeeps(line);
    RowLineRow(e, fmt, toReal);
    NumericLineNoKeyword(line);
    DataLineClassifies(line, e, toReal);
  }

  lemma RunRows(n: int, acc: seq<Entry>, rows: seq<Entry>, fmt: real -> string, toReal: string -> Option<real>)
    requires FaithfulRows(fmt, toReal, rows)
    ensures Run(Parse(n, acc), Kinds(RowLines(rows, fmt), toReal)) == Parse(n, acc + rows)
  {
    RowKinds(rows, fmt, toReal);
    RunRowKinds(n, acc, rows, Kinds(RowLines(rows, fmt), toReal));
  }

  /** Every line of a faithfully written table reads as its row. */
  lemma RowKinds(rows: seq<Entry>, fmt: real -> string, toReal: string -> Option<real>)
    requires FaithfulRows(fmt, toReal, rows)
    ensures var ks := Kinds(RowLines(rows, fmt), toReal);
      |ks| == |rows| && forall k :: 0 <= k < |rows| ==> ks[k] == Row(rows[k])
  {
    forall k | 0 <= k < |rows| ensures Kinds(RowLines(rows, fmt), toReal)[k] == Row(rows[k]) {
      assert FaithfulEntry(fmt, toReal, rows[k]);
      RowLineReads(rows[k], fmt, toReal);
    }
  }

  /** Row lines append their rows to the table, in order. */
  lemma {:induction false} RunRowKinds(n: int, acc: seq<Entry>, rows: seq<Entry>, ks: seq<LineKind>)
    requires |ks| == |rows| && forall k :: 0 <= k < |rows| ==> ks[k] == Row(rows[k])
    ensures Run(Parse(n, acc), ks) == Parse(n, acc + rows)
    decreases |rows|
  {
    if |rows| > 0 {
      RunRowKinds(n, acc + [rows[0]], rows[1..], ks[1..]);
      assert acc + [rows[0]] + rows[1..] == acc + rows;
    }
  }

  lemma SizeLineClassifies(line: string, toReal: string -> Option<real>)
    requires Strip(line) == line && !IsMetadata(line) && StartsWith(line, "LUT_3D_SIZE") && |Words(line)| >= 2
    ensures ClassifyLine(line, toReal) == SizeDecl(ParseInt(Words(line)[1]))
  {
  }

  lemma SizeLineWords(digits: string)
    requires IsWord(digits)
    ensures Words("LUT_3D_SIZE " + digits) == ["LUT_3D_SIZE", digits]
  {
    assert "LUT_3D_SIZE " + digits == "LUT_3D_SIZE" + " " + digits;
    WordsCons("LUT_3D_SIZE", digits);
    WordsSingle(digits);
  }

  lemma SizeLineShape(digits: string)
    requires IsWord(digits)
    ensures var line := "LUT_3D_SIZE " + digits;
      Strip(line) == line && !IsMetadata(line) && StartsWith(line, "LUT_3D_SIZE")
  {
    var line := "LUT_3D_SIZE " + digits;
    assert line[0] == 'L' && line[|line| - 1] == digits[|digits| - 1];
    StripKeeps(line);
    assert line[..11] == "LUT_3D_SIZE";
    NotStartsWith(line, "#");
    NotStartsWith(line, "TITLE");
    NotStartsWith(line, "DOMAIN_MIN");
    NotStartsWith(line, "DOMAIN_MAX");
  }

  lemma SizeLineReads(size: nat, toReal: string -> Option<real>)
    ensures ClassifyLine("LUT_3D_SIZE " + NatToString(size), toReal) == SizeDecl(Some(size))
  {
    var digits := NatToString(size);
    assert IsWord(digits) by {
      forall j | 0 <= j < |digits| ensures !IsSpace(digits[j]) {
        assert IsDigit(digits[j]);
      }
    }
    SizeLineWords(digits);
    SizeLineShape(digits);
    ParseIntOfNatToString(size);
    SizeLineClassifies("LUT_3D_SIZE " + digits, toReal);
  }

  /** A stripped line carrying a metadata keyword is ignored. */
  lemma MetadataIgnored(line: string, toReal: string -> Option<real>)
    requires Strip(line) == line && IsMetadata(line)
    ensures ClassifyLine(line, toReal) == Ignored
  {
  }

  /** A line the loader skips: blank, or a metadata keyword line without surrounding whitespace. */
  predicate SkippedLine(line: string) {
    |Strip(line)| == 0 || (Strip(line) == line && IsMetadata(line))
  }

  lemma SkippedKinds(lines: seq<string>, toReal: string -> Option<real>)
    requires forall k :: 0 <= k < |lines| ==> SkippedLine(lines[k])
    ensures forall k :: 0 <= k < |lines| ==> Kinds(lines, toReal)[k] == Ignored
  {
    forall k | 0 <= k < |lines| ensures Kinds(lines, toReal)[k] == Ignored {
      if |Strip(lines[k])| > 0 {
        MetadataIgnored(lines[k], toReal);
      }
    }
  }

  lemma {:induction false} RunIgnored(st: Parse, ks: seq<LineKind>)
    requires forall k :: 0 <= k < |ks| ==> ks[k] == Ignored
    ensures Run(st, ks) == st
    decreases |ks|
  {
    if |ks| > 0 {
      RunIgnored(Step(st, ks[0]), ks[1..]);
    }
  }

  lemma KindsAppend(a: seq<string>, b: seq<string>, toReal: string -> Option<real>)
    ensures Kinds(a + b, toReal) == Kinds(a, toReal) + Kinds(b, toReal)
  {
    MapAppend(a, b, Classifier(toReal));
  }

  lemma RunWritten(size: nat, kb: seq<LineKind>, ka: seq<LineKind>, kr: seq<LineKind>, rows: seq<Entry>)
    requires forall k :: 0 <= k < |kb| ==> kb[k] == Ignored
    requires forall k :: 0 <= k < |ka| ==> ka[k] == Ignored
    requires Run(Parse(size, []), kr) == Parse(size, rows)
    ensures Run(Init, kb + [SizeDecl(Some(size))] + ka + kr) == Parse(size, rows)
  {
    var ks: seq<LineKind> := [SizeDecl(Some(size))];
    RunAppend(Init, kb + ks + ka, kr);
    RunAppend(Init, kb + ks, ka);
    RunAppend(Init, kb, ks);
    RunIgnored(Init, kb);
    RunIgnored(Parse(size, []), ka);
  }

  lemma WrittenKinds(size: nat, before: seq<string>, after: seq<string>, rows: seq<Entry>, fmt: real -> string,
                     toReal: string -> Option<real>)
    ensures Kinds(WriteCube(size, before, after, rows, fmt), toReal)
            == Kinds(before, toReal) + [SizeDecl(Some(size))] + Kinds(after, toReal) + Kinds(RowLines(rows, fmt), toReal)
  {
    SizeLineReads(size, toReal);
    MapSplice(before, "LUT_3D_SIZE " + NatToString(size), after, RowLines(rows, fmt), Classifier(toReal));
  }

  lemma ParseWritten(size: nat, before: seq<string>, after: seq<string>, rows: seq<Entry>, fmt: real -> string,
                     toReal: string -> Option<real>)
    requires forall k :: 0 <= k < |before| ==> SkippedLine(before[k])
    requires forall k :: 0 <= k < |after| ==> SkippedLine(after[k])
    requires FaithfulRows(fmt, toReal, rows)
    ensures ParseFile(WriteCube(size, before, after, rows, fmt), toReal) == Parse(size, rows)
  {
    WrittenKinds(size, before, after, rows, fmt, toReal);
    SkippedKinds(before, toReal);
    SkippedKinds(after, toReal);
    RunRows(size, [], rows, fmt, toReal);
    assert [] + rows == rows;
    RunWritten(size, Kinds(before, toReal), Kinds(after, toReal), Kinds(RowLines(rows, fmt), toReal), rows);
  }

  /** Reading back a written table gives the table (rescaled when its values lie in 0..1). */
  lemma WriteThenDecode(t: Lut, before: seq<string>, after: seq<string>, fmt: real -> string, toReal: string -> Option<real>)
    requires forall k :: 0 <= k < |before| ==> SkippedLine(before[k])
    requires forall k :: 0 <= k < |after| ==> SkippedLine(after[k])
    requires FaithfulRows(fmt, toReal, t.rows)
    ensures Decode(WriteCube(t.size, before, after, t.rows, fmt), toReal) == Some(Rescale(t))
  {
    ParseWritten(t.size, before, after, t.rows, fmt, toReal);
  }
}

=== FILE: event_api.dfy ===
/**
 * The answer of the events endpoint when asked for the active event, shared by the web
 * integration and the event selector.
 */
module EventApi {
  import opened Wrappers

  /**
   * `requests.get(...)` for the active event: `Unreachable` when the request raises;
   * otherwise the status code and the body, whose `ids` are the `"id"` of each listed
   * event (`None` when an event has none), or `None` when the body is not a JSON list of
   * objects (reading it raises).
   */
  datatype EventsReply = Unreachable | Reply(status: int, ids: Option<seq<Option<string>>>)

  /**
   * `events[0].get("id")` when the reply is a 200 with a non-empty list; `None` when no
   * event was listed (or the call failed).
   */
  function ListedActive(reply: EventsReply): (r: Option<Option<string>>)
    ensures r.Some? <==> reply.Reply? && reply.status == 200 && reply.ids.Some? && |reply.ids.value| > 0
    ensures r.Some? ==> r.value == reply.ids.value[0]
  {
    if reply.Reply? && reply.status == 200 && reply.ids.Some? && |reply.ids.value| > 0
    then Some(reply.ids.value[0]) else None
  }

  /** Python truthiness of an optional string: present and not empty. */
  predicate Truthy(s: Option<string>) {
    s.Some? && s.value != ""
  }
}

=== FILE: event_selector.dfy ===
/**
 * The interactive event selector: the menu line of one event, how the menu groups and
 * numbers events, how a typed number is mapped back to an event, and the outer loop that
 * refreshes on request.
 *
 * Console input is a sequence of lines; running out of lines ends the selection with
 * `None`, as the `EOFError` raised by `input()` does. Reformatting a date with `strptime`
 * is an oracle.
 */
module EventSelector {
  import opened Wrappers
  import opened Seqs
  import opened Text
  import opened EventApi

  /** One event as fetched; `None` marks a key the event object does not have. */
  datatype Event = Event(id: Option<string>, name: Option<string>, date: Option<string>,
                         time: Option<string>, location: Option<string>, status: Option<string>)

  /** `get_active_event`: the id of the first listed event on a 200 with a non-empty list. */
  function GetActiveEvent(reply: EventsReply): (r: Option<string>)
    ensures reply.Reply? && reply.status == 200 && reply.ids.Some? && |reply.ids.value| > 0 ==>
              r == reply.ids.value[0]
    ensures reply.Unreachable? || reply.status != 200 ==> r.None?
    ensures reply.Reply? && (reply.ids.None? || reply.ids == Some([])) ==> r.None?
  {
    match ListedActive(reply)
    case Some(id) => id
    case None => None
  }

  /** The status marker: case-insensitive, with a white circle for any other status. */
  function Indicator(status: string): (m: string)
    ensures ToLower(status) !in {"active", "upcoming", "completed", "cancelled"} ==> m == "\U{26AA}"
  {
    var s := ToLower(status);
    if s == "active" then "\U{1F7E2}"
    else if s == "upcoming" then "\U{1F7E1}"
    else if s == "completed" then "\U{1F534}"
    else if s == "cancelled" then "\U{26AB}"
    else "\U{26AA}"
  }

  /** `ACTIVE`, `Active` and `active` get the same marker. */
  lemma IndicatorIgnoresCase(status: string)
    ensures Indicator(ToUpper(status)) == Indicator(status)
  {
    LowerOfUpper(status);
  }

  /** The first `n` elements, or all of them (Python's `s[:n]`). */
  function Take<T>(s: seq<T>, n: nat): (r: seq<T>)
    ensures |r| == if |s| <= n then |s| else n
    ensures r == s[..|r|]
  {
    if |s| <= n then s else s[..n]
  }

  /** `f"{index:2d}. {indicator} {name}"`. */
  function Header(index: nat, status: string, name: string): string {
    PadLeft(NatToString(index), 2) + ". " + Indicator(status) + " " + name
  }

  /** The last line: the id cut to twelve characters, then `...`. */
  function IdLine(id: string): string {
    "\n     \U{1F194} " + Take(id, 12) + "..."
  }

  /** The detail entries, each present only when the field has a value. */
  function Details(formattedDate: string, time: string, location: string): (d: seq<string>)
    ensures |d| <= 3
  {
    (if formattedDate != "No date" then ["\U{1F4C5} " + formattedDate] else [])
    + (if time != "" && time != "No time" then ["\U{1F552} " + time] else [])
    + (if location != "" && location != "No location" then ["\U{1F4CD} " + location] else [])
  }

  /**
   * `format_event_display`: missing fields take their placeholder, a date is reformatted
   * when `reformat` accepts it and kept as is otherwise, and the details are joined with
   * `" | "` on a second line only when there is at least one.
   */
  function FormatEvent(e: Event, index: nat, reformat: string -> Option<string>): (r: string)
    ensures StartsWith(r, Header(index, e.status.GetOr("unknown"), e.name.GetOr("Unnamed Event")))
    ensures EndsWith(r, IdLine(e.id.GetOr("unknown")))
  {
    var date := e.date.GetOr("No date");
    var formatted := if date != "" && date != "No date" then reformat(date).GetOr(date) else "No date";
    var d := Details(formatted, e.time.GetOr("No time"), e.location.GetOr("No location"));
    var header := Header(index, e.status.GetOr("unknown"), e.name.GetOr("Unnamed Event"));
    var middle := if |d| > 0 then "\n     " + Join(d, " | ") else "";
    var tail := IdLine(e.id.GetOr("unknown"));
    ConcatEnds(header, middle, tail);
    header + middle + tail
  }

  /** Two events whose ids agree on their first twelve characters are displayed alike. */
  lemma DisplayShowsIdPrefixOnly(e: Event, id: string, index: nat, reformat: string -> Option<string>)
    requires e.id.Some? && Take(e.id.value, 12) == Take(id, 12)
    ensures FormatEvent(e.(id := Some(id)), index, reformat) == FormatEvent(e, index, reformat)
  {
  }

  /** A field the event has, holding neither the empty string nor its placeholder. */
  predicate Present(v: Option<string>, placeholder: string) {
    v.Some? && v.value != "" && v.value != placeholder
  }

  /** With no date, time or location the display is the header line and the id line only. */
  lemma FormatWithoutDetails(e: Event, index: nat, reformat: string -> Option<string>)
    requires !Present(e.date, "No date") && !Present(e.time, "No time") && !Present(e.location, "No location")
    ensures FormatEvent(e, index, reformat)
      == Header(index, e.status.GetOr("unknown"), e.name.GetOr("Unnamed Event")) + IdLine(e.id.GetOr("unknown"))
  {
  }

  /** A location alone makes a middle line holding just that location. */
  lemma FormatLocationOnly(e: Event, index: nat, reformat: string -> Option<string>)
    requires !Present(e.date, "No date") && !Present(e.time, "No time") && Present(e.location, "No location")
    ensures FormatEvent(e, index, reformat)
      == Header(index, e.status.GetOr("unknown"), e.name.GetOr("Unnamed Event"))
         + ("\n     " + ("\U{1F4CD} " + e.location.value))
         + IdLine(e.id.GetOr("unknown"))
  {
    assert Details("No date", e.time.GetOr("No time"), e.location.value) == ["\U{1F4CD} " + e.location.value];
  }

  /**
   * With a date, a time and a location the middle line lists the date (reformatted when the
   * parser accepts it), the time and the location in that order, separated by `" | "`.
   */
  lemma FormatAllDetails(e: Event, index: nat, reformat: string -> Option<string>)
    requires Present(e.date, "No date") && Present(e.time, "No time") && Present(e.location, "No location")
    requires reformat(e.date.value).GetOr(e.date.value) != "No date"
    ensures FormatEvent(e, index, reformat)
      == Header(index, e.status.GetOr("unknown"), e.name.GetOr("Unnamed Event"))
         + ("\n     " + (("\U{1F4C5} " + reformat(e.date.value).GetOr(e.date.value)) + " | "
                        + (("\U{1F552} " + e.time.value) + " | " + ("\U{1F4CD} " + e.location.value))))
         + IdLine(e.id.GetOr("unknown"))
  {
    var date := reformat(e.date.value).GetOr(e.date.value);
    var d := Details(date, e.time.value, e.location.value);
    assert d == ["\U{1F4C5} " + date, "\U{1F552} " + e.time.value, "\U{1F4CD} " + e.location.value];
    assert Join(d[1..][1..], " | ") == d[2] by {
      assert d[1..][1..] == [d[2]];
    }
    assert Join(d[1..], " | ") == d[1] + " | " + d[2];
  }

  /** The three sections of the menu. */
  datatype Group = ActiveGroup | UpcomingGroup | OtherGroup

  /** The section of an event, by its lower-cased status (a missing status counts as ""). */
  function GroupOf(e: Event): Group {
    var s := ToLower(e.status.GetOr(""));
    if s == "active" then ActiveGroup else if s == "upcoming" then UpcomingGroup else OtherGroup
  }

  /** The events of one section, in fetch order. */
  function InGroup(events: seq<Event>, g: Group): (r: seq<Event>)
    ensures |r| <= |events|
    ensures forall i :: 0 <= i < |r| ==> GroupOf(r[i]) == g
  {
    Filter(events, Member(g))
  }

  /** Membership of section `g`, as a test on events. */
  function Member(g: Group): Event -> bool {
    e => GroupOf(e) == g
  }

  /** At most this many events of the third section are shown. */
  const OtherLimit: nat := 10

  /** The events the menu displays, in display order. */
  function Shown(events: seq<Event>): seq<Event> {
    InGroup(events, ActiveGroup) + InGroup(events, UpcomingGroup) + Take(InGroup(events, OtherGroup), OtherLimit)
  }

  /** Every event falls in exactly one section. */
  lemma {:induction false} GroupsPartition(events: seq<Event>)
    ensures |InGroup(events, ActiveGroup)| + |InGroup(events, UpcomingGroup)| + |InGroup(events, OtherGroup)| == |events|
    decreases |events|
  {
    if |events| > 0 {
      GroupsPartition(events[1..]);
    }
  }

  /** The menu shows every event except the eleventh and later events of the third section. */
  lemma ShownCount(events: seq<Event>)
    ensures |Shown(events)| <= |events|
    ensures |Shown(events)| == |events| <==> |InGroup(events, OtherGroup)| <= OtherLimit
  {
    GroupsPartition(events);
  }

  /** One numbered line of the menu. */
  datatype MenuItem = ShowEvent(number: nat, event: Event) | CreateItem(number: nat)
                    | RefreshItem(number: nat) | ExitItem(number: nat)

  /**
   * `display_events_menu`: nothing when there are no events; otherwise the shown events
   * numbered from 1, then "create", "refresh" and "exit" on the next three numbers.
   */
  function Menu(events: seq<Event>): (m: seq<MenuItem>)
    ensures |events| == 0 ==> m == []
    ensures |events| > 0 ==> |m| == |Shown(events)| + 3
    ensures forall i :: 0 <= i < |m| ==> m[i].number == i + 1
    ensures forall i :: 0 <= i < |Shown(events)| && |events| > 0 ==> m[i] == ShowEvent(i + 1, Shown(events)[i])
    ensures |events| > 0 ==> m[|Shown(events)|].CreateItem? && m[|Shown(events)| + 1].RefreshItem?
                             && m[|Shown(events)| + 2].ExitItem?
  {
    if |events| == 0 then []
    else
      var shown := Shown(events);
      var n := |shown|;
      seq(n, i requires 0 <= i < n => ShowEvent(i + 1, shown[i]))
        + [CreateItem(n + 1), RefreshItem(n + 2), ExitItem(n + 3)]
  }

  /** What `get_user_selection` settles on, with `Pick(i)` naming the `i`-th selectable event. */
  datatype Choice = Pick(index: nat) | CreateNew | Refresh | Quit

  /** The answers that confirm a choice. */
  predicate Confirms(answer: string) {
    ToLower(Strip(answer)) in {"y", "yes", "ya"}
  }

  /**
   * The input loop of `get_user_selection` with `n` selectable events: empty, non-numeric
   * and out-of-range answers ask again; `1..n` picks an event once confirmed (otherwise asks
   * again); `n+1` creates, `n+2` refreshes and `n+3` quits.
   */
  function ReadChoice(n: nat, answers: seq<string>): (r: Choice)
    ensures r.Pick? ==> r.index < n
    decreases |answers|
  {
    if |answers| == 0 then Quit
    else
      var line := Strip(answers[0]);
      match ParseInt(line)
      case None => ReadChoice(n, answers[1..])
      case Some(c) =>
        if c < 1 || c > n + 3 then ReadChoice(n, answers[1..])
        else if c <= n then
          if |answers| < 2 then Quit
          else if Confirms(answers[1]) then Pick(c - 1)
          else ReadChoice(n, answers[2..])
        else if c == n + 1 then CreateNew
        else if c == n + 2 then Refresh
        else Quit
  }

  /** The outcome of the selection, with the event itself when one was picked. */
  datatype Selection = Chosen(event: Event) | Create | Reload | Leave

  function Resolve(listed: seq<Event>, c: Choice): (s: Selection)
    requires c.Pick? ==> c.index < |listed|
  {
    match c
    case Pick(i) => Chosen(listed[i])
    case CreateNew => Create
    case Refresh => Reload
    case Quit => Leave
  }

  /** As written: the numbers typed index the events in fetch order, and `n` counts every fetched event. */
  function SelectAsWritten(events: seq<Event>, answers: seq<string>): (s: Selection)
    ensures s.Chosen? ==> s.event in events
  {
    Resolve(events, ReadChoice(|events|, answers))
  }

  /** The numbers typed index the events as the menu displays them. */
  function Select(events: seq<Event>, answers: seq<string>): (s: Selection)
    ensures s.Chosen? ==> s.event in Shown(events)
  {
    var shown := Shown(events);
    Resolve(shown, ReadChoice(|shown|, answers))
  }

  /** A digit string is its own strip. */
  lemma StripDigits(s: string)
    requires |s| > 0 && AllDigits(s)
    ensures Strip(s) == s
  {
    StripKeeps(s);
  }

  /** Typing `str(c)` and confirming reads the choice `c`. */
  lemma TypedNumber(n: nat, c: nat, confirm: string)
    requires 1 <= c <= n + 3 && Confirms(confirm)
    ensures ReadChoice(n, [NatToString(c), confirm]) == NumberChoice(n, c)
  {
    StripDigits(NatToString(c));
    ParseIntOfNatToString(c);
  }

  /** What menu number `c` stands for with `n` selectable events. */
  function NumberChoice(n: nat, c: nat): (r: Choice)
    requires 1 <= c <= n + 3
    ensures r.Pick? ==> r.index < n
  {
    if c <= n then Pick(c - 1) else if c == n + 1 then CreateNew else if c == n + 2 then Refresh else Quit
  }

  /** Typing a menu number and confirming selects what that number stands for among the shown events. */
  lemma SelectTyped(events: seq<Event>, c: nat, confirm: string)
    requires 1 <= c <= |Shown(events)| + 3 && Confirms(confirm)
    ensures Select(events, [NatToString(c), confirm]) == Resolve(Shown(events), NumberChoice(|Shown(events)|, c))
  {
    TypedNumber(|Shown(events)|, c, confirm);
  }

  /** As written, the number stands for the fetched event at that place. */
  lemma SelectAsWrittenTyped(events: seq<Event>, c: nat, confirm: string)
    requires 1 <= c <= |events| + 3 && Confirms(confirm)
    ensures SelectAsWritten(events, [NatToString(c), confirm]) == Resolve(events, NumberChoice(|events|, c))
  {
    TypedNumber(|events|, c, confirm);
  }

  /** Every number the menu shows selects what it is displayed next to. */
  lemma MenuNumberSelectsItem(events: seq<Event>, c: nat, confirm: string)
    requires |events| > 0 && 1 <= c <= |Shown(events)| + 3 && Confirms(confirm)
    ensures var item := Menu(events)[c - 1];
      var s := Select(events, [NatToString(c), confirm]);
      item.number == c
      && (item.ShowEvent? ==> s == Chosen(item.event))
      && (item.CreateItem? ==> s == Create)
      && (item.RefreshItem? ==> s == Reload)
      && (item.ExitItem? ==> s == Leave)
  {
    SelectTyped(events, c, confirm);
    MenuItemChoice(events, c);
  }

  /** What each menu number stands for matches the line it is displayed on. */
  lemma MenuItemChoice(events: seq<Event>, c: nat)
    requires |events| > 0 && 1 <= c <= |Shown(events)| + 3
    ensures var item := Menu(events)[c - 1];
      var s := Resolve(Shown(events), NumberChoice(|Shown(events)|, c));
      item.number == c
      && (item.ShowEvent? ==> s == Chosen(item.event))
      && (item.CreateItem? ==> s == Create)
      && (item.RefreshItem? ==> s == Reload)
      && (item.ExitItem? ==> s == Leave)
  {
    ItemStands(Shown(events), Menu(events), c);
  }

  /** The number-to-choice reading of any menu laid out like `Menu`. */
  lemma ItemStands(shown: seq<Event>, m: seq<MenuItem>, c: nat)
    requires |m| == |shown| + 3 && 1 <= c <= |shown| + 3
    requires forall i :: 0 <= i < |m| ==> m[i].number == i + 1
    requires forall i :: 0 <= i < |shown| ==> m[i] == ShowEvent(i + 1, shown[i])
    requires m[|shown|].CreateItem? && m[|shown| + 1].RefreshItem? && m[|shown| + 2].ExitItem?
    ensures var item := m[c - 1];
      var s := Resolve(shown, NumberChoice(|shown|, c));
      item.number == c
      && (item.ShowEvent? ==> s == Chosen(item.event))
      && (item.CreateItem? ==> s == Create)
      && (item.RefreshItem? ==> s == Reload)
      && (item.ExitItem? ==> s == Leave)
  {
  }

  lemma InGroupAppend(a: seq<Event>, b: seq<Event>, g: Group)
    ensures InGroup(a + b, g) == InGroup(a, g) + InGroup(b, g)
  {
    FilterAppend(a, b, Member(g));
  }

  lemma InGroup3(a: seq<Event>, b: seq<Event>, c: seq<Event>, g: Group)
    ensures InGroup(a + b + c, g) == InGroup(a, g) + InGroup(b, g) + InGroup(c, g)
  {
    InGroupAppend(a + b, c, g);
    InGroupAppend(a, b, g);
  }

  lemma InGroupAll(a: seq<Event>, g: Group)
    requires forall i :: 0 <= i < |a| ==> GroupOf(a[i]) == g
    ensures InGroup(a, g) == a
  {
    FilterAll(a, Member(g));
  }


  lemma InGroupNone(a: seq<Event>, g: Group)
    requires forall i :: 0 <= i < |a| ==> GroupOf(a[i]) != g
    ensures InGroup(a, g) == []
  {
    FilterNone(a, Member(g));
  }


  /** An already grouped list with at most ten events in the third section is shown as fetched. */
  lemma GroupedIsShownAsFetched(act: seq<Event>, up: seq<Event>, other: seq<Event>)
    requires forall i :: 0 <= i < |act| ==> GroupOf(act[i]) == ActiveGroup
    requires forall i :: 0 <= i < |up| ==> GroupOf(up[i]) == UpcomingGroup
    requires forall i :: 0 <= i < |other| ==> GroupOf(other[i]) == OtherGroup
    requires |other| <= OtherLimit
    ensures Shown(act + up + other) == act + up + other
  {
    var all := act + up + other;
    assert InGroup(all, ActiveGroup) == act by {
      InGroup3(act, up, other, ActiveGroup);
      InGroupAll(act, ActiveGroup);
      InGroupNone(up, ActiveGroup);
      InGroupNone(other, ActiveGroup);
    }
    assert InGroup(all, UpcomingGroup) == up by {
      InGroup3(act, up, other, UpcomingGroup);
      InGroupNone(act, UpcomingGroup);
      InGroupAll(up, UpcomingGroup);
      InGroupNone(other, UpcomingGroup);
    }
    assert InGroup(all, OtherGroup) == other by {
      InGroup3(act, up, other, OtherGroup);
      InGroupNone(act, OtherGroup);
      InGroupNone(up, OtherGroup);
      InGroupAll(other, OtherGroup);
    }
  }

  /** When the menu shows the events as fetched, both readings of a typed number agree. */
  lemma SelectionsAgreeWhenShownAsFetched(events: seq<Event>, answers: seq<string>)
    requires Shown(events) == events
    ensures SelectAsWritten(events, answers) == Select(events, answers)
  {
  }

  lemma InGroupHasMember(events: seq<Event>, g: Group, i: nat)
    requires i < |events| && GroupOf(events[i]) == g
    ensures |InGroup(events, g)| > 0
  {
    FilterHasMember(events, Member(g), i);
  }


  /**
   * As written, number 1 picks the first fetched event even when the menu shows an active
   * event, fetched later, under number 1.
   */
  lemma AsWrittenPicksFetchOrder(events: seq<Event>, i: nat, confirm: string)
    requires i < |events| && GroupOf(events[i]) == ActiveGroup && GroupOf(events[0]) != ActiveGroup
    requires Confirms(confirm)
    ensures Menu(events)[0] == ShowEvent(1, Shown(events)[0]) && GroupOf(Shown(events)[0]) == ActiveGroup
    ensures SelectAsWritten(events, [NatToString(1), confirm]) == Chosen(events[0])
    ensures Select(events, [NatToString(1), confirm]) == Chosen(Shown(events)[0])
    ensures Shown(events)[0] != events[0]
  {
    InGroupHasMember(events, ActiveGroup, i);
    SelectAsWrittenTyped(events, 1, confirm);
    SelectTyped(events, 1, confirm);
  }

  /**
   * As written, with more than ten events in the third section, the number the menu shows
   * next to "create" picks a fetched event instead.
   */
  lemma AsWrittenCreateNumberPicksEvent(events: seq<Event>, k: nat, confirm: string)
    requires |InGroup(events, OtherGroup)| > OtherLimit && Confirms(confirm)
    requires k == |Shown(events)|
    ensures k < |events| && Menu(events)[k] == CreateItem(k + 1)
    ensures SelectAsWritten(events, [NatToString(k + 1), confirm]) == Chosen(events[k])
    ensures Select(events, [NatToString(k + 1), confirm]) == Create
  {
    ShownFewer(events);
    CreateNumber(events);
    AsWrittenPicksAt(events, k, confirm);
    SelectCreateNumber(events, confirm);
  }

  /** With more than ten events in the third section, some fetched event is not shown. */
  lemma ShownFewer(events: seq<Event>)
    requires |InGroup(events, OtherGroup)| > OtherLimit
    ensures |Shown(events)| < |events|
  {
    ShownCount(events);
  }

  /** The number after the shown events creates a new event. */
  lemma SelectCreateNumber(events: seq<Event>, confirm: string)
    requires Confirms(confirm)
    ensures Select(events, [NatToString(|Shown(events)| + 1), confirm]) == Create
  {
    SelectTyped(events, |Shown(events)| + 1, confirm);
  }

  /** The number after the shown events is "create". */
  lemma CreateNumber(events: seq<Event>)
    requires |events| > 0
    ensures Menu(events)[|Shown(events)|] == CreateItem(|Shown(events)| + 1)
  {
  }

  /** As written, a number within the fetched events picks the fetched event at that place. */
  lemma AsWrittenPicksAt(events: seq<Event>, k: nat, confirm: string)
    requires k < |events| && Confirms(confirm)
    ensures SelectAsWritten(events, [NatToString(k + 1), confirm]) == Chosen(events[k])
  {
    SelectAsWrittenTyped(events, k + 1, confirm);
  }

  /**
   * What `get_user_selection` returns: the picked event's id, the id of an event created on
   * request, the marker "REFRESH", or `None`.
   */
  function UserSelection(s: Selection, created: Option<string>): Option<string> {
    match s
    case Chosen(e) => e.id
    case Create => created
    case Reload => Some("REFRESH")
    case Leave => None
  }

  /** One pass of `select_event_interactive`: no events fetched, or the selection made. */
  datatype Round = NoEvents(retryAnswer: string) | Answered(selection: Option<string>)

  /** A pass that ends the loop: a declined retry, or any selection other than the refresh marker. */
  predicate Settles(round: Round) {
    match round
    case NoEvents(a) => !Confirms(a)
    case Answered(sel) => sel != Some("REFRESH")
  }

  /** What a settling pass returns: nothing after a declined retry, otherwise the selection. */
  function Outcome(round: Round): Option<string> {
    match round
    case NoEvents(_) => None
    case Answered(sel) => sel
  }

  /**
   * `select_event_interactive`: a refresh or an accepted retry starts another pass; the
   * first other answer is returned.
   */
  function SelectInteractive(rounds: seq<Round>): (r: Option<string>)
    ensures r != Some("REFRESH")
    ensures r.Some? ==> exists i :: 0 <= i < |rounds| && rounds[i] == Answered(r)
    ensures |rounds| > 0 && Settles(rounds[0]) ==> r == Outcome(rounds[0])
    ensures |rounds| > 0 && !Settles(rounds[0]) ==> r == SelectInteractive(rounds[1..])
    decreases |rounds|
  {
    if |rounds| == 0 then None
    else match rounds[0]
      case NoEvents(a) =>
        if Confirms(a) then
          var r := SelectInteractive(rounds[1..]);
          assert r.Some? ==> exists i :: 0 <= i < |rounds[1..]| && rounds[1..][i] == Answered(r);
          r
        else None
      case Answered(sel) =>
        if sel == Some("REFRESH") then
          var r := SelectInteractive(rounds[1..]);
          assert r.Some? ==> exists i :: 0 <= i < |rounds[1..]| && rounds[1..][i] == Answered(r);
          r
        else sel
  }

  /** The loop returns what the first settling pass gives. */
  lemma {:induction false} SelectInteractiveFirstSettling(rounds: seq<Round>, k: nat)
    requires k < |rounds| && Settles(rounds[k])
    requires forall i :: 0 <= i < k ==> !Settles(rounds[i])
    ensures SelectInteractive(rounds) == Outcome(rounds[k])
    decreases k
  {
    if k > 0 {
      forall i | 0 <= i < k - 1
        ensures !Settles(rounds[1..][i])
      {
        assert rounds[1..][i] == rounds[i + 1];
      }
      SelectInteractiveFirstSettling(rounds[1..], k - 1);
    }
  }

  /**
   * When no pass settles (the answers run out), the loop returns nothing: any returned
   * selection is some pass's answer other than the marker, and such a pass settles.
   */
  lemma SelectInteractiveUnsettled(rounds: seq<Round>)
    requires forall i :: 0 <= i < |rounds| ==> !Settles(rounds[i])
    ensures SelectInteractive(rounds).None?
  {
  }

  /** An event whose id is literally "REFRESH" can be picked but is never returned: picking it refreshes. */
  lemma RefreshIdIsNeverReturned(e: Event, rest: seq<Round>)
    requires e.id == Some("REFRESH")
    ensures SelectInteractive([Answered(UserSelection(Chosen(e), None))] + rest) == SelectInteractive(rest)
  {
    assert ([Answered(UserSelection(Chosen(e), None))] + rest)[1..] == rest;
  }
}

=== FILE: face_detection.dfy ===
/**
 * Face protection around AI enhancement: padded face boxes, the elliptical face mask,
 * the softened image handed to the enhancer, and the restore blend that brings the
 * original faces back afterwards.
 *
 * OpenCV's Haar detector, Gaussian blurs and ellipse rasteriser are parameters: the
 * detector is an outcome (`None` when it raised), a blur is a function giving the
 * blurred value at one coordinate, and the rasteriser says which pixels a filled
 * ellipse paints.
 */
module FaceDetection {
  import opened Wrappers
  import opened Imaging

  /** A detection `(x, y, w, h)` as returned by `detectMultiScale`. */
  datatype Face = Face(x: int, y: int, w: int, h: int)

  /** A padded box clamped to the image, corners `(x1, y1)` and `(x2, y2)`. */
  datatype Box = Box(x1: int, y1: int, x2: int, y2: int)

  /** The arguments of `cv2.ellipse`: centre and semi-axes. */
  datatype Ellipse = Ellipse(cx: int, cy: int, rx: int, ry: int)

  /** Which pixels (row, column) a filled `cv2.ellipse` paints. */
  type Raster = (Ellipse, int, int) -> bool

  /** `detect_faces`: the detector's boxes, or no faces when the detector raised. */
  function DetectFaces(outcome: Option<seq<Face>>): (faces: seq<Face>)
    ensures outcome.None? ==> faces == []
    ensures outcome.Some? ==> faces == outcome.value
  {
    outcome.GetOr([])
  }

  /** The face box grown by `padding` on every side and clamped to a `width` x `height` image. */
  function PaddedBox(f: Face, width: nat, height: nat, padding: nat): (b: Box)
    ensures 0 <= b.x1 && 0 <= b.y1 && b.x2 <= width && b.y2 <= height
    ensures b.x1 <= f.x && f.x + f.w <= width ==> f.x + f.w <= b.x2
    ensures b.y1 <= f.y && f.y + f.h <= height ==> f.y + f.h <= b.y2
    ensures 0 <= f.x - padding ==> b.x1 == f.x - padding
    ensures f.x + f.w + padding <= width ==> b.x2 == f.x + f.w + padding
  {
    Box(Max(0, f.x - padding), Max(0, f.y - padding),
        Min(width, f.x + f.w + padding), Min(height, f.y + f.h + padding))
  }

  /** The ellipse drawn for a box: centre `(x1+x2)//2`, semi-axes `(x2-x1)//2`. */
  function InscribedEllipse(b: Box): (e: Ellipse)
    ensures b.x1 <= b.x2 ==> 0 <= e.rx && b.x1 <= e.cx - e.rx && e.cx + e.rx <= b.x2
    ensures b.y1 <= b.y2 ==> 0 <= e.ry && b.y1 <= e.cy - e.ry && e.cy + e.ry <= b.y2
    ensures b.x2 < b.x1 || b.y2 < b.y1 <==> e.rx < 0 || e.ry < 0
  {
    Ellipse((b.x1 + b.x2) / 2, (b.y1 + b.y2) / 2, (b.x2 - b.x1) / 2, (b.y2 - b.y1) / 2)
  }

  function FaceEllipse(f: Face, width: nat, height: nat, padding: nat): Ellipse {
    InscribedEllipse(PaddedBox(f, width, height, padding))
  }

  /** `cv2.ellipse` refuses negative semi-axes; a box lying wholly outside the image has them. */
  predicate Drawable(e: Ellipse) {
    e.rx >= 0 && e.ry >= 0
  }

  /** A filled ellipse paints only pixels of its bounding rectangle. */
  predicate Painted(raster: Raster, e: Ellipse, i: int, j: int) {
    raster(e, i, j) && e.cx - e.rx <= j <= e.cx + e.rx && e.cy - e.ry <= i <= e.cy + e.ry
  }

  /** `cv2.ellipse(mask, ..., 255, -1)`: the painted pixels become 255. */
  function DrawEllipse(m: Mask, e: Ellipse, raster: Raster): (r: Mask)
    ensures HasShape(r, Height(m), Width(m))
    ensures forall i, j :: InBounds(m, i, j) ==> r[i][j] == if Painted(raster, e, i, j) then 255 else m[i][j]
  {
    MapCells(m, (i, j, v: Byte) => if Painted(raster, e, i, j) then 255 else v)
  }

  /** The loop of `create_face_mask`: one ellipse per face, in order; `None` when a draw raises. */
  function PaintFaces(m: Mask, faces: seq<Face>, height: nat, width: nat, padding: nat, raster: Raster): (r: Option<Mask>)
    requires HasShape(m, height, width)
    ensures r.Some? ==> HasShape(r.value, height, width)
    decreases |faces|
  {
    if |faces| == 0 then Some(m)
    else
      var e := FaceEllipse(faces[0], width, height, padding);
      if !Drawable(e) then None
      else PaintFaces(DrawEllipse(m, e, raster), faces[1..], height, width, padding, raster)
  }

  /** `create_face_mask` on a `height` x `width` image. */
  function CreateFaceMask(height: nat, width: nat, faces: seq<Face>, padding: nat, raster: Raster): (r: Option<Mask>)
    ensures r.Some? ==> HasShape(r.value, height, width)
  {
    PaintFaces(Zeros(height, width), faces, height, width, padding, raster)
  }

  /** Reference definition: some face's ellipse paints pixel (i, j). */
  predicate Covered(faces: seq<Face>, height: nat, width: nat, padding: nat, raster: Raster, i: int, j: int) {
    exists k :: 0 <= k < |faces| && Painted(raster, FaceEllipse(faces[k], width, height, padding), i, j)
  }

  predicate AllDrawable(faces: seq<Face>, height: nat, width: nat, padding: nat) {
    forall k :: 0 <= k < |faces| ==> Drawable(FaceEllipse(faces[k], width, height, padding))
  }

  lemma DrawableStep(faces: seq<Face>, height: nat, width: nat, padding: nat)
    requires |faces| > 0
    ensures AllDrawable(faces, height, width, padding)
            <==> Drawable(FaceEllipse(faces[0], width, height, padding)) && AllDrawable(faces[1..], height, width, padding)
  {
    var rest := faces[1..];
    if Drawable(FaceEllipse(faces[0], width, height, padding)) && AllDrawable(rest, height, width, padding) {
      forall k | 0 <= k < |faces| ensures Drawable(FaceEllipse(faces[k], width, height, padding)) {
        if k > 0 { assert faces[k] == rest[k - 1]; }
      }
    }
  }

  lemma CoveredStep(faces: seq<Face>, height: nat, width: nat, padding: nat, raster: Raster, i: int, j: int)
    requires |faces| > 0
    ensures Covered(faces, height, width, padding, raster, i, j)
            <==> Painted(raster, FaceEllipse(faces[0], width, height, padding), i, j)
                 || Covered(faces[1..], height, width, padding, raster, i, j)
  {
    var rest := faces[1..];
    if Covered(rest, height, width, padding, raster, i, j) {
      var k :| 0 <= k < |rest| && Painted(raster, FaceEllipse(rest[k], width, height, padding), i, j);
      assert rest[k] == faces[k + 1];
    }
    if Covered(faces, height, width, padding, raster, i, j) {
      var k :| 0 <= k < |faces| && Painted(raster, FaceEllipse(faces[k], width, height, padding), i, j);
      if k > 0 { assert faces[k] == rest[k - 1]; }
    }
  }

  lemma {:induction false} PaintFacesSome(m: Mask, faces: seq<Face>, height: nat, width: nat, padding: nat, raster: Raster)
    requires HasShape(m, height, width)
    ensures PaintFaces(m, faces, height, width, padding, raster).Some? <==> AllDrawable(faces, height, width, padding)
    decreases |faces|
  {
    if |faces| > 0 {
      DrawableStep(faces, height, width, padding);
      var e := FaceEllipse(faces[0], width, height, padding);
      if Drawable(e) {
        PaintFacesSome(DrawEllipse(m, e, raster), faces[1..], height, width, padding, raster);
      }
    }
  }

  lemma {:induction false} PaintFacesValues(m: Mask, faces: seq<Face>, height: nat, width: nat, padding: nat, raster: Raster,
                                            i: int, j: int)
    requires HasShape(m, height, width) && 0 <= i < height && 0 <= j < width
    requires PaintFaces(m, faces, height, width, padding, raster).Some?
    ensures PaintFaces(m, faces, height, width, padding, raster).value[i][j]
            == if Covered(faces, height, width, padding, raster, i, j) then 255 else m[i][j]
    decreases |faces|
  {
    if |faces| > 0 {
      var e := FaceEllipse(faces[0], width, height, padding);
      var m' := DrawEllipse(m, e, raster);
      assert InBounds(m, i, j);
      PaintFacesValues(m', faces[1..], height, width, padding, raster, i, j);
      CoveredStep(faces, height, width, padding, raster, i, j);
    }
  }

  /**
   * The mask exists exactly when every face box overlaps the image; it holds only 0 and
   * 255, and is 255 exactly where some face's ellipse paints.
   */
  lemma FaceMaskMeaning(height: nat, width: nat, faces: seq<Face>, padding: nat, raster: Raster)
    ensures CreateFaceMask(height, width, faces, padding, raster).Some? <==> AllDrawable(faces, height, width, padding)
    ensures CreateFaceMask(height, width, faces, padding, raster).Some? ==>
      forall i, j :: 0 <= i < height && 0 <= j < width ==>
        var v := CreateFaceMask(height, width, faces, padding, raster).value[i][j];
        (v == 0 || v == 255) && (v == 255 <==> Covered(faces, height, width, padding, raster, i, j))
  {
    var z := Zeros(height, width);
    PaintFacesSome(z, faces, height, width, padding, raster);
    if CreateFaceMask(height, width, faces, padding, raster).Some? {
      forall i, j | 0 <= i < height && 0 <= j < width
        ensures var v := CreateFaceMask(height, width, faces, padding, raster).value[i][j];
          (v == 0 || v == 255) && (v == 255 <==> Covered(faces, height, width, padding, raster, i, j))
      {
        PaintFacesValues(z, faces, height, width, padding, raster, i, j);
      }
    }
  }

  /** With no faces the mask is all zero. */
  lemma EmptyFaceMask(height: nat, width: nat, padding: nat, raster: Raster)
    ensures CreateFaceMask(height, width, [], padding, raster) == Some(Zeros(height, width))
    ensures AllZero(Zeros(height, width))
  {
  }

  /** The mask does not depend on the order in which faces are listed. */
  lemma FaceMaskOrderIndependent(height: nat, width: nat, f1: seq<Face>, f2: seq<Face>, padding: nat, raster: Raster)
    requires multiset(f1) == multiset(f2)
    ensures CreateFaceMask(height, width, f1, padding, raster) == CreateFaceMask(height, width, f2, padding, raster)
  {
    FaceMaskMeaning(height, width, f1, padding, raster);
    FaceMaskMeaning(height, width, f2, padding, raster);
    SameFacesSameCoverage(height, width, f1, f2, padding, raster);
    SameFacesSameCoverage(height, width, f2, f1, padding, raster);
    var c1 := CreateFaceMask(height, width, f1, padding, raster);
    var c2 := CreateFaceMask(height, width, f2, padding, raster);
    if c1.Some? {
      SameMaskPointwise(c1.value, c2.value, height, width);
    }
  }

  lemma SameMaskPointwise(m1: Mask, m2: Mask, height: nat, width: nat)
    requires HasShape(m1, height, width) && HasShape(m2, height, width)
    requires forall i, j :: 0 <= i < height && 0 <= j < width ==> (m1[i][j] == 255 <==> m2[i][j] == 255)
    requires forall i, j :: 0 <= i < height && 0 <= j < width ==> (m1[i][j] == 0 || m1[i][j] == 255) && (m2[i][j] == 0 || m2[i][j] == 255)
    ensures m1 == m2
  {
    forall i | 0 <= i < height ensures m1[i] == m2[i] {
      forall j | 0 <= j < width ensures m1[i][j] == m2[i][j] {
      }
    }
  }

  lemma SameFacesSameCoverage(height: nat, width: nat, f1: seq<Face>, f2: seq<Face>, padding: nat, raster: Raster)
    requires multiset(f1) == multiset(f2)
    ensures AllDrawable(f2, height, width, padding) ==> AllDrawable(f1, height, width, padding)
    ensures forall i, j :: Covered(f1, height, width, padding, raster, i, j) ==> Covered(f2, height, width, padding, raster, i, j)
  {
    if AllDrawable(f2, height, width, padding) {
      forall k | 0 <= k < |f1| ensures Drawable(FaceEllipse(f1[k], width, height, padding)) {
        assert f1[k] in multiset(f2);
        var k2 :| 0 <= k2 < |f2| && f2[k2] == f1[k];
      }
    }
    forall i, j | Covered(f1, height, width, padding, raster, i, j)
      ensures Covered(f2, height, width, padding, raster, i, j)
    {
      var k :| 0 <= k < |f1| && Painted(raster, FaceEllipse(f1[k], width, height, padding), i, j);
      assert f1[k] in multiset(f2);
      var k2 :| 0 <= k2 < |f2| && f2[k2] == f1[k];
    }
  }

  /** Every painted pixel lies inside the padded, clamped box of the face that painted it. */
  lemma PaintedWithinBox(f: Face, width: nat, height: nat, padding: nat, raster: Raster, i: int, j: int)
    requires Drawable(FaceEllipse(f, width, height, padding))
    requires Painted(raster, FaceEllipse(f, width, height, padding), i, j)
    ensures var b := PaddedBox(f, width, height, padding);
      b.x1 <= j <= b.x2 && b.y1 <= i <= b.y2 && 0 <= j <= width && 0 <= i <= height
  {
  }

  /** The result of `apply_face_protection`. */
  datatype Protection = Protection(softened: Image, mask: Mask, hasFaces: bool)

  /** The unprotected result: a copy of the image, an all-zero mask, no faces. */
  function Unprotected(img: Image, width: nat): Protection {
    Protection(img, Zeros(Height(img), width), false)
  }

  /**
   * `apply_face_protection`: detect, build the mask, blur the face area with a 15x15
   * kernel and add it (saturating) to the rest of the image. A detector failure means no
   * faces; a mask that cannot be drawn is the exception path.
   */
  function ApplyFaceProtection(img: Image, width: nat, detected: Option<seq<Face>>, padding: nat, raster: Raster,
                               blur15: (Image, int, int) -> Pixel): (p: Protection)
    requires HasShape(img, Height(img), width)
    ensures HasShape(p.softened, Height(img), width) && HasShape(p.mask, Height(img), width)
    ensures !p.hasFaces ==> p == Unprotected(img, width)
    ensures p.hasFaces <==> |DetectFaces(detected)| > 0 && AllDrawable(DetectFaces(detected), Height(img), width, padding)
    ensures p.hasFaces ==> Some(p.mask) == CreateFaceMask(Height(img), width, DetectFaces(detected), padding, raster)
    ensures p.hasFaces ==> p.softened == Soften(img, p.mask, width, blur15)
  {
    var faces := DetectFaces(detected);
    FaceMaskMeaning(Height(img), width, faces, padding, raster);
    if |faces| == 0 then Unprotected(img, width)
    else match CreateFaceMask(Height(img), width, faces, padding, raster)
      case None => Unprotected(img, width)
      case Some(m) => Protection(Soften(img, m, width, blur15), m, true)
  }

  /** `cv2.add(non_face_area, GaussianBlur(face_area))`. */
  function Soften(img: Image, m: Mask, width: nat, blur15: (Image, int, int) -> Pixel): (r: Image)
    requires HasShape(img, Height(img), width) && HasShape(m, Height(img), width)
    ensures HasShape(r, Height(img), width)
  {
    var faceArea := KeepWhere(img, m);
    var nonFace := KeepWhere(img, Invert(m));
    Build(Height(img), width, (i, j) =>
      if 0 <= i < |nonFace| && 0 <= j < |nonFace[i]| then SatAddPixel(nonFace[i][j], blur15(faceArea, i, j)) else Black)
  }

  /**
   * Inside the mask the softened pixel is the blurred face area alone (the rest of the
   * image is blacked out there); outside it the original pixel gains the blur's spill.
   */
  lemma SoftenedPixels(img: Image, width: nat, m: Mask, blur15: (Image, int, int) -> Pixel, i: int, j: int)
    requires HasShape(img, Height(img), width) && HasShape(m, Height(img), width)
    requires 0 <= i < Height(img) && 0 <= j < width
    requires m[i][j] == 0 || m[i][j] == 255
    ensures var q := blur15(KeepWhere(img, m), i, j);
      && (m[i][j] == 255 ==> Soften(img, m, width, blur15)[i][j] == q)
      && (m[i][j] == 0 ==> Soften(img, m, width, blur15)[i][j] == SatAddPixel(img[i][j], q))
  {
    var q := blur15(KeepWhere(img, m), i, j);
    SoftenAt(img, m, width, blur15, i, j);
    NonFaceAt(img, m, width, i, j);
    if m[i][j] == 255 {
      assert SatAddPixel(Black, q) == q;
    }
  }

  /** One softened pixel: the non-face pixel plus the blurred face area at that point. */
  lemma SoftenAt(img: Image, m: Mask, width: nat, blur15: (Image, int, int) -> Pixel, i: int, j: int)
    requires HasShape(img, Height(img), width) && HasShape(m, Height(img), width)
    requires 0 <= i < Height(img) && 0 <= j < width
    ensures Soften(img, m, width, blur15)[i][j]
            == SatAddPixel(KeepWhere(img, Invert(m))[i][j], blur15(KeepWhere(img, m), i, j))
  {
  }

  /** The non-face image keeps the pixels outside the mask and blacks out those inside it. */
  lemma NonFaceAt(img: Image, m: Mask, width: nat, i: int, j: int)
    requires HasShape(img, Height(img), width) && HasShape(m, Height(img), width)
    requires 0 <= i < Height(img) && 0 <= j < width
    requires m[i][j] == 0 || m[i][j] == 255
    ensures m[i][j] == 0 ==> KeepWhere(img, Invert(m))[i][j] == img[i][j]
    ensures m[i][j] == 255 ==> KeepWhere(img, Invert(m))[i][j] == Black
  {
    assert InBounds(img, i, j) && InBounds(m, i, j);
  }

  /**
   * `restore_face_areas`: an all-zero mask, or arrays whose shapes do not broadcast
   * (the exception path), give back the enhanced image; otherwise every channel is
   * `clip(enh*(1-a) + orig*a)` with `a` the 21x21-blurred mask over 255.
   */
  function RestoreFaceAreas(enhanced: Image, original: Image, mask: Mask, blur21: (Mask, int, int) -> Byte): (r: Image)
    ensures AllZero(mask) ==> r == enhanced
    ensures !SameShape(enhanced, original) || !SameShape(enhanced, mask) ==> r == enhanced
    ensures HasShape(r, Height(enhanced), Width(enhanced))
    ensures !AllZero(mask) && SameShape(enhanced, original) && SameShape(enhanced, mask) ==>
      forall i, j :: InBounds(enhanced, i, j) ==>
        r[i][j] == BlendPixel(enhanced[i][j], original[i][j], blur21(mask, i, j) as real / 255.0)
    ensures !AllZero(mask) && SameShape(enhanced, original) && SameShape(enhanced, mask) ==>
      forall i, j :: InBounds(enhanced, i, j) ==>
        var a := blur21(mask, i, j);
        Between(r[i][j], enhanced[i][j], original[i][j])
        && (a == 255 ==> r[i][j] == original[i][j])
        && (a == 0 ==> r[i][j] == enhanced[i][j])
  {
    if AllZero(mask) then enhanced
    else if !SameShape(enhanced, original) || !SameShape(enhanced, mask) then enhanced
    else
      RestoreCells(enhanced, original, mask, blur21);
      MapCells(enhanced, RestoreCell(original, mask, blur21))
  }

  /** What `RestoreFaceAreas` does to the enhanced pixel `e` at row `i`, column `j`. */
  function RestoreCell(original: Image, mask: Mask, blur21: (Mask, int, int) -> Byte): (int, int, Pixel) -> Pixel {
    (i, j, e: Pixel) =>
      if InBounds(original, i, j) then BlendPixel(e, original[i][j], blur21(mask, i, j) as real / 255.0) else e
  }

  lemma RestoreCells(enhanced: Image, original: Image, mask: Mask, blur21: (Mask, int, int) -> Byte)
    requires SameShape(enhanced, original)
    ensures var r := MapCells(enhanced, RestoreCell(original, mask, blur21));
      forall i, j :: InBounds(enhanced, i, j) ==>
        r[i][j] == BlendPixel(enhanced[i][j], original[i][j], blur21(mask, i, j) as real / 255.0)
    ensures var r := MapCells(enhanced, RestoreCell(original, mask, blur21));
      forall i, j :: InBounds(enhanced, i, j) ==>
        var a := blur21(mask, i, j);
        Between(r[i][j], enhanced[i][j], original[i][j])
        && (a == 255 ==> r[i][j] == original[i][j])
        && (a == 0 ==> r[i][j] == enhanced[i][j])
  {
    var r := MapCells(enhanced, RestoreCell(original, mask, blur21));
    forall i, j | InBounds(enhanced, i, j)
      ensures r[i][j] == BlendPixel(enhanced[i][j], original[i][j], blur21(mask, i, j) as real / 255.0)
    {
      assert InBounds(original, i, j);
      assert r[i][j] == RestoreCell(original, mask, blur21)(i, j, enhanced[i][j]);
    }
  }
}

=== FILE: folder_watcher.dfy ===
/**
 * The folder watcher: a periodic scan picks up image files not seen before, identified by
 * the key `name_size`; each new file is processed by the same enhancement and
 * post-processing chain and optionally uploaded, and counters record the results.
 *
 * A directory listing is a sequence of entries in the order the scan visits them; `size`
 * is `None` when `stat()` raises for that file. Processing is one atomic step per file.
 */
module FolderWatcher {
  import opened Wrappers
  import opened Text
  import opened GeminiEnhancer

  /** A file in the watched folder; `size == None` when reading its size raises. */
  datatype FileEntry = FileEntry(name: string, size: Option<nat>)

  /** The extensions the scan globs for, each also in upper case. */
  const Extensions: seq<string> := [".jpg", ".jpeg", ".png", ".tiff", ".bmp"]

  /** `glob("*" + ext)` or `glob("*" + ext.upper())` matches the name for some listed extension. */
  predicate Watched(name: string) {
    exists k :: 0 <= k < |Extensions| && (EndsWith(name, Extensions[k]) || EndsWith(name, ToUpper(Extensions[k])))
  }

  /** The dedupe key `f"{name}_{size}"`. */
  function Key(name: string, size: nat): (k: string)
    ensures |k| > |name| + 1 && k[..|name|] == name && k[|name|] == '_'
    ensures AllDigits(k[|name| + 1..])
  {
    var d := NatToString(size);
    assert (name + "_" + d)[|name| + 1..] == d;
    name + "_" + d
  }

  /** The key identifies the (name, size) pair: the size's digits hold no `_`. */
  lemma KeyInjective(n1: string, s1: nat, n2: string, s2: nat)
    requires Key(n1, s1) == Key(n2, s2)
    ensures n1 == n2 && s1 == s2
  {
    var k := Key(n1, s1);
    if |n1| != |n2| {
      assert false;
    }
    assert n1 == k[..|n1|] == n2;
    assert NatToString(s1) == k[|n1| + 1..] == NatToString(s2);
    NatToStringInjective(s1, s2);
  }

  /** What one scan returns and the updated `processed_files`. */
  datatype Scan = Scan(offered: set<string>, processed: set<string>)

  /** A file the scan should offer: watched, readable size, key not yet seen. */
  predicate Fresh(f: FileEntry, processed: set<string>) {
    Watched(f.name) && f.size.Some? && Key(f.name, f.size.value) !in processed
  }

  /**
   * `scan_folder` as written: keys are inserted while the files are visited, and when
   * `stat()` raises the whole scan returns the empty set, keeping the keys already inserted.
   * `aborted` tells whether that happened.
   */
  function ScanVisit(files: seq<FileEntry>, processed: set<string>): (r: (Scan, bool))
    ensures processed <= r.0.processed
    ensures r.0.offered <= set f | f in files :: f.name
    decreases |files|
  {
    if |files| == 0 then (Scan({}, processed), false)
    else
      var f := files[0];
      if !Watched(f.name) then ScanVisit(files[1..], processed)
      else if f.size.None? then (Scan({}, processed), true)
      else
        var k := Key(f.name, f.size.value);
        if k in processed then ScanVisit(files[1..], processed)
        else
          var rest := ScanVisit(files[1..], processed + {k});
          if rest.1 then rest else (rest.0.(offered := {f.name} + rest.0.offered), false)
  }

  function ScanFolderAsWritten(files: seq<FileEntry>, processed: set<string>): (r: Scan)
    ensures processed <= r.processed
  {
    ScanVisit(files, processed).0
  }

  /** `scan_folder` with a file whose size cannot be read skipped instead of ending the scan. */
  function ScanFolder(files: seq<FileEntry>, processed: set<string>): (r: Scan)
    ensures processed <= r.processed
    ensures r.offered <= set f | f in files :: f.name
    decreases |files|
  {
    if |files| == 0 then Scan({}, processed)
    else
      var f := files[0];
      if Fresh(f, processed) then
        var rest := ScanFolder(files[1..], processed + {Key(f.name, f.size.value)});
        rest.(offered := {f.name} + rest.offered)
      else ScanFolder(files[1..], processed)
  }

  /** No two entries of a listing share a name. */
  predicate DistinctNames(files: seq<FileEntry>) {
    forall i, j :: 0 <= i < j < |files| ==> files[i].name != files[j].name
  }

  /** The corrected scan offers a file exactly when it is fresh. */
  lemma {:induction false} ScanFolderOffersFresh(files: seq<FileEntry>, processed: set<string>)
    requires DistinctNames(files)
    ensures forall i :: 0 <= i < |files| ==> (files[i].name in ScanFolder(files, processed).offered <==> Fresh(files[i], processed))
    decreases |files|
  {
    if |files| > 0 {
      var f := files[0];
      var tail := files[1..];
      assert DistinctNames(tail);
      var p1 := if Fresh(f, processed) then processed + {Key(f.name, f.size.value)} else processed;
      ScanFolderOffersFresh(tail, p1);
      var r := ScanFolder(files, processed);
      var rt := ScanFolder(tail, p1);
      FreshAfterOwnKey(files, processed);
      forall i | 0 <= i < |files|
        ensures files[i].name in r.offered <==> Fresh(files[i], processed)
      {
        if i > 0 {
          assert files[i] == tail[i - 1];
          assert files[i].name != f.name;
        } else if f.name in rt.offered {
          ScanOffersListed(tail, p1, f.name);
        }
      }
    }
  }

  /** The keys the corrected scan records: those of the fresh files, and nothing else. */
  function FreshKeys(files: seq<FileEntry>, processed: set<string>): set<string> {
    set i | 0 <= i < |files| && Fresh(files[i], processed) :: Key(files[i].name, files[i].size.value)
  }

  /** The corrected scan records the key of exactly the fresh files. */
  lemma {:induction false} ScanFolderRecordsFresh(files: seq<FileEntry>, processed: set<string>)
    requires DistinctNames(files)
    ensures ScanFolder(files, processed).processed == processed + FreshKeys(files, processed)
    decreases |files|
  {
    if |files| > 0 {
      var f := files[0];
      var tail := files[1..];
      assert DistinctNames(tail);
      var p1 := if Fresh(f, processed) then processed + {Key(f.name, f.size.value)} else processed;
      ScanFolderRecordsFresh(tail, p1);
      FreshKeysCons(files, processed);
    }
  }

  /** The fresh keys of a listing: the first file's key, if fresh, then the fresh keys of the rest. */
  lemma FreshKeysCons(files: seq<FileEntry>, processed: set<string>)
    requires DistinctNames(files) && |files| > 0
    ensures var f := files[0];
      var p1 := if Fresh(f, processed) then processed + {Key(f.name, f.size.value)} else processed;
      processed + FreshKeys(files, processed) == p1 + FreshKeys(files[1..], p1)
  {
    var f := files[0];
    var tail := files[1..];
    var p1 := if Fresh(f, processed) then processed + {Key(f.name, f.size.value)} else processed;
    FreshAfterOwnKey(files, processed);
    var all := FreshKeys(files, processed);
    var rest := FreshKeys(tail, p1);
    forall k | k in all ensures k in p1 + rest {
      var i :| 0 <= i < |files| && Fresh(files[i], processed) && k == Key(files[i].name, files[i].size.value);
      if i > 0 {
        assert files[i] == tail[i - 1];
        if k !in p1 {
          assert Fresh(tail[i - 1], p1);
        }
      }
    }
    forall k | k in p1 + rest ensures k in processed + all {
      if k in rest {
        var i :| 0 <= i < |tail| && Fresh(tail[i], p1) && k == Key(tail[i].name, tail[i].size.value);
        assert files[i + 1] == tail[i];
      } else if k !in processed {
        assert Fresh(files[0], processed);
      }
    }
  }

  /** Every offered name belongs to a listed entry. */
  lemma ScanOffersListed(files: seq<FileEntry>, processed: set<string>, name: string)
    requires name in ScanFolder(files, processed).offered
    ensures exists i :: 0 <= i < |files| && files[i].name == name
  {
    assert name in set f | f in files :: f.name;
    var f :| f in files && f.name == name;
  }

  /** Inside one listing, recording one file's key leaves every other file's freshness intact. */
  lemma FreshAfterOwnKey(files: seq<FileEntry>, processed: set<string>)
    requires DistinctNames(files) && |files| > 0
    ensures forall i :: 0 < i < |files| && Fresh(files[0], processed) ==>
              (Fresh(files[i], processed + {Key(files[0].name, files[0].size.value)}) <==> Fresh(files[i], processed))
  {
    forall i | 0 < i < |files| && Fresh(files[0], processed) && Fresh(files[i], processed)
      ensures Key(files[i].name, files[i].size.value) != Key(files[0].name, files[0].size.value)
    {
      if Key(files[i].name, files[i].size.value) == Key(files[0].name, files[0].size.value) {
        KeyInjective(files[i].name, files[i].size.value, files[0].name, files[0].size.value);
      }
    }
  }

  /** Rescanning an unchanged folder offers nothing. */
  lemma {:induction false} RescanOffersNothing(files: seq<FileEntry>, processed: set<string>)
    requires DistinctNames(files)
    ensures ScanFolder(files, ScanFolder(files, processed).processed).offered == {}
  {
    var p := ScanFolder(files, processed).processed;
    ScanFolderRecordsFresh(files, processed);
    ScanFolderOffersFresh(files, p);
    forall i | 0 <= i < |files| ensures !Fresh(files[i], p) {
      if Fresh(files[i], processed) {
        assert Key(files[i].name, files[i].size.value) in p;
      }
    }
    var r := ScanFolder(files, p);
    forall n | n in r.offered ensures false {
      ScanOffersListed(files, p, n);
    }
  }

  /** When every size can be read, the scan as written and the corrected scan agree. */
  lemma {:induction false} ScansAgreeWithoutStatFailure(files: seq<FileEntry>, processed: set<string>)
    requires forall i :: 0 <= i < |files| ==> files[i].size.Some?
    ensures ScanVisit(files, processed).1 == false
    ensures ScanFolderAsWritten(files, processed) == ScanFolder(files, processed)
    decreases |files|
  {
    if |files| > 0 {
      var f := files[0];
      var p1 := if Fresh(f, processed) then processed + {Key(f.name, f.size.value)} else processed;
      ScansAgreeWithoutStatFailure(files[1..], p1);
    }
  }

  /**
   * As written, a stat failure later in the same scan loses a fresh file for good: the scan
   * offers nothing, yet the file's key is recorded, so the next scan skips it even once the
   * other file is readable again.
   */
  lemma AsWrittenLosesFile(a: FileEntry, b: FileEntry, processed: set<string>)
    requires Fresh(a, processed) && Watched(b.name) && b.size.None?
    ensures ScanFolderAsWritten([a, b], processed).offered == {}
    ensures Key(a.name, a.size.value) in ScanFolderAsWritten([a, b], processed).processed
    ensures a.name !in ScanFolderAsWritten([a], ScanFolderAsWritten([a, b], processed).processed).offered
    ensures a.name in ScanFolder([a, b], processed).offered
  {
    var k := Key(a.name, a.size.value);
    assert [a, b][1..] == [b];
    assert [b][1..] == [];
    assert [a][1..] == [];
    assert ScanVisit([b], processed + {k}) == (Scan({}, processed + {k}), true);
  }

  /** `total_detected`, `total_processed`, `total_uploaded` and `total_errors`. */
  datatype Stats = Stats(detected: nat, processed: nat, uploaded: nat, errors: nat)

  /** How `process_image` ends for one file. */
  datatype Outcome =
    | Raised                               // an exception escaped a processing step
    | Unreadable                           // `cv2.imread` returned None
    | PipelineFailed                       // `process_full_pipeline` reported failure
    | Done(uploadTried: bool, uploadOk: bool)

  /**
   * `process_image`: success counts a processed file and, when the upload ran and
   * succeeded, an uploaded one; an exception counts an error; a load or pipeline failure
   * returns False and touches no counter.
   */
  function ProcessImage(s: Stats, o: Outcome): (r: (Stats, bool))
    ensures r.1 <==> o.Done?
    ensures r.0.detected == s.detected
    ensures r.0.processed == s.processed + (if o.Done? then 1 else 0)
    ensures r.0.uploaded == s.uploaded + (if o.Done? && o.uploadTried && o.uploadOk then 1 else 0)
    ensures r.0.errors == s.errors + (if o == Raised then 1 else 0)
  {
    match o
    case Raised => (s.(errors := s.errors + 1), false)
    case Unreadable => (s, false)
    case PipelineFailed => (s, false)
    case Done(tried, ok) =>
      var s1 := if tried && ok then s.(uploaded := s.uploaded + 1) else s;
      (s1.(processed := s1.processed + 1), true)
  }

  /** Uploads never outnumber processed files. */
  predicate Consistent(s: Stats) {
    s.uploaded <= s.processed
  }

  /** Every counter of `t` is at least the matching counter of `s`. */
  predicate NoneDecreased(s: Stats, t: Stats) {
    s.detected <= t.detected && s.processed <= t.processed && s.uploaded <= t.uploaded && s.errors <= t.errors
  }

  /** Processing one file keeps the counters consistent, lowers none of them and books at most one outcome. */
  lemma ProcessImageKeepsConsistent(s: Stats, o: Outcome)
    requires Consistent(s)
    ensures Consistent(ProcessImage(s, o).0)
    ensures NoneDecreased(s, ProcessImage(s, o).0)
    ensures ProcessImage(s, o).0.processed + ProcessImage(s, o).0.errors <= s.processed + s.errors + 1
  {
  }

  /** One pass of the watch loop: scan, count detections, submit the new files while running. */
  datatype Step = Step(stats: Stats, processed: set<string>, submitted: set<string>)

  function WatchStep(s: Stats, processed: set<string>, files: seq<FileEntry>, running: bool): (r: Step)
    ensures r.stats.detected == s.detected + |ScanFolder(files, processed).offered|
    ensures r.stats.processed == s.processed && r.stats.uploaded == s.uploaded && r.stats.errors == s.errors
    ensures r.submitted == (if running then ScanFolder(files, processed).offered else {})
    ensures processed <= r.processed
  {
    var scan := ScanFolder(files, processed);
    Step(s.(detected := s.detected + |scan.offered|), scan.processed, if running then scan.offered else {})
  }

  /**
   * One pass of the loop as written: `scan_folder` ends early when a size cannot be read,
   * keeping the keys it already inserted.
   */
  function WatchStepAsWritten(s: Stats, processed: set<string>, files: seq<FileEntry>, running: bool): (r: Step)
    ensures r.stats.detected == s.detected + |ScanFolderAsWritten(files, processed).offered|
    ensures r.stats.processed == s.processed && r.stats.uploaded == s.uploaded && r.stats.errors == s.errors
    ensures r.submitted == (if running then ScanFolderAsWritten(files, processed).offered else {})
    ensures processed <= r.processed
  {
    var scan := ScanFolderAsWritten(files, processed);
    Step(s.(detected := s.detected + |scan.offered|), scan.processed, if running then scan.offered else {})
  }

  /** When every size can be read, the pass as written and the corrected pass agree. */
  lemma WatchStepsAgreeWithoutStatFailure(s: Stats, processed: set<string>, files: seq<FileEntry>, running: bool)
    requires forall i :: 0 <= i < |files| ==> files[i].size.Some?
    ensures WatchStepAsWritten(s, processed, files, running) == WatchStep(s, processed, files, running)
  {
    ScansAgreeWithoutStatFailure(files, processed);
  }

  /**
   * As written, a fresh file followed by an unreadable one is neither detected nor submitted,
   * and the next pass skips it; the corrected pass detects it.
   */
  lemma WatchStepAsWrittenLosesFile(s: Stats, a: FileEntry, b: FileEntry, processed: set<string>)
    requires Fresh(a, processed) && Watched(b.name) && b.size.None?
    ensures var first := WatchStepAsWritten(s, processed, [a, b], true);
      && first.stats == s && first.submitted == {}
      && a.name !in WatchStepAsWritten(first.stats, first.processed, [a], true).submitted
      && a.name in WatchStep(s, processed, [a, b], true).submitted
  {
    AsWrittenLosesFile(a, b, processed);
  }

  /** A second pass over an unchanged folder detects and submits nothing. */
  lemma SecondPassDetectsNothing(s: Stats, processed: set<string>, files: seq<FileEntry>, running: bool)
    requires DistinctNames(files)
    ensures var first := WatchStep(s, processed, files, running);
      var second := WatchStep(first.stats, first.processed, files, running);
      second.stats == first.stats && second.submitted == {}
  {
    RescanOffersNothing(files, processed);
  }

  /**
   * The watcher's AI switches: `--no-ai` disables enhancement; `--ai-mode m` sets the mode
   * and turns enhancement off for "disabled", but never turns it on.
   */
  function ApplyWatcherFlags(cfg: AiConfig, noAi: bool, aiMode: Option<string>): (r: AiConfig)
    ensures noAi ==> !r.enabled && r.mode == "disabled"
    ensures !noAi && aiMode.Some? && aiMode.value != "" ==>
              r.mode == aiMode.value && r.enabled == (cfg.enabled && aiMode.value != "disabled")
    ensures !noAi && (aiMode.None? || aiMode.value == "") ==> r == cfg
    ensures r.enabled ==> cfg.enabled
    ensures r.fallbackToOpencv == cfg.fallbackToOpencv && r.skipOnFailure == cfg.skipOnFailure
  {
    if noAi then cfg.(enabled := false, mode := "disabled")
    else if aiMode.Some? && aiMode.value != "" then
      cfg.(mode := aiMode.value, enabled := if aiMode.value == "disabled" then false else cfg.enabled)
    else cfg
  }

  /**
   * Unlike the capture system's switch, `--ai-mode` keeps a disabled configuration
   * disabled: the selected method stays `Disabled` whatever mode is given.
   */
  lemma WatcherModeCannotEnable(cfg: AiConfig, m: string)
    requires !cfg.enabled && m != ""
    ensures SelectMethod(ApplyWatcherFlags(cfg, false, Some(m)).enabled, ApplyWatcherFlags(cfg, false, Some(m)).mode) == Disabled
  {
  }
}

=== FILE: gemini_enhancer.dfy ===
/**
 * The enhancement selector: which enhancement runs for a given configuration, how the
 * AI path retries and falls back, and how faces are protected before and restored after.
 *
 * The AI service and the OpenCV enhancement chain are outside the model: `aiOk(k)` says
 * whether the service call of attempt `k` returned, and `opencv` is the traditional
 * enhancement chain (unsharp mask, CLAHE, bilateral filter, saturation), `None` when it
 * raises. Resizing is a kernel giving one pixel of the resized image.
 */
module GeminiEnhancer {
  import opened Wrappers
  import opened Imaging
  import opened Text
  import opened FaceDetection
  import opened Retry

  /** The enhancement method reported for an image. */
  datatype Method = Disabled | Opencv | Gemini | Auto | Skipped

  /** The AI enhancement settings read by the enhancer. */
  datatype AiConfig = AiConfig(enabled: bool, mode: string, fallbackToOpencv: bool, skipOnFailure: bool,
                               retryAttempts: nat, maxWidth: nat, maxHeight: nat, padding: nat)

  /** One pixel (row, column) of `src` resized to `h` x `w`. */
  type ResizeKernel = (Image, nat, nat, int, int) -> Pixel

  /** Everything outside the model that the enhancer consults. */
  datatype Vision = Vision(detected: Option<seq<Face>>, raster: Raster,
                           blur15: (Image, int, int) -> Pixel, blur21: (Mask, int, int) -> Byte,
                           resize: ResizeKernel, opencv: Image -> Option<Image>, aiOk: nat -> bool)

  /** `cv2.resize(src, (w, h))`. */
  function Resize(src: Image, w: nat, h: nat, kernel: ResizeKernel): (r: Image)
    ensures HasShape(r, h, w)
  {
    Build(h, w, (i, j) => kernel(src, h, w, i, j))
  }

  /** The method `enhance_image` picks from the `enabled` flag and the mode string. */
  function SelectMethod(enabled: bool, mode: string): (m: Method)
    ensures m == Disabled <==> !enabled || mode == "disabled"
    ensures m == Opencv <==> enabled && mode == "opencv"
    ensures m == Gemini <==> enabled && mode == "gemini"
    ensures m == Auto <==> enabled && mode !in {"disabled", "opencv", "gemini"}
    ensures m != Skipped
  {
    if !enabled || mode == "disabled" then Disabled
    else if mode == "opencv" then Opencv
    else if mode == "gemini" then Gemini
    else Auto
  }

  /** New (width, height) of an image sent to the AI service. */
  datatype Dims = Dims(w: nat, h: nat)

  /** `s = min(maxW / w, maxH / h)` as a real number. */
  function FitScale(w: nat, h: nat, maxW: nat, maxH: nat): real
    requires w > 0 && h > 0
  {
    var sw := maxW as real / w as real;
    var sh := maxH as real / h as real;
    if sw <= sh then sw else sh
  }

  /**
   * `_prepare_image_for_ai`: an image within the bounding box is kept; a larger one is
   * scaled by `s` with both sides truncated. A zero side (division by zero) or a zero
   * scaled side (refused by `cv2.resize`) raises, which is `None` here.
   */
  function FitForAi(w: nat, h: nat, maxW: nat, maxH: nat): (r: Option<Dims>)
    ensures w <= maxW && h <= maxH ==> r == Some(Dims(w, h))
    ensures r.Some? ==> r.value.w <= maxW && r.value.h <= maxH && r.value.w <= w && r.value.h <= h
    ensures r.Some? && (w > maxW || h > maxH) ==> r.value.w == maxW || r.value.h == maxH
    ensures r.Some? ==> r.value.w > 0 || w == 0
    ensures (w > maxW || h > maxH) && (w == 0 || h == 0) ==> r.None?
    ensures r.Some? && (w > maxW || h > maxH) ==>
      r.value.w == ScaledSizes(w, h, maxW, maxH).0.Floor && r.value.h == ScaledSizes(w, h, maxW, maxH).1.Floor
    ensures r.None? && (w > maxW || h > maxH) && w > 0 && h > 0 ==>
      ScaledSizes(w, h, maxW, maxH).0.Floor == 0 || ScaledSizes(w, h, maxW, maxH).1.Floor == 0
  {
    if w <= maxW && h <= maxH then Some(Dims(w, h))
    else if w == 0 || h == 0 then None
    else
      var d := ScaledDims(w, h, maxW, maxH);
      if d.w == 0 || d.h == 0 then None else Some(d)
  }

  /** `(int(w * s), int(h * s))` for an image larger than the box. */
  function ScaledDims(w: nat, h: nat, maxW: nat, maxH: nat): (d: Dims)
    requires w > 0 && h > 0 && (w > maxW || h > maxH)
    ensures d.w <= maxW && d.h <= maxH && d.w <= w && d.h <= h
    ensures d.w == maxW || d.h == maxH
    ensures d.w == ScaledSizes(w, h, maxW, maxH).0.Floor && d.h == ScaledSizes(w, h, maxW, maxH).1.Floor
  {
    ScaledSides(w, h, maxW, maxH);
    var p := ScaledSizes(w, h, maxW, maxH);
    FloorDims(p.0, p.1, w, h, maxW, maxH)
  }

  /** `(w * s, h * s)` before truncation. */
  function ScaledSizes(w: nat, h: nat, maxW: nat, maxH: nat): (real, real)
    requires w > 0 && h > 0
  {
    Scale2(w as real, h as real, FitScale(w, h, maxW, maxH))
  }

  /** Both sides multiplied by `s`. */
  function Scale2(w: real, h: real, s: real): (real, real) {
    (w * s, h * s)
  }

  /** Both sides truncated, for scaled sides that fit the box and the original. */
  function FloorDims(x: real, y: real, w: nat, h: nat, maxW: nat, maxH: nat): (d: Dims)
    requires 0.0 <= x <= maxW as real && 0.0 <= y <= maxH as real && x <= w as real && y <= h as real
    requires x == maxW as real || y == maxH as real
    ensures d.w <= maxW && d.h <= maxH && d.w <= w && d.h <= h
    ensures d.w == maxW || d.h == maxH
    ensures d.w == x.Floor && d.h == y.Floor
  {
    Dims(x.Floor, y.Floor)
  }

  lemma ScaledSides(w: nat, h: nat, maxW: nat, maxH: nat)
    requires w > 0 && h > 0 && (w > maxW || h > maxH)
    ensures var (x, y) := ScaledSizes(w, h, maxW, maxH);
      0.0 <= x <= maxW as real && 0.0 <= y <= maxH as real && x <= w as real && y <= h as real
      && (x == maxW as real || y == maxH as real)
  {
    ScaledBy(w as real, h as real, maxW as real, maxH as real, FitScale(w, h, maxW, maxH));
  }

  /** Sides scaled by `min(maxW / w, maxH / h)` fit the box, shrink, and one of them meets it. */
  lemma ScaledBy(w: real, h: real, maxW: real, maxH: real, s: real)
    requires w > 0.0 && h > 0.0 && maxW >= 0.0 && maxH >= 0.0 && (w > maxW || h > maxH)
    requires s == (if maxW / w <= maxH / h then maxW / w else maxH / h)
    ensures var (x, y) := Scale2(w, h, s);
      0.0 <= x <= maxW && 0.0 <= y <= maxH && x <= w && y <= h && (x == maxW || y == maxH)
  {
    NonNegQuotient(maxW, w);
    NonNegQuotient(maxH, h);
    assert 0.0 <= s <= maxW / w && s <= maxH / h;
    assert s == maxW / w || s == maxH / h;
    if w > maxW {
      Shrinks(w, maxW, s);
    } else {
      Shrinks(h, maxH, s);
    }
    SideScaled(w, maxW, s);
    SideScaled(h, maxH, s);
  }

  /** One side scaled by a factor in `[0, 1]` that is at most `m / x`: it fits `m`, shrinks, and meets `m` at `m / x`. */
  lemma SideScaled(x: real, m: real, s: real)
    requires x > 0.0 && m >= 0.0 && 0.0 <= s <= m / x && s < 1.0
    ensures 0.0 <= x * s <= m && x * s <= x
    ensures s == m / x ==> x * s == m
  {
    Fits(x, m, s);
    ScaleLe(x, s, 1.0);
    ScaleLe(x, 0.0, s);
  }

  lemma NonNegQuotient(m: real, x: real)
    requires m >= 0.0 && x > 0.0
    ensures m / x >= 0.0
  {
  }

  /** Scaling `x` by at most `m / x` gives at most `m`, and exactly `m` at `m / x`. */
  lemma Fits(x: real, m: real, s: real)
    requires x > 0.0 && s <= m / x
    ensures x * s <= m
    ensures s == m / x ==> x * s == m
  {
    assert x * (m / x) == m;
    ScaleLe(x, s, m / x);
  }

  lemma ScaleLe(x: real, a: real, b: real)
    requires x >= 0.0 && a <= b
    ensures x * a <= x * b
  {
    assert x * b - x * a == x * (b - a);
  }

  /** `m / x < 1` when `m < x`. */
  lemma Shrinks(x: real, m: real, s: real)
    requires x > 0.0 && m >= 0.0 && m < x && s <= m / x
    ensures s < 1.0
  {
    assert (m / x) * x == m;
    if m / x >= 1.0 {
      ScaleLe(x, 1.0, m / x);
    }
  }

  /** The base prompt, followed by the face-protection instructions or the no-face suffix. */
  function EnhancementPrompt(hasFaces: bool, base: string, facePrompt: string, noFaceSuffix: string): (p: string)
    ensures StartsWith(p, base)
    ensures hasFaces ==> p[|base|..] == "\n\n" + facePrompt
    ensures !hasFaces ==> p[|base|..] == noFaceSuffix
  {
    if hasFaces then base + "\n\n" + facePrompt else base + noFaceSuffix
  }

  /** The two prompts differ whenever the two tails differ. */
  lemma PromptTellsFaces(base: string, facePrompt: string, noFaceSuffix: string)
    requires "\n\n" + facePrompt != noFaceSuffix
    ensures EnhancementPrompt(true, base, facePrompt, noFaceSuffix) != EnhancementPrompt(false, base, facePrompt, noFaceSuffix)
  {
    var a := EnhancementPrompt(true, base, facePrompt, noFaceSuffix);
    var b := EnhancementPrompt(false, base, facePrompt, noFaceSuffix);
    assert a[|base|..] != b[|base|..];
  }

  /**
   * An attempt of `_enhance_with_retry` succeeds when the service call returns and the
   * traditional enhancement that follows it inside the same `try` does not raise.
   */
  function AttemptOk(aiOk: nat -> bool, fallback: Option<Image>): nat -> bool {
    (k: nat) => aiOk(k) && fallback.Some?
  }

  /** What `_enhance_with_retry` returns: the traditional enhancement of its input, or `None`. */
  function RetryResult(attempts: nat, aiOk: nat -> bool, fallback: Option<Image>): Option<Image> {
    if FirstWhere(attempts, AttemptOk(aiOk, fallback)).Some? then fallback else None
  }

  /**
   * `_enhance_with_retry` as a loop: `calls` service calls are made and `sleeps` are the
   * back-off delays slept between them.
   */
  method EnhanceWithRetry(attempts: nat, aiOk: nat -> bool, fallback: Option<Image>)
    returns (r: Option<Image>, calls: nat, sleeps: seq<nat>)
    ensures r == RetryResult(attempts, aiOk, fallback)
    ensures r.Some? <==> fallback.Some? && exists k :: 0 <= k < attempts && aiOk(k)
    ensures r.Some? ==> r == fallback && 1 <= calls <= attempts && aiOk(calls - 1)
                        && forall k :: 0 <= k < calls - 1 ==> !aiOk(k)
    ensures r.None? ==> calls == attempts
    ensures sleeps == Backoff(if calls == 0 then 0 else calls - 1)
  {
    var ok := AttemptOk(aiOk, fallback);
    calls := 0;
    sleeps := [];
    var attempt := 0;
    while attempt < attempts
      invariant 0 <= attempt <= attempts
      invariant calls == attempt
      invariant forall k :: 0 <= k < attempt ==> !ok(k)
      invariant sleeps == Backoff(attempt)
      invariant attempt < attempts || attempts == 0
    {
      calls := calls + 1;
      if ok(attempt) {
        r := fallback;
        forall k | 0 <= k < attempt ensures !aiOk(k) {
          assert !ok(k);
        }
        assert FirstWhere(attempts, ok) == Some(attempt) by {
          FirstWhereIsFirst(attempts, ok, attempt);
        }
        return;
      }
      if attempt < attempts - 1 {
        sleeps := sleeps + [Pow2(attempt)];
        assert sleeps == Backoff(attempt + 1);
      } else {
        r := None;
        assert forall k :: 0 <= k < attempts ==> !ok(k);
        if fallback.Some? {
          forall k | 0 <= k < attempts ensures !aiOk(k) {
            assert !ok(k);
          }
        }
        return;
      }
      attempt := attempt + 1;
    }
    r := None;
  }

  /** `_opencv_enhancement_only`: the traditional chain, `None` when it raises. */
  function OpencvOnly(img: Image, v: Vision): Option<Image> {
    v.opencv(img)
  }

  /** The image handed to the service: the input, or its downscaled copy. */
  function PreparedForAi(img: Image, cfg: AiConfig, v: Vision): Option<Image> {
    match FitForAi(Width(img), Height(img), cfg.maxWidth, cfg.maxHeight)
    case None => None
    case Some(d) => Some(if d == Dims(Width(img), Height(img)) then img else Resize(img, d.w, d.h, v.resize))
  }

  /** `_gemini_enhancement_only`: prepare, then retry; the returned image is the traditional chain's. */
  function GeminiOnly(img: Image, cfg: AiConfig, v: Vision): Option<Image> {
    match PreparedForAi(img, cfg, v)
    case None => None
    case Some(small) => RetryResult(cfg.retryAttempts, v.aiOk, v.opencv(small))
  }

  /** "AI success" yields exactly the traditional enhancement of the downsized input. */
  lemma AiSuccessIsTraditional(img: Image, cfg: AiConfig, v: Vision)
    requires GeminiOnly(img, cfg, v).Some?
    ensures PreparedForAi(img, cfg, v).Some?
    ensures GeminiOnly(img, cfg, v) == v.opencv(PreparedForAi(img, cfg, v).value)
    ensures exists k :: 0 <= k < cfg.retryAttempts && v.aiOk(k)
  {
    var ok := AttemptOk(v.aiOk, v.opencv(PreparedForAi(img, cfg, v).value));
    var k := FirstWhere(cfg.retryAttempts, ok).value;
    assert v.aiOk(k);
  }

  /** `_auto_enhancement`: the AI result if any, else the traditional chain when fallback is on. */
  function AutoEnhancement(img: Image, cfg: AiConfig, v: Vision): (r: Option<Image>)
    ensures GeminiOnly(img, cfg, v).Some? ==> r == GeminiOnly(img, cfg, v)
    ensures GeminiOnly(img, cfg, v).None? && cfg.fallbackToOpencv ==> r == OpencvOnly(img, v)
    ensures GeminiOnly(img, cfg, v).None? && !cfg.fallbackToOpencv ==> r.None?
  {
    var ai := GeminiOnly(img, cfg, v);
    if ai.Some? then ai
    else if cfg.fallbackToOpencv then OpencvOnly(img, v)
    else None
  }

  /** The enhancement a method runs on the softened image; `Disabled` copies it. */
  function RunMethod(m: Method, softened: Image, cfg: AiConfig, v: Vision): Option<Image> {
    match m
    case Disabled => Some(softened)
    case Opencv => OpencvOnly(softened, v)
    case Gemini => GeminiOnly(softened, cfg, v)
    case Auto => AutoEnhancement(softened, cfg, v)
    case Skipped => Some(softened)
  }

  /** An enhanced image as written to disk, with the method reported for it. */
  datatype Enhanced = Enhanced(image: Image, used: Method)

  /** The softened image, face mask and face flag `enhance_image` works from. */
  function Protect(orig: Image, cfg: AiConfig, v: Vision): (p: Protection)
    ensures HasShape(p.softened, Height(orig), Width(orig)) && HasShape(p.mask, Height(orig), Width(orig))
  {
    ApplyFaceProtection(orig, Width(orig), v.detected, cfg.padding, v.raster, v.blur15)
  }

  /** The enhanced image brought back to the original's shape. */
  function FitBack(img: Image, orig: Image, v: Vision): (r: Image)
    ensures HasShape(r, Height(orig), Width(orig)) || (r == img && SameShape(img, orig))
  {
    if SameShape(img, orig) then img else Resize(img, Width(orig), Height(orig), v.resize)
  }

  /** Restoration step: face areas come back from the original unless the method is `Disabled`. */
  function Finish(img: Image, m: Method, orig: Image, p: Protection, v: Vision): Image {
    var fitted := FitBack(img, orig, v);
    if p.hasFaces && m != Disabled then RestoreFaceAreas(fitted, orig, p.mask, v.blur21) else fitted
  }

  /**
   * `enhance_image`: `loaded` is what `cv2.imread` returned and `written` whether
   * `cv2.imwrite` succeeded; `None` is the `(False, None)` result.
   */
  function EnhanceImage(cfg: AiConfig, loaded: Option<Image>, v: Vision, written: bool): (r: Option<Enhanced>)
    ensures loaded.None? || !written ==> r.None?
    ensures loaded.Some? && written ==>
              (r.Some? <==> cfg.skipOnFailure
                            || RunMethod(SelectMethod(cfg.enabled, cfg.mode), Protect(loaded.value, cfg, v).softened, cfg, v).Some?)
    ensures loaded.Some? && r.Some? ==>
              r.value.used == (if RunMethod(SelectMethod(cfg.enabled, cfg.mode), Protect(loaded.value, cfg, v).softened, cfg, v).Some?
                               then SelectMethod(cfg.enabled, cfg.mode) else Skipped)
  {
    match loaded
    case None => None
    case Some(orig) =>
      var p := Protect(orig, cfg, v);
      var m := SelectMethod(cfg.enabled, cfg.mode);
      var attempt := RunMethod(m, p.softened, cfg, v);
      if attempt.None? && !cfg.skipOnFailure then None
      else
        var (img, used) := if attempt.Some? then (attempt.value, m) else (p.softened, Skipped);
        if written then Some(Enhanced(Finish(img, used, orig, p, v), used)) else None
  }

  /** Disabled AI returns the face-softened image itself: not the original, and not restored. */
  lemma DisabledKeepsSoftened(cfg: AiConfig, orig: Image, v: Vision)
    requires !cfg.enabled || cfg.mode == "disabled"
    ensures EnhanceImage(cfg, Some(orig), v, true) == Some(Enhanced(Protect(orig, cfg, v).softened, Disabled))
  {
    var p := Protect(orig, cfg, v);
    DisabledAttempt(cfg, p.softened, v);
    FinishUnchanged(p.softened, orig, p, v);
  }

  lemma DisabledAttempt(cfg: AiConfig, softened: Image, v: Vision)
    requires !cfg.enabled || cfg.mode == "disabled"
    ensures SelectMethod(cfg.enabled, cfg.mode) == Disabled
    ensures RunMethod(SelectMethod(cfg.enabled, cfg.mode), softened, cfg, v) == Some(softened)
  {
  }

  /** Finishing a `Disabled` result of the original's shape leaves it as it is. */
  lemma FinishUnchanged(img: Image, orig: Image, p: Protection, v: Vision)
    requires HasShape(img, Height(orig), Width(orig))
    ensures Finish(img, Disabled, orig, p, v) == img
  {
    assert SameShape(img, orig);
  }

  /** A failed enhancement is skipped (softened image, method `Skipped`) or fails the whole call. */
  lemma FailureHandling(cfg: AiConfig, orig: Image, v: Vision)
    requires RunMethod(SelectMethod(cfg.enabled, cfg.mode), Protect(orig, cfg, v).softened, cfg, v).None?
    ensures cfg.skipOnFailure ==>
      EnhanceImage(cfg, Some(orig), v, true)
      == Some(Enhanced(Finish(Protect(orig, cfg, v).softened, Skipped, orig, Protect(orig, cfg, v), v), Skipped))
    ensures !cfg.skipOnFailure ==> EnhanceImage(cfg, Some(orig), v, true).None?
  {
  }

  /** Only the AI paths can fail; a disabled selector always produces an image. */
  lemma DisabledNeverFails(cfg: AiConfig, orig: Image, v: Vision)
    requires SelectMethod(cfg.enabled, cfg.mode) == Disabled
    ensures RunMethod(Disabled, Protect(orig, cfg, v).softened, cfg, v).Some?
  {
  }

  /**
   * The written image is the enhanced image fitted back to the original's size, with
   * the faces restored exactly when faces were found and the selected method is not
   * `Disabled`; a skipped failure counts as not disabled.
   */
  lemma RestoreIffFacesAndNotDisabled(cfg: AiConfig, orig: Image, v: Vision)
    requires EnhanceImage(cfg, Some(orig), v, true).Some?
    ensures var e := EnhanceImage(cfg, Some(orig), v, true).value;
      var p := Protect(orig, cfg, v);
      var m := SelectMethod(cfg.enabled, cfg.mode);
      var raw := RunMethod(m, p.softened, cfg, v).GetOr(p.softened);
      var fitted := FitBack(raw, orig, v);
      SameShape(fitted, orig)
      && (e.used == Disabled <==> m == Disabled)
      && (p.hasFaces && m != Disabled ==> e.image == RestoreFaceAreas(fitted, orig, p.mask, v.blur21))
      && (!p.hasFaces || m == Disabled ==> e.image == fitted)
  {
    var p := Protect(orig, cfg, v);
    var m := SelectMethod(cfg.enabled, cfg.mode);
    var attempt := RunMethod(m, p.softened, cfg, v);
    var used := if attempt.Some? then m else Skipped;
    assert used == Disabled <==> m == Disabled by {
      if m == Disabled {
        DisabledNeverFails(cfg, orig, v);
      }
    }
    FinishRestoresUnlessDisabled(attempt.GetOr(p.softened), used, orig, p, v);
  }

  /** Finishing fits the image back and restores the faces unless the method is `Disabled`. */
  lemma FinishRestoresUnlessDisabled(img: Image, used: Method, orig: Image, p: Protection, v: Vision)
    ensures SameShape(FitBack(img, orig, v), orig)
    ensures p.hasFaces && used != Disabled ==>
              Finish(img, used, orig, p, v) == RestoreFaceAreas(FitBack(img, orig, v), orig, p.mask, v.blur21)
    ensures !p.hasFaces || used == Disabled ==> Finish(img, used, orig, p, v) == FitBack(img, orig, v)
  {
  }
}

=== FILE: imaging.dfy ===
/**
 * Images and masks as rectangular grids of 8-bit values, following the numpy arrays
 * OpenCV hands around: an image is H rows of W pixels, each pixel holding its blue,
 * green and red channel (OpenCV's BGR order); a mask is H rows of W bytes.
 */
module Imaging {

  /** A uint8 channel value. */
  type Byte = x: int | 0 <= x <= 255

  /** One pixel; channels are named, so BGR/RGB conversions do not move data in the model. */
  datatype Pixel = Pixel(b: Byte, g: Byte, r: Byte)

  predicate IsRect<T>(g: seq<seq<T>>) {
    forall i :: 0 <= i < |g| ==> |g[i]| == |g[0]|
  }

  /** A numpy array of shape (H, W): every row has the same length. */
  type Grid<T> = g: seq<seq<T>> | IsRect(g)

  type Image = Grid<Pixel>

  type Mask = Grid<Byte>

  function Height<T>(g: Grid<T>): nat {
    |g|
  }

  function Width<T>(g: Grid<T>): nat {
    if |g| == 0 then 0 else |g[0]|
  }

  predicate InBounds<T>(g: Grid<T>, i: int, j: int) {
    0 <= i < Height(g) && 0 <= j < Width(g)
  }

  /** numpy's `a.shape[:2] == b.shape[:2]`. */
  predicate SameShape<T, U>(a: Grid<T>, b: Grid<U>) {
    Height(a) == Height(b) && Width(a) == Width(b)
  }

  predicate HasShape<T>(g: Grid<T>, h: nat, w: nat) {
    |g| == h && forall i :: 0 <= i < h ==> |g[i]| == w
  }

  /** The H x W grid whose cell (i, j) is `f(i, j)`. */
  function Build<T>(h: nat, w: nat, f: (int, int) -> T): (g: Grid<T>)
    ensures HasShape(g, h, w)
    ensures forall i, j :: 0 <= i < h && 0 <= j < w ==> g[i][j] == f(i, j)
  {
    seq(h, i requires 0 <= i < h => seq(w, j requires 0 <= j < w => f(i, j)))
  }

  /** Applies `f` to every cell with its coordinates; the shape is kept. */
  function MapCells<T, U>(g: Grid<T>, f: (int, int, T) -> U): (r: Grid<U>)
    ensures HasShape(r, Height(g), Width(g))
    ensures forall i, j :: InBounds(g, i, j) ==> r[i][j] == f(i, j, g[i][j])
  {
    seq(|g|, i requires 0 <= i < |g| => seq(Width(g), j requires 0 <= j < Width(g) => f(i, j, g[i][j])))
  }

  /** Two grids of the same shape that agree on every cell are equal. */
  lemma GridExt<T>(a: Grid<T>, b: Grid<T>)
    requires HasShape(a, Height(b), Width(b))
    requires forall i, j :: InBounds(b, i, j) ==> a[i][j] == b[i][j]
    ensures a == b
  {
    forall i | 0 <= i < |b|
      ensures a[i] == b[i]
    {
      forall j | 0 <= j < |b[i]|
        ensures a[i][j] == b[i][j]
      {
        assert InBounds(b, i, j);
      }
    }
  }

  /** A cell map that gives every cell back leaves the grid unchanged. */
  lemma MapCellsFixed<T>(g: Grid<T>, f: (int, int, T) -> T)
    requires forall i, j :: InBounds(g, i, j) ==> f(i, j, g[i][j]) == g[i][j]
    ensures MapCells(g, f) == g
  {
    GridExt(MapCells(g, f), g);
  }

  /** `np.zeros((h, w), dtype=np.uint8)`. */
  function Zeros(h: nat, w: nat): (m: Mask)
    ensures HasShape(m, h, w)
    ensures forall i, j :: 0 <= i < h && 0 <= j < w ==> m[i][j] == 0
  {
    Build(h, w, (i, j) => 0)
  }

  predicate AllZero(m: Mask) {
    forall i, j :: 0 <= i < |m| && 0 <= j < |m[i]| ==> m[i][j] == 0
  }

  /** The numpy slice `g[y:y+h, x:x+w]` of a rectangle that lies inside the grid. */
  function Crop<T>(g: Grid<T>, x: nat, y: nat, w: nat, h: nat): (r: Grid<T>)
    requires y + h <= Height(g) && x + w <= Width(g)
    ensures HasShape(r, h, w)
    ensures forall i, j :: 0 <= i < h && 0 <= j < w ==> r[i][j] == g[y + i][x + j]
  {
    seq(h, i requires 0 <= i < h => seq(w, j requires 0 <= j < w => g[y + i][x + j]))
  }

  /** Python's `max(a, min(x, b))`-style clamp on reals (numpy's `np.clip`). */
  function ClipReal(x: real, lo: real, hi: real): (r: real)
    requires lo <= hi
    ensures lo <= r <= hi
    ensures lo <= x <= hi ==> r == x
  {
    if x < lo then lo else if x > hi then hi else x
  }

  /** `np.clip(x, 0, 255).astype(np.uint8)`: clip, then truncate toward zero. */
  function ToByte(x: real): (r: Byte)
    ensures 0.0 <= x <= 255.0 ==> r as real <= x < r as real + 1.0
    ensures x < 0.0 ==> r == 0
    ensures x > 255.0 ==> r == 255
  {
    ClipReal(x, 0.0, 255.0).Floor
  }

  /** `a * (1 - alpha) + b * alpha` for one channel value. */
  function Mix(a: Byte, b: Byte, alpha: real): real {
    a as real * (1.0 - alpha) + b as real * alpha
  }

  /** A convex combination never leaves the interval spanned by its two ends. */
  lemma MixBetween(a: Byte, b: Byte, alpha: real)
    requires 0.0 <= alpha <= 1.0
    ensures Min(a, b) as real <= Mix(a, b, alpha) <= Max(a, b) as real
  {
    var d := b as real - a as real;
    assert Mix(a, b, alpha) == a as real + d * alpha;
    if a <= b {
      ScaleWithin(d, alpha);
    } else {
      ScaleWithin(-d, alpha);
      assert (-d) * alpha == -(d * alpha);
      assert d <= d * alpha <= 0.0;
      assert Min(a, b) == b && Max(a, b) == a;
      assert a as real + d == b as real;
      assert b as real <= Mix(a, b, alpha);
      assert Mix(a, b, alpha) <= a as real;
    }
  }

  lemma ScaleWithin(x: real, alpha: real)
    requires x >= 0.0 && 0.0 <= alpha <= 1.0
    ensures 0.0 <= x * alpha <= x
  {
    assert x - x * alpha == x * (1.0 - alpha);
  }

  /** The blended channel `clip(a*(1-alpha) + b*alpha, 0, 255).astype(uint8)`. */
  function BlendByte(a: Byte, b: Byte, alpha: real): (r: Byte)
    requires 0.0 <= alpha <= 1.0
    ensures Min(a, b) <= r <= Max(a, b)
    ensures alpha == 0.0 ==> r == a
    ensures alpha == 1.0 ==> r == b
  {
    MixBetween(a, b, alpha);
    ToByte(Mix(a, b, alpha))
  }

  /** `BlendByte` on every channel of a pixel. */
  function BlendPixel(a: Pixel, b: Pixel, alpha: real): (r: Pixel)
    requires 0.0 <= alpha <= 1.0
    ensures Between(r, a, b)
    ensures alpha == 0.0 ==> r == a
    ensures alpha == 1.0 ==> r == b
  {
    Pixel(BlendByte(a.b, b.b, alpha), BlendByte(a.g, b.g, alpha), BlendByte(a.r, b.r, alpha))
  }

  /** Every channel of `p` lies between the corresponding channels of `a` and `b`. */
  predicate Between(p: Pixel, a: Pixel, b: Pixel) {
    Min(a.b, b.b) <= p.b <= Max(a.b, b.b)
    && Min(a.g, b.g) <= p.g <= Max(a.g, b.g)
    && Min(a.r, b.r) <= p.r <= Max(a.r, b.r)
  }

  /** `cv2.add` on uint8: saturating addition. */
  function SatAdd(a: Byte, b: Byte): (r: Byte)
    ensures r == a + b || (r == 255 && a + b > 255)
  {
    if a + b > 255 then 255 else a + b
  }

  function SatAddPixel(p: Pixel, q: Pixel): Pixel {
    Pixel(SatAdd(p.b, q.b), SatAdd(p.g, q.g), SatAdd(p.r, q.r))
  }

  const Black := Pixel(0, 0, 0)

  /** `cv2.bitwise_and(img, img, mask=m)`: pixels where the mask is non-zero, black elsewhere. */
  function KeepWhere(img: Image, m: Mask): (r: Image)
    requires SameShape(img, m)
    ensures HasShape(r, Height(img), Width(img))
    ensures forall i, j :: InBounds(img, i, j) ==> r[i][j] == (if m[i][j] != 0 then img[i][j] else Black)
  {
    MapCells(img, (i, j, p) => if InBounds(m, i, j) && m[i][j] != 0 then p else Black)
  }

  /** `cv2.bitwise_not` on a mask. */
  function Invert(m: Mask): (r: Mask)
    ensures HasShape(r, Height(m), Width(m))
    ensures forall i, j :: InBounds(m, i, j) ==> r[i][j] == 255 - m[i][j]
  {
    MapCells(m, (i, j, v: Byte) => 255 - v)
  }

  function Min(a: int, b: int): int {
    if a <= b then a else b
  }

  function Max(a: int, b: int): int {
    if a >= b then a else b
  }

  /** Python's `int(x)` on a float: truncation toward zero. */
  function Trunc(x: real): (r: int)
    ensures x >= 0.0 ==> r as real <= x < r as real + 1.0
    ensures x < 0.0 ==> r as real - 1.0 < x <= r as real
  {
    if x >= 0.0 then x.Floor else -((-x).Floor)
  }
}

=== FILE: interactive_setup.dfy ===
/**
 * The interactive setup wizard: the choices it records, the menu that picks the AI mode,
 * the rewrites the speed and quality performance modes make, the per-photo time estimate,
 * and which choices `apply_configuration` copies into the running configuration.
 */
module InteractiveSetup {
  import opened Wrappers
  import opened Seqs
  import opened Text
  import opened GeminiEnhancer
  import WebIntegrator

  /** The upload quality the wizard offers. */
  datatype Quality = High | Medium | Low

  /** The string stored for a quality. */
  function QualityName(q: Quality): (s: string)
    ensures QualityOf(s) == Some(q)
  {
    match q
    case High => "high"
    case Medium => "medium"
    case Low => "low"
  }

  /** The quality a stored string names, if any. */
  function QualityOf(s: string): Option<Quality> {
    if s == "high" then Some(High) else if s == "medium" then Some(Medium) else if s == "low" then Some(Low) else None
  }

  /** `selected_config`. `lutFile == None` stands for "no LUT" (None or the empty string). */
  datatype Selection = Selection(
    eventId: Option<string>,
    aiMode: string,
    aiEnabled: bool,
    aiFallback: bool,
    aiSkipOnFailure: bool,
    faceProtection: bool,
    lutFile: Option<string>,
    lutIntensity: real,
    watermarkFile: string,
    watermarkEnabled: bool,
    watermarkOpacity: real,
    cropMode: string,
    uploadQuality: Quality,
    performanceMode: string)

  /** The choices the wizard starts from. */
  const Defaults: Selection := Selection(None, "auto", true, true, false, true, Some("my_preset.cube"), 1.0,
                                         "my_logo.png", true, 0.8, "auto", High, "balanced")

  /**
   * One answer to the AI mode menu, already stripped: "1" auto with fallback, "2" Gemini
   * only, "3" OpenCV only, "4" disabled (which also turns face protection off); any other
   * answer is rejected and the menu asks again.
   */
  function ModeChoice(s: Selection, answer: string): (r: Option<Selection>)
    ensures r.None? <==> answer !in {"1", "2", "3", "4"}
    ensures r.Some? && answer != "4" ==>
              r.value.aiEnabled && r.value.faceProtection == s.faceProtection
              && (r.value.aiFallback <==> answer == "1")
    ensures r.Some? && answer == "4" ==>
              !r.value.aiEnabled && !r.value.faceProtection && r.value.aiFallback == s.aiFallback
    ensures r.Some? ==> r.value.aiSkipOnFailure == s.aiSkipOnFailure && r.value.lutFile == s.lutFile
                        && r.value.cropMode == s.cropMode && r.value.uploadQuality == s.uploadQuality
    ensures r.Some? ==> r.value.aiMode == (if answer == "1" then "auto" else if answer == "2" then "gemini"
                                           else if answer == "3" then "opencv" else "disabled")
  {
    if answer == "1" then Some(s.(aiMode := "auto", aiEnabled := true, aiFallback := true))
    else if answer == "2" then Some(s.(aiMode := "gemini", aiEnabled := true, aiFallback := false))
    else if answer == "3" then Some(s.(aiMode := "opencv", aiEnabled := true, aiFallback := false))
    else if answer == "4" then Some(s.(aiMode := "disabled", aiEnabled := false, faceProtection := false))
    else None
  }

  /** An answer the AI mode menu accepts once stripped. */
  predicate Accepts(s: Selection, answer: string) {
    ModeChoice(s, Strip(answer)).Some?
  }

  /** The AI mode menu over a stream of answers: the first acceptable answer wins. */
  function ModeMenu(s: Selection, answers: seq<string>): (r: Option<Selection>)
    ensures r.Some? <==> Any(answers, a => Accepts(s, a))
    decreases |answers|
  {
    if |answers| == 0 then None
    else
      var c := ModeChoice(s, Strip(answers[0]));
      AnyCons(answers, a => Accepts(s, a));
      if c.Some? then c
      else ModeMenu(s, answers[1..])
  }

  /**
   * After the menu, the enhancer runs what the menu promised: auto, Gemini only, OpenCV
   * only, or no enhancement.
   */
  lemma ModeChoiceSelectsMethod(s: Selection, answer: string)
    requires ModeChoice(s, answer).Some?
    ensures var c := ModeChoice(s, answer).value;
      SelectMethod(c.aiEnabled, c.aiMode)
      == (if answer == "1" then Auto else if answer == "2" then Gemini else if answer == "3" then Opencv else Disabled)
  {
  }

  /** `_apply_speed_optimizations`: auto becomes OpenCV, and skip-on-failure is turned on. */
  function SpeedRewrite(s: Selection): (r: Selection)
    ensures r.aiMode == (if s.aiMode == "auto" then "opencv" else s.aiMode)
    ensures r.aiSkipOnFailure
    ensures r.(aiMode := s.aiMode, aiSkipOnFailure := s.aiSkipOnFailure) == s
  {
    var m := if s.aiMode == "auto" then "opencv" else s.aiMode;
    s.(aiMode := m, aiSkipOnFailure := true)
  }

  /** `_apply_quality_optimizations`: OpenCV becomes auto, and fallback is turned on. */
  function QualityRewrite(s: Selection): (r: Selection)
    ensures r.aiMode == (if s.aiMode == "opencv" then "auto" else s.aiMode)
    ensures r.aiFallback
    ensures r.(aiMode := s.aiMode, aiFallback := s.aiFallback) == s
  {
    var m := if s.aiMode == "opencv" then "auto" else s.aiMode;
    s.(aiMode := m, aiFallback := true)
  }

  /** Both rewrites are idempotent. */
  lemma RewritesIdempotent(s: Selection)
    ensures SpeedRewrite(SpeedRewrite(s)) == SpeedRewrite(s)
    ensures QualityRewrite(QualityRewrite(s)) == QualityRewrite(s)
  {
  }

  /**
   * One answer to the performance menu: "1" speed (with its rewrite), "2" balanced,
   * "3" quality (with its rewrite); anything else asks again.
   */
  function PerformanceChoice(s: Selection, answer: string): (r: Option<Selection>)
    ensures r.None? <==> answer !in {"1", "2", "3"}
    ensures answer == "1" ==> r == Some(SpeedRewrite(s.(performanceMode := "speed")))
    ensures answer == "2" ==> r == Some(s.(performanceMode := "balanced"))
    ensures answer == "3" ==> r == Some(QualityRewrite(s.(performanceMode := "quality")))
  {
    if answer == "1" then Some(SpeedRewrite(s.(performanceMode := "speed")))
    else if answer == "2" then Some(s.(performanceMode := "balanced"))
    else if answer == "3" then Some(QualityRewrite(s.(performanceMode := "quality")))
    else None
  }

  /** One answer to the upload quality menu: "1" high, "2" medium, "3" low; anything else asks again. */
  function QualityChoice(s: Selection, answer: string): (r: Option<Selection>)
    ensures r.None? <==> answer !in {"1", "2", "3"}
    ensures r.Some? ==> r.value == s.(uploadQuality := r.value.uploadQuality)
  {
    if answer == "1" then Some(s.(uploadQuality := High))
    else if answer == "2" then Some(s.(uploadQuality := Medium))
    else if answer == "3" then Some(s.(uploadQuality := Low))
    else None
  }

  /**
   * The percentages the upload quality menu advertises are the JPEG qualities the upload
   * then uses: menu entry 1 gives 95, 2 gives 80 and 3 gives 70.
   */
  lemma AdvertisedQualityIsUsed(s: Selection, c: SystemConfig, answer: string)
    requires answer in {"1", "2", "3"}
    ensures var chosen := QualityChoice(s, answer).value;
      WebIntegrator.JpegQuality(ApplyConfiguration(chosen, c).webUploadQuality)
      == (if answer == "1" then 95 else if answer == "2" then 80 else 70)
  {
    var chosen := QualityChoice(s, answer).value;
    var q := ApplyConfiguration(chosen, c).webUploadQuality;
    assert QualityOf(q) == Some(chosen.uploadQuality);
  }

  /** Seconds the chosen AI mode adds. */
  function ModeCost(mode: string): (c: nat)
    ensures c <= 15
    ensures mode == "gemini" ==> c == 15
    ensures mode == "auto" ==> c == 10
    ensures mode == "opencv" ==> c == 3
    ensures mode !in {"gemini", "auto", "opencv"} ==> c == 0
  {
    if mode == "gemini" then 15 else if mode == "auto" then 10 else if mode == "opencv" then 3 else 0
  }

  /** Seconds the upload adds at each quality. */
  function UploadCost(q: Quality): (c: nat)
    ensures 2 <= c <= 5
    ensures q == High ==> c == 5
    ensures q == Medium ==> c == 3
    ensures q == Low ==> c == 2
  {
    match q
    case High => 5
    case Medium => 3
    case Low => 2
  }

  /** The estimate before the performance mode is applied. */
  function BaseEstimate(s: Selection): (t: nat)
    ensures 4 <= t <= 27
  {
    2 + ModeCost(s.aiMode) + (if s.faceProtection then 1 else 0)
      + (if s.lutFile.Some? && s.lutFile.value != "" then 2 else 0)
      + (if s.cropMode != "disabled" then 1 else 0)
      + (if s.watermarkEnabled then 1 else 0)
      + UploadCost(s.uploadQuality)
  }

  /**
   * `_estimate_processing_time`: speed takes 70% and quality 130% of the base (truncated),
   * and the result is never below three seconds.
   */
  function EstimateSeconds(s: Selection): (t: nat)
    ensures 3 <= t <= 35
    ensures s.performanceMode == "speed" ==> t <= BaseEstimate(s)
    ensures s.performanceMode == "quality" ==> t >= BaseEstimate(s)
    ensures s.performanceMode == "speed" ==>
              (7 * BaseEstimate(s) < 30 ==> t == 3)
              && (7 * BaseEstimate(s) >= 30 ==> 10 * t <= 7 * BaseEstimate(s) < 10 * t + 10)
    ensures s.performanceMode == "quality" ==>
              (13 * BaseEstimate(s) < 30 ==> t == 3)
              && (13 * BaseEstimate(s) >= 30 ==> 10 * t <= 13 * BaseEstimate(s) < 10 * t + 10)
    ensures s.performanceMode !in {"speed", "quality"} ==> t == BaseEstimate(s)
  {
    var b := BaseEstimate(s);
    var scaled := if s.performanceMode == "speed" then b * 7 / 10
                  else if s.performanceMode == "quality" then b * 13 / 10
                  else b;
    if scaled < 3 then 3 else scaled
  }

  /**
   * With nothing extra chosen (AI disabled, no face protection, no table, no crop, no
   * watermark, low quality) the base is 4 seconds: two for the image and two for the upload.
   */
  lemma BaseEstimateFloor(s: Selection)
    ensures BaseEstimate(s.(aiMode := "disabled", faceProtection := false, lutFile := None,
                            cropMode := "disabled", watermarkEnabled := false, uploadQuality := Low)) == 4
  {
  }

  /** Each AI mode adds its own cost over a disabled one. */
  lemma ModeAddsItsCost(s: Selection, m: string)
    ensures BaseEstimate(s.(aiMode := m)) == BaseEstimate(s.(aiMode := "disabled")) + ModeCost(m)
  {
  }

  /** Face protection, cropping and the watermark add one second each; a named table adds two. */
  lemma StepsAddTheirCost(s: Selection, table: string, crop: string)
    requires table != "" && crop != "disabled"
    ensures BaseEstimate(s.(faceProtection := true)) == BaseEstimate(s.(faceProtection := false)) + 1
    ensures BaseEstimate(s.(lutFile := Some(table))) == BaseEstimate(s.(lutFile := None)) + 2
    ensures BaseEstimate(s.(lutFile := Some(""))) == BaseEstimate(s.(lutFile := None))
    ensures BaseEstimate(s.(cropMode := crop)) == BaseEstimate(s.(cropMode := "disabled")) + 1
    ensures BaseEstimate(s.(watermarkEnabled := true)) == BaseEstimate(s.(watermarkEnabled := false)) + 1
  {
  }

  /** Medium and high quality take one and three seconds longer to upload than low. */
  lemma QualityAddsItsCost(s: Selection)
    ensures BaseEstimate(s.(uploadQuality := Medium)) == BaseEstimate(s.(uploadQuality := Low)) + 1
    ensures BaseEstimate(s.(uploadQuality := High)) == BaseEstimate(s.(uploadQuality := Low)) + 3
  {
  }

  /** The speed rewrite never lengthens the estimate; the quality rewrite never shortens it. */
  lemma RewritesMoveEstimate(s: Selection)
    ensures EstimateSeconds(SpeedRewrite(s)) <= EstimateSeconds(s)
    ensures EstimateSeconds(QualityRewrite(s)) >= EstimateSeconds(s)
  {
    assert BaseEstimate(SpeedRewrite(s)) <= BaseEstimate(s);
    EstimateMono(SpeedRewrite(s), s);
    assert BaseEstimate(s) <= BaseEstimate(QualityRewrite(s));
    EstimateMono(s, QualityRewrite(s));
  }

  /** A smaller base under the same performance mode never gives a larger estimate. */
  lemma EstimateMono(s: Selection, t: Selection)
    requires s.performanceMode == t.performanceMode && BaseEstimate(s) <= BaseEstimate(t)
    ensures EstimateSeconds(s) <= EstimateSeconds(t)
  {
    MulDivMono(BaseEstimate(s), BaseEstimate(t), 7);
    MulDivMono(BaseEstimate(s), BaseEstimate(t), 13);
  }

  lemma MulDivMono(a: nat, b: nat, k: nat)
    requires a <= b
    ensures a * k / 10 <= b * k / 10
  {
    assert a * k <= b * k by {
      assert (b - a) * k >= 0;
    }
  }

  /** The part of the running configuration `apply_configuration` may write. */
  datatype SystemConfig = SystemConfig(
    ai: AiConfig,
    lutFile: string,
    lutIntensity: real,
    watermarkFile: string,
    watermarkOpacity: real,
    webUploadQuality: string)

  /**
   * `apply_configuration`: the four AI settings and the upload quality are always copied,
   * the LUT choice only when a LUT file is set, and the watermark choice only when the
   * watermark is enabled.
   */
  function ApplyConfiguration(s: Selection, c: SystemConfig): (r: SystemConfig)
    ensures r.ai == c.ai.(enabled := s.aiEnabled, mode := s.aiMode, fallbackToOpencv := s.aiFallback,
                          skipOnFailure := s.aiSkipOnFailure)
    ensures s.lutFile.Some? && s.lutFile.value != "" ==> r.lutFile == s.lutFile.value && r.lutIntensity == s.lutIntensity
    ensures s.lutFile.None? || s.lutFile.value == "" ==> r.lutFile == c.lutFile && r.lutIntensity == c.lutIntensity
    ensures s.watermarkEnabled ==> r.watermarkFile == s.watermarkFile && r.watermarkOpacity == s.watermarkOpacity
    ensures !s.watermarkEnabled ==> r.watermarkFile == c.watermarkFile && r.watermarkOpacity == c.watermarkOpacity
    ensures QualityOf(r.webUploadQuality) == Some(s.uploadQuality)
  {
    var ai := c.ai.(enabled := s.aiEnabled, mode := s.aiMode, fallbackToOpencv := s.aiFallback,
                    skipOnFailure := s.aiSkipOnFailure);
    var c1 := c.(ai := ai, webUploadQuality := QualityName(s.uploadQuality));
    var c2 := if s.lutFile.Some? && s.lutFile.value != "" then c1.(lutFile := s.lutFile.value, lutIntensity := s.lutIntensity) else c1;
    if s.watermarkEnabled then c2.(watermarkFile := s.watermarkFile, watermarkOpacity := s.watermarkOpacity) else c2
  }

  /**
   * The crop mode, face protection, performance mode and event id of a selection never
   * reach the running configuration: selections that differ only there apply identically.
   */
  lemma ApplyIgnoresUnwiredChoices(s: Selection, t: Selection, c: SystemConfig)
    requires t == s.(cropMode := t.cropMode, faceProtection := t.faceProtection,
                     performanceMode := t.performanceMode, eventId := t.eventId)
    ensures ApplyConfiguration(s, c) == ApplyConfiguration(t, c)
  {
  }

  /** Applying a selection twice gives the same configuration as applying it once. */
  lemma ApplyIdempotent(s: Selection, c: SystemConfig)
    ensures ApplyConfiguration(s, ApplyConfiguration(s, c)) == ApplyConfiguration(s, c)
  {
  }
}

=== FILE: lut_apply.dfy ===
/**
 * Applying a loaded 3D lookup table to an image by trilinear interpolation, then
 * blending with the original by an intensity.
 *
 * The loader reshapes rows row-major, so the first table axis is the one that varies
 * slowest in the file. The `.cube` convention, and the sample writer next to the
 * loader, vary red fastest, so the first axis is blue. `apply_lut` indexes the first
 * axis with red, which swaps red and blue; `ApplyLutAsWritten` keeps that indexing and
 * `ApplyLut` indexes the first axis with blue.
 */
module LutApply {
  import opened Imaging
  import opened Wrappers
  import opened CubeLut

  /** numpy's `clip(x, lo, hi)`, i.e. `minimum(maximum(x, lo), hi)`, also when `lo > hi`. */
  function NpClip(x: int, lo: int, hi: int): int {
    Min(Max(x, lo), hi)
  }

  /** Python indexing: a negative index counts from the end. */
  function PyIndex(i: int, n: nat): int {
    if i < 0 then i + n else i
  }

  /** Lattice coordinate of a channel value: `v / 255 * (s - 1)`. */
  function Coord(v: Byte, s: nat): (c: real)
    ensures 0.0 <= c <= s as real - 1.0 || s == 0
  {
    CoordRange(v, s);
    CoordOf(v, s)
  }

  /** The product `(s - 1) * v / 255` itself, before its bounds are known. */
  function CoordOf(v: Byte, s: nat): real {
    Product(s as real - 1.0, Unit(v))
  }

  /** A channel value as a fraction of 255. */
  function Unit(v: Byte): (a: real)
    ensures 0.0 <= a <= 1.0
  {
    v as real / 255.0
  }

  /** `x * a`, named so that the bound below is stated about the very term `CoordOf` builds. */
  function Product(x: real, a: real): real {
    x * a
  }

  lemma ProductWithin(x: real, a: real)
    requires x >= 0.0 && 0.0 <= a <= 1.0
    ensures 0.0 <= Product(x, a) <= x
  {
    ScaleWithin(x, a);
  }

  lemma CoordRange(v: Byte, s: nat)
    ensures 0.0 <= CoordOf(v, s) <= s as real - 1.0 || s == 0
  {
    if s >= 1 {
      ProductWithin(s as real - 1.0, Unit(v));
    }
  }

  /** The lower lattice corner: the floored coordinate clipped to `[0, s - 2]`. */
  function Lower(v: Byte, s: nat): (c: int)
    requires s >= 1
    ensures s >= 2 ==> 0 <= c <= s - 2
    ensures s == 1 ==> c == -1
  {
    NpClip(Coord(v, s).Floor, 0, s - 2)
  }

  /** The fractional position between the lower corner and the next one. */
  function Frac(v: Byte, s: nat): (f: real)
    requires s >= 1
    ensures 0.0 <= f <= 1.0
  {
    var c := Coord(v, s);
    if s == 1 then assert c == 0.0; c - Lower(v, s) as real
    else c - Lower(v, s) as real
  }

  /** Both corners used along an axis are valid table indices, for every table size. */
  lemma CornersInBounds(v: Byte, s: nat)
    requires s >= 1
    ensures 0 <= PyIndex(Lower(v, s), s) < s && 0 <= PyIndex(Lower(v, s) + 1, s) < s
    ensures s >= 2 ==> PyIndex(Lower(v, s), s) == Lower(v, s) && PyIndex(Lower(v, s) + 1, s) == Lower(v, s) + 1
  {
  }

  function Lerp(a: real, b: real, t: real): real {
    a * (1.0 - t) + b * t
  }

  function LerpE(a: Entry, b: Entry, t: real): Entry {
    Entry(Lerp(a.r, b.r, t), Lerp(a.g, b.g, t), Lerp(a.b, b.b, t))
  }

  predicate Corner(s: nat, i: int) {
    s >= 1 && 0 <= PyIndex(i, s) < s && 0 <= PyIndex(i + 1, s) < s
  }

  /** The table cell at Python indices. */
  function Cell(t: Lut, i: int, j: int, k: int): Entry
    requires 0 <= PyIndex(i, t.size) < t.size && 0 <= PyIndex(j, t.size) < t.size && 0 <= PyIndex(k, t.size) < t.size
  {
    At(t, PyIndex(i, t.size), PyIndex(j, t.size), PyIndex(k, t.size))
  }

  /**
   * Trilinear interpolation of the eight corners `cXYZ` (X along the first axis) with
   * fractions `(x, y, z)`: first along the first axis, then the second, then the third.
   */
  function Interpolate(c000: Entry, c100: Entry, c010: Entry, c110: Entry,
                       c001: Entry, c101: Entry, c011: Entry, c111: Entry,
                       x: real, y: real, z: real): Entry
  {
    var c00 := LerpE(c000, c100, x);
    var c01 := LerpE(c001, c101, x);
    var c10 := LerpE(c010, c110, x);
    var c11 := LerpE(c011, c111, x);
    var c0 := LerpE(c00, c10, y);
    var c1 := LerpE(c01, c11, y);
    LerpE(c0, c1, z)
  }

  /** Interpolation from the table's lower corner `(i, j, k)`. */
  function Trilinear(t: Lut, i: int, j: int, k: int, x: real, y: real, z: real): Entry
    requires Corner(t.size, i) && Corner(t.size, j) && Corner(t.size, k)
  {
    Interpolate(Cell(t, i, j, k), Cell(t, i + 1, j, k), Cell(t, i, j + 1, k), Cell(t, i + 1, j + 1, k),
                Cell(t, i, j, k + 1), Cell(t, i + 1, j, k + 1), Cell(t, i, j + 1, k + 1), Cell(t, i + 1, j + 1, k + 1),
                x, y, z)
  }

  /** The interpolated value for a pixel, given the channel that indexes each axis. */
  function Lookup(t: Lut, a0: Byte, a1: Byte, a2: Byte): Entry {
    var s := t.size;
    CornersInBounds(a0, s);
    CornersInBounds(a1, s);
    CornersInBounds(a2, s);
    Trilinear(t, Lower(a0, s), Lower(a1, s), Lower(a2, s), Frac(a0, s), Frac(a1, s), Frac(a2, s))
  }

  /** `np.clip(result, 0, 255).astype(np.uint8)`, then back to BGR. */
  function ToPixel(e: Entry): Pixel {
    Pixel(ToByte(e.b), ToByte(e.g), ToByte(e.r))
  }

  /** Below full intensity the original is mixed back in: `orig*(1-i) + res*i`. */
  function WithIntensity(orig: Pixel, res: Pixel, intensity: real): (p: Pixel)
    requires 0.0 <= intensity
    ensures Between(p, orig, res)
    ensures intensity == 0.0 ==> p == orig
    ensures intensity >= 1.0 ==> p == res
  {
    if intensity < 1.0 then BlendPixel(orig, res, intensity) else res
  }

  /** `apply_lut` as written: the first table axis is indexed with red. */
  function ApplyLutAsWritten(img: Image, lut: Option<Lut>, intensity: real): (r: Image)
    requires 0.0 <= intensity
    ensures lut.None? ==> r == img
    ensures lut.Some? ==> HasShape(r, Height(img), Width(img))
    ensures lut.Some? ==> forall i, j :: InBounds(img, i, j) ==>
      r[i][j] == WithIntensity(img[i][j], ToPixel(Lookup(lut.value, img[i][j].r, img[i][j].g, img[i][j].b)), intensity)
  {
    match lut
    case None => img
    case Some(t) => MapCells(img, AsWrittenCell(t, intensity))
  }

  /** What `ApplyLutAsWritten` does to one pixel: look it up, red first, and mix at `intensity`. */
  function AsWrittenCell(t: Lut, intensity: real): (int, int, Pixel) -> Pixel
    requires 0.0 <= intensity
  {
    (i, j, p: Pixel) => WithIntensity(p, ToPixel(Lookup(t, p.r, p.g, p.b)), intensity)
  }

  /** `apply_lut` with the table's first axis indexed by blue, as the `.cube` layout requires. */
  function ApplyLut(img: Image, lut: Option<Lut>, intensity: real): (r: Image)
    requires 0.0 <= intensity
    ensures lut.None? ==> r == img
    ensures lut.Some? ==> HasShape(r, Height(img), Width(img))
    ensures lut.Some? ==> forall i, j :: InBounds(img, i, j) ==>
      r[i][j] == WithIntensity(img[i][j], ToPixel(Lookup(lut.value, img[i][j].b, img[i][j].g, img[i][j].r)), intensity)
  {
    match lut
    case None => img
    case Some(t) => MapCells(img, LutCell(t, intensity))
  }

  /** What `ApplyLut` does to one pixel: look it up, blue first, and mix at `intensity`. */
  function LutCell(t: Lut, intensity: real): (int, int, Pixel) -> Pixel
    requires 0.0 <= intensity
  {
    (i, j, p: Pixel) => WithIntensity(p, ToPixel(Lookup(t, p.b, p.g, p.r)), intensity)
  }

  /** At intensity 0 the image comes back unchanged, whatever the table. */
  lemma ZeroIntensityIsIdentity(img: Image, lut: Option<Lut>)
    ensures ApplyLut(img, lut, 0.0) == img
  {
    if lut.Some? {
      GridExt(ApplyLut(img, lut, 0.0), img);
    }
  }

  // ---------------------------------------------------------------------------
  // The identity table.

  /** The identity table in `.cube` order, red fastest: row `n` is `(n % s, n / s % s, n / s^2) / (s - 1)`. */
  function IdentityRows(s: nat): (rows: seq<Entry>)
    requires s >= 2
    ensures |rows| == Cube(s)
  {
    var d := (s - 1) as real;
    seq(s * s * s, n requires 0 <= n < s * s * s => Entry((n % s) as real / d, ((n / s) % s) as real / d, (n / (s * s)) as real / d))
  }

  function IdentityCube(s: nat): Lut
    requires s >= 2
  {
    Table(s, IdentityRows(s))
  }

  lemma IdentityAtMostOne(s: nat)
    requires s >= 2
    ensures AllAtMostOne(IdentityRows(s))
  {
    var rows := IdentityRows(s);
    var d := (s - 1) as real;
    forall n | 0 <= n < |rows| ensures rows[n].r <= 1.0 && rows[n].g <= 1.0 && rows[n].b <= 1.0 {
      Digits3(n, s);
      UnitFraction(n % s, s);
      UnitFraction((n / s) % s, s);
      UnitFraction(n / (s * s), s);
    }
  }

  lemma UnitFraction(a: int, s: nat)
    requires s >= 2 && 0 <= a < s
    ensures a as real / (s - 1) as real <= 1.0
  {
  }

  /** The row a cell of a size-`s` table is read from, split back into its three digits. */
  lemma IndexDigits(s: nat, i: int, j: int, k: int)
    requires s >= 1 && 0 <= i < s && 0 <= j < s && 0 <= k < s
    ensures var n := (i * s + j) * s + k;
      n % s == k && (n / s) % s == j && n / (s * s) == i
  {
    var n := (i * s + j) * s + k;
    Regroup(i, j, k, s);
    LtSquare(j, k, s);
    DivModUnique(n, s, i * s + j, k);
    DivModUnique(i * s + j, s, i, j);
    DivModUnique(n, s * s, i, j * s + k);
  }

  /** Row `(i * s + j) * s + k` of the identity table holds `(k, j, i) / (s - 1)`. */
  lemma IdentityRowAt(s: nat, i: int, j: int, k: int)
    requires s >= 2 && 0 <= i < s && 0 <= j < s && 0 <= k < s
    ensures 0 <= (i * s + j) * s + k < Cube(s)
    ensures var d := (s - 1) as real;
      IdentityRows(s)[(i * s + j) * s + k] == Entry(k as real / d, j as real / d, i as real / d)
  {
    CellInRange(s, i, j, k);
    IndexDigits(s, i, j, k);
  }

  /** A cell of the loaded identity table is 255 times the stored row. */
  lemma RescaledAt(s: nat, i: int, j: int, k: int)
    requires s >= 2 && 0 <= i < s && 0 <= j < s && 0 <= k < s
    ensures 0 <= (i * s + j) * s + k < Cube(s)
    ensures At(Rescale(IdentityCube(s)), i, j, k) == Times255(IdentityRows(s)[(i * s + j) * s + k])
  {
    IdentityAtMostOne(s);
    CellInRange(s, i, j, k);
  }

  lemma RampTimes(s: nat, i: int, j: int, k: int)
    requires s >= 2
    ensures var d := (s - 1) as real;
      Times255(Entry(k as real / d, j as real / d, i as real / d)) == Entry(Ramp(s)(k), Ramp(s)(j), Ramp(s)(i))
  {
    var d := (s - 1) as real;
    ScaleUnit(k as real, d);
    ScaleUnit(j as real, d);
    ScaleUnit(i as real, d);
  }

  /** The loaded identity table holds `255 * (k, j, i) / (s - 1)` at `[i][j][k]`. */
  lemma IdentityCell(s: nat, i: int, j: int, k: int)
    requires s >= 2 && 0 <= i < s && 0 <= j < s && 0 <= k < s
    ensures At(Rescale(IdentityCube(s)), i, j, k) == Entry(Ramp(s)(k), Ramp(s)(j), Ramp(s)(i))
  {
    IdentityRowAt(s, i, j, k);
    RescaledAt(s, i, j, k);
    RampTimes(s, i, j, k);
  }

  lemma ScaleUnit(a: real, d: real)
    requires d > 0.0
    ensures a / d * 255.0 == a * (255.0 / d)
  {
  }

  lemma LerpSame(a: real, t: real)
    ensures Lerp(a, a, t) == a
  {
  }

  lemma LerpStep(p: real, u: real, t: real)
    ensures Lerp(p, p + u, t) == p + t * u
  {
  }

  /** `Coord(v, s) * 255 / (s - 1)` is `v` again. */
  lemma CoordBack(v: Byte, s: nat)
    requires s >= 2
    ensures Coord(v, s) * (255.0 / (s - 1) as real) == v as real
  {
    var d := (s - 1) as real;
    assert Coord(v, s) == v as real / 255.0 * d;
    assert v as real / 255.0 * d * (255.0 / d) == v as real;
  }

  /** Along each axis the lower corner plus the fraction is the coordinate itself. */
  lemma CornerPlusFrac(v: Byte, s: nat)
    requires s >= 2
    ensures Lower(v, s) as real + Frac(v, s) == Coord(v, s)
  {
  }

  /**
   * Corners whose values along each axis depend on that axis only (`p` the first axis,
   * stored as blue; `q` the second, green; `r` the third, red) are interpolated one axis
   * at a time.
   */
  lemma InterpolateSeparable(p0: real, p1: real, q0: real, q1: real, r0: real, r1: real,
                             x: real, y: real, z: real)
    ensures Interpolate(Entry(r0, q0, p0), Entry(r0, q0, p1), Entry(r0, q1, p0), Entry(r0, q1, p1),
                        Entry(r1, q0, p0), Entry(r1, q0, p1), Entry(r1, q1, p0), Entry(r1, q1, p1), x, y, z)
         == Entry(Lerp(r0, r1, z), Lerp(q0, q1, y), Lerp(p0, p1, x))
  {
    LerpSame(r0, x);
    LerpSame(r1, x);
    LerpSame(q0, x);
    LerpSame(q1, x);
    LerpSame(r0, y);
    LerpSame(r1, y);
    LerpSame(Lerp(p0, p1, x), y);
    LerpSame(Lerp(q0, q1, y), z);
    LerpSame(Lerp(p0, p1, x), z);
  }

  /** Every cell `[i][j][k]` holds `(f(k), f(j), f(i))`: each channel follows one axis. */
  predicate Separable(t: Lut, f: int -> real) {
    forall i, j, k :: 0 <= i < t.size && 0 <= j < t.size && 0 <= k < t.size ==>
      At(t, i, j, k) == Entry(f(k), f(j), f(i))
  }

  /** The identity lattice value of index `a` in a size-`s` table: `255 * a / (s - 1)`. */
  function Ramp(s: nat): int -> real
    requires s >= 2
  {
    (a: int) => a as real * (255.0 / (s - 1) as real)
  }

  lemma IdentityIsSeparable(s: nat)
    requires s >= 2
    ensures Separable(Rescale(IdentityCube(s)), Ramp(s))
  {
    forall i, j, k | 0 <= i < s && 0 <= j < s && 0 <= k < s
      ensures At(Rescale(IdentityCube(s)), i, j, k) == Entry(Ramp(s)(k), Ramp(s)(j), Ramp(s)(i))
    {
      IdentityCell(s, i, j, k);
    }
  }

  /** Interpolating a separable table interpolates each axis on its own. */
  lemma SeparableLookup(t: Lut, f: int -> real, i: int, j: int, k: int, x: real, y: real, z: real)
    requires t.size >= 2 && Separable(t, f)
    requires 0 <= i <= t.size - 2 && 0 <= j <= t.size - 2 && 0 <= k <= t.size - 2
    ensures Trilinear(t, i, j, k, x, y, z)
         == Entry(Lerp(f(k), f(k + 1), z), Lerp(f(j), f(j + 1), y), Lerp(f(i), f(i + 1), x))
  {
    SeparableCell(t, f, i, j, k);
    SeparableCell(t, f, i + 1, j, k);
    SeparableCell(t, f, i, j + 1, k);
    SeparableCell(t, f, i + 1, j + 1, k);
    SeparableCell(t, f, i, j, k + 1);
    SeparableCell(t, f, i + 1, j, k + 1);
    SeparableCell(t, f, i, j + 1, k + 1);
    SeparableCell(t, f, i + 1, j + 1, k + 1);
    InterpolateSeparable(f(i), f(i + 1), f(j), f(j + 1), f(k), f(k + 1), x, y, z);
  }

  /** A cell of a separable table at in-range indices. */
  lemma SeparableCell(t: Lut, f: int -> real, i: int, j: int, k: int)
    requires Separable(t, f) && 0 <= i < t.size && 0 <= j < t.size && 0 <= k < t.size
    ensures Cell(t, i, j, k) == Entry(f(k), f(j), f(i))
  {
    assert Cell(t, i, j, k) == At(t, i, j, k);
  }

  /** Along one axis, the identity ramp interpolated at a channel's corner and fraction is the channel value. */
  lemma RampBack(v: Byte, s: nat)
    requires s >= 2
    ensures Lerp(Ramp(s)(Lower(v, s)), Ramp(s)(Lower(v, s) + 1), Frac(v, s)) == v as real
  {
    var u := 255.0 / (s - 1) as real;
    var c := Lower(v, s);
    StepUp(c, u);
    LerpStep(c as real * u, u, Frac(v, s));
    CornerPlusFrac(v, s);
    CoordBack(v, s);
    assert c as real * u + Frac(v, s) * u == (c as real + Frac(v, s)) * u;
  }

  lemma StepUp(a: int, u: real)
    ensures (a + 1) as real * u == a as real * u + u
  {
  }

  /**
   * Interpolating the loaded identity table with axes indexed by `(a0, a1, a2)` gives
   * red from `a2`, green from `a1` and blue from `a0`.
   */
  lemma IdentityLookup(s: nat, a0: Byte, a1: Byte, a2: Byte)
    requires s >= 2
    ensures Lookup(Rescale(IdentityCube(s)), a0, a1, a2) == Entry(a2 as real, a1 as real, a0 as real)
  {
    var t := Rescale(IdentityCube(s));
    IdentityIsSeparable(s);
    SeparableLookup(t, Ramp(s), Lower(a0, s), Lower(a1, s), Lower(a2, s), Frac(a0, s), Frac(a1, s), Frac(a2, s));
    RampBack(a0, s);
    RampBack(a1, s);
    RampBack(a2, s);
  }

  lemma ToByteOfByte(v: Byte)
    ensures ToByte(v as real) == v
  {
  }

  /** With the first axis indexed by blue, the identity table leaves every image unchanged. */
  lemma IdentityCubeIsIdentity(img: Image, s: nat, intensity: real)
    requires s >= 2 && 0.0 <= intensity
    ensures ApplyLut(img, Some(Rescale(IdentityCube(s))), intensity) == img
  {
    var f := LutCell(Rescale(IdentityCube(s)), intensity);
    forall i, j | InBounds(img, i, j)
      ensures f(i, j, img[i][j]) == img[i][j]
    {
      IdentityPixel(img[i][j], s, intensity, i, j);
    }
    MapCellsFixed(img, f);
  }

  /** The identity table, looked up blue first, gives every pixel back at any intensity. */
  lemma IdentityPixel(p: Pixel, s: nat, intensity: real, i: int, j: int)
    requires s >= 2 && 0.0 <= intensity
    ensures LutCell(Rescale(IdentityCube(s)), intensity)(i, j, p) == p
  {
    IdentityLookup(s, p.b, p.g, p.r);
    ToByteOfByte(p.r);
    ToByteOfByte(p.g);
    ToByteOfByte(p.b);
    assert ToPixel(Lookup(Rescale(IdentityCube(s)), p.b, p.g, p.r)) == p;
  }

  /** As written, the identity table swaps red and blue in every pixel (at full intensity). */
  lemma AsWrittenSwapsRedBlue(p: Pixel, s: nat)
    requires s >= 2
    ensures ToPixel(Lookup(Rescale(IdentityCube(s)), p.r, p.g, p.b)) == Pixel(p.r, p.g, p.b)
  {
    IdentityLookup(s, p.r, p.g, p.b);
    ToByteOfByte(p.r);
    ToByteOfByte(p.g);
    ToByteOfByte(p.b);
  }

  /** At full intensity or more, the as-written lookup of the identity table swaps red and blue. */
  lemma AsWrittenSwapsCell(p: Pixel, s: nat, intensity: real, i: int, j: int)
    requires s >= 2 && intensity >= 1.0
    ensures AsWrittenCell(Rescale(IdentityCube(s)), intensity)(i, j, p) == SwapRedBlue(p)
  {
    AsWrittenSwapsRedBlue(p, s);
  }

  /** Red and blue exchanged. */
  function SwapRedBlue(p: Pixel): Pixel {
    Pixel(p.r, p.g, p.b)
  }

  /** As written, the identity table exchanges red and blue in every pixel, at every intensity of 1 or more. */
  lemma AsWrittenSwapsImage(img: Image, s: nat, intensity: real)
    requires s >= 2 && intensity >= 1.0
    ensures var r := ApplyLutAsWritten(img, Some(Rescale(IdentityCube(s))), intensity);
      HasShape(r, Height(img), Width(img))
      && forall i, j :: InBounds(img, i, j) ==> r[i][j] == SwapRedBlue(img[i][j])
  {
    var f := AsWrittenCell(Rescale(IdentityCube(s)), intensity);
    var r := MapCells(img, f);
    forall i, j | InBounds(img, i, j) ensures r[i][j] == SwapRedBlue(img[i][j]) {
      AsWrittenSwapsCell(img[i][j], s, intensity, i, j);
    }
  }

  /** So any image holding a pixel whose red and blue differ comes back changed. */
  lemma AsWrittenIdentityChangesImage(img: Image, s: nat, i: int, j: int)
    requires s >= 2 && InBounds(img, i, j) && img[i][j].r != img[i][j].b
    ensures ApplyLutAsWritten(img, Some(Rescale(IdentityCube(s))), 1.0) != img
  {
    AsWrittenSwapsImage(img, s, 1.0);
  }

  /**
   * End to end: the sample identity file, written red-fastest and read back by the
   * loader, leaves images unchanged under `ApplyLut` and swaps red and blue under
   * `ApplyLutAsWritten`.
   */
  lemma SampleIdentityFile(img: Image, s: nat, before: seq<string>, after: seq<string>,
                           fmt: real -> string, toReal: string -> Option<real>)
    requires s >= 2
    requires forall k :: 0 <= k < |before| ==> SkippedLine(before[k])
    requires forall k :: 0 <= k < |after| ==> SkippedLine(after[k])
    requires FaithfulRows(fmt, toReal, IdentityRows(s))
    ensures var loaded := Decode(WriteCube(s, before, after, IdentityRows(s), fmt), toReal);
      ApplyLut(img, loaded, 1.0) == img
      && forall i, j :: InBounds(img, i, j) ==> ApplyLutAsWritten(img, loaded, 1.0)[i][j] == SwapRedBlue(img[i][j])
  {
    WriteThenDecode(IdentityCube(s), before, after, fmt, toReal);
    IdentityCubeIsIdentity(img, s, 1.0);
    AsWrittenSwapsImage(img, s, 1.0);
  }
}

=== FILE: manual_trigger.dfy ===
/**
 * The manual shutter trigger: its connection check, the single capture with its counter,
 * burst mode, and the command loop.
 *
 * gPhoto2 is an oracle as in the camera controller: a return code (`None` when the command
 * timed out, is missing or raised) and its standard output. The capture parser and the
 * backup split are the controller's own definitions, which the script repeats.
 */
module ManualTrigger {
  import opened Wrappers
  import opened Seqs
  import opened Text
  import opened Camera

  /** `check_camera_connection`: `--auto-detect` succeeds and lists at least one camera. */
  function CheckConnection(rc: Option<int>, stdout: string): (ok: bool)
    ensures ok <==> rc == Some(0) && exists i :: 0 <= i < |TableBody(stdout)| && IsCameraLine(TableBody(stdout)[i])
  {
    CameraListedIff(stdout);
    rc == Some(0) && |CameraLines(stdout)| > 0
  }

  /** The script's check and the controller's detection agree whenever `--summary` succeeds. */
  lemma CheckAgreesWithController(rc: Option<int>, stdout: string)
    ensures CheckConnection(rc, stdout) <==> DetectCamera(rc, stdout, Some(0)).Connected?
  {
  }

  /** What one `capture_single` of the script does. */
  datatype Shot = Shot(count: nat, ok: bool, files: seq<string>, backups: seq<Copy>)

  /**
   * `capture_single`: the counter goes up before the attempt whatever happens; the capture
   * succeeds exactly when gPhoto2 returns 0, even when no file is reported; reported files
   * that exist are backed up.
   */
  function CaptureSingle(count: nat, rc: Option<int>, stdout: string, present: string -> bool,
                         copyOk: Copy -> bool): (r: Shot)
    ensures r.count == count + 1
    ensures r.ok <==> rc == Some(0)
    ensures r.ok ==> r.files == ParseCaptureOutput(stdout, present)
    ensures !r.ok ==> r.files == [] && r.backups == []
    ensures |r.backups| <= |r.files|
  {
    if rc != Some(0) then Shot(count + 1, false, [], [])
    else
      var files := ParseCaptureOutput(stdout, present);
      Shot(count + 1, true, files, if |files| > 0 then BackupFiles(files, copyOk) else [])
  }

  /**
   * A capture that reports no existing file succeeds here but fails in the controller: the
   * two `capture_single` functions disagree on what success means.
   */
  lemma ScriptCountsEmptyCaptureAsSuccess(count: nat, c: Controller, stdout: string, present: string -> bool,
                                          copyOk: Copy -> bool)
    requires ParseCaptureOutput(stdout, present) == []
    ensures CaptureSingle(count, Some(0), stdout, present, copyOk).ok
    ensures !Camera.CaptureSingle(c, Some(0), stdout, present, copyOk).0
  {
  }

  /** When files are reported, the two agree on success and on the files. */
  lemma CapturesAgreeOnFiles(count: nat, c: Controller, rc: Option<int>, stdout: string, present: string -> bool,
                             copyOk: Copy -> bool)
    requires c.connected && |ParseCaptureOutput(stdout, present)| > 0
    ensures CaptureSingle(count, rc, stdout, present, copyOk).ok == Camera.CaptureSingle(c, rc, stdout, present, copyOk).0
    ensures CaptureSingle(count, rc, stdout, present, copyOk).files == Camera.CaptureSingle(c, rc, stdout, present, copyOk).1
    ensures CaptureSingle(count, rc, stdout, present, copyOk).backups == Camera.CaptureSingle(c, rc, stdout, present, copyOk).2
  {
  }

  /** The number of successes among the first `n` shots. */
  function Successes(ok: nat -> bool, n: nat): (s: nat)
    ensures s <= n
  {
    if n == 0 then 0 else Successes(ok, n - 1) + (if ok(n - 1) then 1 else 0)
  }

  /**
   * `burst_mode(count)`: `range(count)` shots (none for a negative count), each counted by
   * `capture_single`, with a sleep between consecutive shots and none after the last.
   */
  method Burst(count: int, startCount: nat, ok: nat -> bool) returns (successes: nat, sleeps: nat, captureCount: nat)
    ensures var n := if count < 0 then 0 else count;
      successes == Successes(ok, n) && successes <= n
      && sleeps == (if n == 0 then 0 else n - 1)
      && captureCount == startCount + n
  {
    var n: nat := if count < 0 then 0 else count;
    successes := 0;
    sleeps := 0;
    captureCount := startCount;
    var i := 0;
    while i < n
      invariant 0 <= i <= n
      invariant successes == Successes(ok, i)
      invariant sleeps == (if i < n then i else if n == 0 then 0 else n - 1)
      invariant captureCount == startCount + i
    {
      captureCount := captureCount + 1;
      if ok(i) {
        successes := successes + 1;
      }
      if i < n - 1 {
        sleeps := sleeps + 1;
      }
      i := i + 1;
    }
  }

  /** A burst where every shot fails still counts every shot. */
  lemma {:induction false} AllFailuresNoSuccess(ok: nat -> bool, n: nat)
    requires forall i :: 0 <= i < n ==> !ok(i)
    ensures Successes(ok, n) == 0
  {
    if n > 0 {
      AllFailuresNoSuccess(ok, n - 1);
    }
  }

  /** A burst where every shot succeeds reports all of them. */
  lemma {:induction false} AllSuccessesCounted(ok: nat -> bool, n: nat)
    requires forall i :: 0 <= i < n ==> ok(i)
    ensures Successes(ok, n) == n
  {
    if n > 0 {
      AllSuccessesCounted(ok, n - 1);
    }
  }

  /** The commands of the interactive loop. */
  datatype Command = Capture | Summary | Reconfig | Quit | Unknown

  /** The command an input line names, after stripping and lower-casing. */
  function ParseCommand(line: string): (c: Command)
    ensures c == Capture <==> ToLower(Strip(line)) in {"c", "capture", ""}
    ensures c == Quit <==> ToLower(Strip(line)) in {"q", "quit", "exit"}
  {
    CommandOf(ToLower(Strip(line)))
  }

  /** The command a stripped, lower-cased word names. */
  function CommandOf(w: string): (c: Command)
    ensures c == Capture <==> w in {"c", "capture", ""}
    ensures c == Quit <==> w in {"q", "quit", "exit"}
  {
    if w in {"c", "capture", ""} then Capture
    else if w in {"s", "summary"} then Summary
    else if w in {"r", "reconfig"} then Reconfig
    else if w in {"q", "quit", "exit"} then Quit
    else Unknown
  }

  /** The word the help text gives for each known command. */
  function CommandWord(c: Command): string {
    match c
    case Capture => "capture"
    case Summary => "summary"
    case Reconfig => "reconfig"
    case Quit => "quit"
    case Unknown => "?"
  }

  /** Surrounding whitespace is stripped away. */
  lemma StripPadded(pad: string, w: string)
    requires forall i :: 0 <= i < |pad| ==> IsSpace(pad[i])
    requires |w| > 0 && !IsSpace(w[0]) && !IsSpace(w[|w| - 1])
    ensures Strip(pad + w + pad) == w
  {
    assert pad + w + pad == pad + (w + pad);
    assert (w + pad)[0] == w[0];
    TrimLeftSpaces(pad, w + pad);
    TrimRightSpaces(w, pad);
  }

  /** Typing the word of a command, with any padding, runs that command. */
  lemma CommandWordRoundTrip(c: Command, pad: string)
    requires c != Unknown && forall i :: 0 <= i < |pad| ==> IsSpace(pad[i])
    ensures ParseCommand(pad + CommandWord(c) + pad) == c
  {
    var w := CommandWord(c);
    StripPadded(pad, w);
    LowerWord(c);
    CommandOfWord(c);
  }

  /** Each known command's word names that command. */
  lemma CommandOfWord(c: Command)
    requires c != Unknown
    ensures CommandOf(CommandWord(c)) == c
  {
  }

  lemma LowerWord(c: Command)
    ensures ToLower(CommandWord(c)) == CommandWord(c)
  {
    var w := CommandWord(c);
    forall i | 0 <= i < |w|
      ensures LowerChar(w[i]) == w[i]
    {
    }
  }

  lemma {:induction false} TrimLeftSpaces(pad: string, s: string)
    requires forall i :: 0 <= i < |pad| ==> IsSpace(pad[i])
    requires |s| > 0 && !IsSpace(s[0])
    ensures TrimLeft(pad + s) == s
    decreases |pad|
  {
    if |pad| > 0 {
      assert (pad + s)[1..] == pad[1..] + s;
      TrimLeftSpaces(pad[1..], s);
    } else {
      assert pad + s == s;
    }
  }

  lemma {:induction false} TrimRightSpaces(s: string, pad: string)
    requires forall i :: 0 <= i < |pad| ==> IsSpace(pad[i])
    requires |s| > 0 && !IsSpace(s[|s| - 1])
    ensures TrimRight(s + pad) == s
    decreases |pad|
  {
    if |pad| > 0 {
      assert (s + pad)[..|s + pad| - 1] == s + pad[..|pad| - 1];
      TrimRightSpaces(s, pad[..|pad| - 1]);
    } else {
      assert s + pad == s;
    }
  }

  /** A line that leaves the loop. */
  predicate IsQuit(line: string) {
    ParseCommand(line) == Quit
  }

  /** Some line of the input is a quit command. */
  predicate HasQuit(lines: seq<string>) {
    Any(lines, IsQuit)
  }

  /** The state of the interactive loop after some input lines. */
  datatype Session = Session(count: nat, exited: bool)

  /**
   * `interactive_mode`: each line runs its command; quit leaves the loop, and so does
   * nothing else, since a read error is reported and the loop reads again. When the lines
   * run out before a quit the loop is still running.
   */
  function Interact(s: Session, lines: seq<string>): (r: Session)
    requires !s.exited
    ensures r.exited <==> HasQuit(lines)
    ensures s.count <= r.count <= s.count + |lines|
    decreases |lines|
  {
    if |lines| == 0 then s
    else
      var c := ParseCommand(lines[0]);
      if c == Quit then
        assert 0 < |lines| && ParseCommand(lines[0]) == Quit;
        s.(exited := true)
      else
        HasQuitCons(lines);
        Interact(Step(s, c), lines[1..])
  }

  /** A command other than quit: a capture counts one shot, the rest change nothing. */
  function Step(s: Session, c: Command): (r: Session)
    ensures r.exited == s.exited
    ensures r.count == s.count + (if c == Capture then 1 else 0)
  {
    if c == Capture then s.(count := s.count + 1) else s
  }

  /** A first line that is not a quit is run, and the loop goes on with the rest. */
  lemma InteractStep(s: Session, lines: seq<string>)
    requires !s.exited && |lines| > 0 && ParseCommand(lines[0]) != Quit
    ensures Interact(s, lines) == Interact(Step(s, ParseCommand(lines[0])), lines[1..])
  {
  }

  /** A first line that is a quit ends the loop at once. */
  lemma InteractQuit(s: Session, lines: seq<string>)
    requires !s.exited && |lines| > 0 && ParseCommand(lines[0]) == Quit
    ensures Interact(s, lines) == s.(exited := true)
  {
  }

  /** The input holds a quit exactly when its first line is one or the rest holds one. */
  lemma HasQuitCons(lines: seq<string>)
    requires |lines| > 0
    ensures HasQuit(lines) <==> ParseCommand(lines[0]) == Quit || HasQuit(lines[1..])
  {
    AnyCons(lines, IsQuit);
  }

  /** Appending input changes neither the first line nor what follows it, apart from the appended part. */
  lemma AppendSplit(lines: seq<string>, rest: seq<string>)
    requires |lines| > 0
    ensures (lines + rest)[0] == lines[0] && (lines + rest)[1..] == lines[1..] + rest
  {
  }

  /** Everything after a quit is ignored. */
  lemma {:induction false} QuitIgnoresRest(s: Session, lines: seq<string>, rest: seq<string>)
    requires !s.exited && HasQuit(lines)
    ensures Interact(s, lines + rest) == Interact(s, lines)
    decreases |lines|
  {
    var c := ParseCommand(lines[0]);
    AppendSplit(lines, rest);
    if c != Quit {
      HasQuitCons(lines);
      InteractStep(s, lines);
      InteractStep(s, lines + rest);
      QuitIgnoresRest(Step(s, c), lines[1..], rest);
    } else {
      InteractQuit(s, lines);
      InteractQuit(s, lines + rest);
    }
  }
}

=== FILE: paths.dfy ===
/**
 * File-name classification shared by the capture, watcher and backup code:
 * `pathlib.PurePath.suffix` and the RAW/JPEG extension sets, compared after `.lower()`.
 */
module Paths {
  import opened Wrappers
  import opened Text

  /** The position of the last `.` in `s`. */
  function LastDot(s: string): (r: Option<nat>)
    ensures r.Some? ==> r.value < |s| && s[r.value] == '.' && forall j :: r.value < j < |s| ==> s[j] != '.'
    ensures r.None? ==> forall j :: 0 <= j < |s| ==> s[j] != '.'
  {
    if |s| == 0 then None
    else if s[|s| - 1] == '.' then Some(|s| - 1)
    else LastDot(s[..|s| - 1])
  }

  /**
   * `Path(name).suffix`: from the last dot to the end, unless that dot is the first or the
   * last character of the name, in which case there is no suffix.
   */
  function Suffix(name: string): (r: string)
    ensures r == "" <==> (forall i :: 0 < i < |name| - 1 ==> name[i] != '.') || (|name| > 0 && name[|name| - 1] == '.')
    ensures r != "" ==> 2 <= |r| < |name| && EndsWith(name, r) && r[0] == '.' && forall j :: 0 < j < |r| ==> r[j] != '.'
  {
    match LastDot(name)
    case None => ""
    case Some(i) => if 0 < i < |name| - 1 then name[i..] else ""
  }

  /** The extensions the backup sends to the RAW folder. */
  const RawSuffixes: set<string> := {".cr2", ".nef", ".arw", ".raw"}

  /** The extensions the capture pipeline processes. */
  const JpegSuffixes: set<string> := {".jpg", ".jpeg"}

  predicate IsRaw(name: string) {
    ToLower(Suffix(name)) in RawSuffixes
  }

  predicate IsJpeg(name: string) {
    ToLower(Suffix(name)) in JpegSuffixes
  }

  /** Upper-casing keeps every dot where it was. */
  lemma UpperKeepsDots(s: string)
    ensures forall i :: 0 <= i < |s| ==> (ToUpper(s)[i] == '.' <==> s[i] == '.')
  {
  }

  /** `.suffix` commutes with upper-casing. */
  lemma SuffixOfUpper(name: string)
    ensures Suffix(ToUpper(name)) == ToUpper(Suffix(name))
  {
    var u := ToUpper(name);
    UpperKeepsDots(name);
    LastDotOfUpper(name);
    match LastDot(name)
    case None =>
    case Some(i) =>
      if 0 < i < |name| - 1 {
        assert u[i..] == ToUpper(name[i..]);
      }
  }

  lemma {:induction false} LastDotOfUpper(name: string)
    ensures LastDot(ToUpper(name)) == LastDot(name)
    decreases |name|
  {
    var u := ToUpper(name);
    if |name| > 0 && name[|name| - 1] != '.' {
      assert u[..|u| - 1] == ToUpper(name[..|name| - 1]);
      LastDotOfUpper(name[..|name| - 1]);
    }
  }

  /** The RAW test ignores letter case: `IMG.CR2`, `img.cr2` and `Img.Cr2` all go to the RAW folder. */
  lemma RawIgnoresCase(name: string)
    ensures IsRaw(ToUpper(name)) <==> IsRaw(name)
    ensures IsJpeg(ToUpper(name)) <==> IsJpeg(name)
  {
    SuffixOfUpper(name);
    LowerOfUpper(Suffix(name));
  }
}

=== FILE: pipeline.dfy ===
/**
 * `process_full_pipeline`: LUT, then crop, then watermark, then one JPEG write.
 *
 * When no output path is given the source builds one from `time.time()`, but the module
 * never imports `time`; the resulting `NameError` is caught and reported as failure.
 * `ProcessFullPipelineAsWritten` keeps that behaviour; `ProcessFullPipeline` takes the
 * clock reading as a parameter and names the file from it.
 */
module Pipeline {
  import opened Wrappers
  import opened Imaging
  import opened Text
  import CubeLut
  import LutApply
  import AutoCrop
  import Watermark

  /** Everything the three stages need: the loaded table and asset, and the settings. */
  datatype Stages = Stages(
    lut: Option<CubeLut.Lut>,
    intensity: real,
    crop: AutoCrop.CropSettings,
    asset: Option<Watermark.Asset>,
    mark: Watermark.Settings,
    resize: Watermark.AssetResize)

  predicate ValidStages(st: Stages) {
    0.0 <= st.intensity && 0.0 <= st.mark.opacity <= 1.0
  }

  /** The later stages: the crop of a graded image, then the watermark over it. */
  function Finish(graded: Image, st: Stages): Image
    requires ValidStages(st)
  {
    Watermark.ApplyWatermark(AutoCrop.Apply(graded, st.crop), st.asset, st.mark, st.resize)
  }

  /** The image the corrected pipeline writes: graded with the blue-first lookup, then finished. */
  function Processed(img: Image, st: Stages): (r: Image)
    requires ValidStages(st)
    ensures var cropped := AutoCrop.Apply(LutApply.ApplyLut(img, st.lut, st.intensity), st.crop);
      HasShape(r, Height(cropped), Width(cropped))
      && r == Watermark.ApplyWatermark(cropped, st.asset, st.mark, st.resize)
  {
    Finish(LutApply.ApplyLut(img, st.lut, st.intensity), st)
  }

  /** The image the source writes: graded with the red-first lookup of `apply_lut`, then finished. */
  function ProcessedAsWritten(img: Image, st: Stages): (r: Image)
    requires ValidStages(st)
    ensures var cropped := AutoCrop.Apply(LutApply.ApplyLutAsWritten(img, st.lut, st.intensity), st.crop);
      HasShape(r, Height(cropped), Width(cropped))
      && r == Watermark.ApplyWatermark(cropped, st.asset, st.mark, st.resize)
  {
    Finish(LutApply.ApplyLutAsWritten(img, st.lut, st.intensity), st)
  }

  /** Without a table the two lookups are never reached, so both pipelines write the same image. */
  lemma ProcessedAgreeWithoutLut(img: Image, st: Stages)
    requires ValidStages(st) && st.lut.None?
    ensures ProcessedAsWritten(img, st) == Processed(img, st)
  {
  }

  /** With neither a table nor an asset, only the crop acts. */
  lemma OnlyCropWithoutAssets(img: Image, st: Stages)
    requires ValidStages(st) && st.lut.None? && st.asset.None?
    ensures Processed(img, st) == AutoCrop.Apply(img, st.crop)
  {
  }

  /** A successful run: where the file went and what it holds. */
  datatype Written = Written(path: string, image: Image)

  /**
   * The source as written: with no output path it fails before writing, and the image it
   * writes is graded with the red-first lookup. `written` is what `cv2.imwrite` reports.
   */
  function ProcessFullPipelineAsWritten(img: Image, st: Stages, outputPath: Option<string>, written: bool): (r: Option<Written>)
    requires ValidStages(st)
    ensures outputPath.None? ==> r.None?
    ensures outputPath.Some? ==> (r.Some? <==> written)
    ensures r.Some? ==> r.value == Written(outputPath.value, ProcessedAsWritten(img, st))
  {
    match outputPath
    case None => None
    case Some(p) => if written then Some(Written(p, ProcessedAsWritten(img, st))) else None
  }

  /** `PROCESSED_DIR / f"final_{int(time.time())}.jpg"`. */
  function DefaultPath(processedDir: string, clock: nat): (p: string)
    ensures StartsWith(p, processedDir + "/final_") && EndsWith(p, ".jpg")
  {
    var p := processedDir + "/final_" + NatToString(clock) + ".jpg";
    assert p[..|processedDir + "/final_"|] == processedDir + "/final_";
    assert p[|p| - 4..] == ".jpg";
    p
  }

  /** Two different clock readings name two different files. */
  lemma DefaultPathInjective(processedDir: string, a: nat, b: nat)
    requires DefaultPath(processedDir, a) == DefaultPath(processedDir, b)
    ensures a == b
  {
    var pre := processedDir + "/final_";
    var sa, sb := NatToString(a), NatToString(b);
    assert DefaultPath(processedDir, a) == pre + sa + ".jpg";
    assert DefaultPath(processedDir, b) == pre + sb + ".jpg";
    assert |sa| == |sb|;
    assert sa == (pre + sa + ".jpg")[|pre|..|pre| + |sa|];
    assert sb == (pre + sb + ".jpg")[|pre|..|pre| + |sb|];
    NatToStringInjective(a, b);
  }

  /** `process_full_pipeline` with the clock reading supplied for the default file name. */
  function ProcessFullPipeline(img: Image, st: Stages, outputPath: Option<string>,
                               processedDir: string, clock: nat, written: bool): (r: Option<Written>)
    requires ValidStages(st)
    ensures r.Some? <==> written
    ensures r.Some? ==> r.value.image == Processed(img, st)
    ensures r.Some? && outputPath.Some? ==> r.value.path == outputPath.value
    ensures r.Some? && outputPath.None? ==> r.value.path == DefaultPath(processedDir, clock)
  {
    var path := outputPath.GetOr(DefaultPath(processedDir, clock));
    if written then Some(Written(path, Processed(img, st))) else None
  }

  /**
   * With an explicit path both write to it, the source's image differing from the corrected
   * one only by the lookup; without a path only the corrected version writes anything.
   */
  lemma AsWrittenNeedsAPath(img: Image, st: Stages, outputPath: Option<string>, processedDir: string, clock: nat)
    requires ValidStages(st)
    ensures outputPath.Some? ==>
      ProcessFullPipelineAsWritten(img, st, outputPath, true)
        == Some(Written(ProcessFullPipeline(img, st, outputPath, processedDir, clock, true).value.path, ProcessedAsWritten(img, st)))
    ensures outputPath.Some? && st.lut.None? ==>
      ProcessFullPipelineAsWritten(img, st, outputPath, true) == ProcessFullPipeline(img, st, outputPath, processedDir, clock, true)
    ensures outputPath.None? ==>
      ProcessFullPipelineAsWritten(img, st, outputPath, true).None?
      && ProcessFullPipeline(img, st, outputPath, processedDir, clock, true).Some?
  {
    if st.lut.None? {
      ProcessedAgreeWithoutLut(img, st);
    }
  }
}

=== FILE: retry.dfy ===
/**
 * Bounded retry with exponential back-off, shared by the AI enhancer and the web upload:
 * attempt `k` of `n` is made only when attempts `0..k-1` did not settle the outcome,
 * and `2**k` seconds are slept after an unsettled attempt `k` unless it was the last.
 */
module Retry {
  import opened Wrappers

  /** `2 ** k`. */
  function Pow2(k: nat): (r: nat)
    ensures r >= 1
  {
    if k == 0 then 1 else 2 * Pow2(k - 1)
  }

  /** The sleeps `2**0, ..., 2**(n-1)` made between unsettled attempts. */
  function Backoff(n: nat): (r: seq<nat>)
    ensures |r| == n && forall i :: 0 <= i < n ==> r[i] == Pow2(i)
  {
    seq(n, i requires 0 <= i < n => Pow2(i))
  }

  /** Reference definition: the first of `attempts` attempts for which `ok` holds. */
  function FirstWhere(attempts: nat, ok: nat -> bool): (r: Option<nat>)
    ensures r.Some? ==> r.value < attempts && ok(r.value) && forall k :: 0 <= k < r.value ==> !ok(k)
    ensures r.None? ==> forall k :: 0 <= k < attempts ==> !ok(k)
  {
    if attempts == 0 then None
    else match FirstWhere(attempts - 1, ok)
      case Some(k) => Some(k)
      case None => if ok(attempts - 1) then Some(attempts - 1) else None
  }

  lemma FirstWhereIsFirst(attempts: nat, ok: nat -> bool, k: nat)
    requires k < attempts && ok(k) && forall j :: 0 <= j < k ==> !ok(j)
    ensures FirstWhere(attempts, ok) == Some(k)
  {
  }

  lemma FirstWhereNone(attempts: nat, ok: nat -> bool)
    requires forall j :: 0 <= j < attempts ==> !ok(j)
    ensures FirstWhere(attempts, ok).None?
  {
  }
}

=== FILE: seqs.dfy ===
/** Facts about sequences that several modules use. */
module Seqs {

  /** Some element satisfies `p`. */
  predicate Any<T>(xs: seq<T>, p: T -> bool) {
    exists i :: 0 <= i < |xs| && p(xs[i])
  }

  /** Some element satisfies `p` exactly when the first does or some later one does. */
  lemma AnyCons<T>(xs: seq<T>, p: T -> bool)
    requires |xs| > 0
    ensures Any(xs, p) <==> p(xs[0]) || Any(xs[1..], p)
  {
    var t := xs[1..];
    if Any(t, p) {
      var i :| 0 <= i < |t| && p(t[i]);
      assert xs[i + 1] == t[i];
    }
    if Any(xs, p) && !p(xs[0]) {
      var i :| 0 <= i < |xs| && p(xs[i]);
      assert t[i - 1] == xs[i];
    }
  }

  /** The elements that satisfy `p`, in order (a list comprehension with a condition). */
  function Filter<T>(xs: seq<T>, p: T -> bool): (r: seq<T>)
    ensures |r| <= |xs|
    ensures forall i :: 0 <= i < |r| ==> p(r[i])
    decreases |xs|
  {
    if |xs| == 0 then []
    else (if p(xs[0]) then [xs[0]] else []) + Filter(xs[1..], p)
  }

  /** Filtering distributes over concatenation. */
  lemma {:induction false} FilterAppend<T>(a: seq<T>, b: seq<T>, p: T -> bool)
    ensures Filter(a + b, p) == Filter(a, p) + Filter(b, p)
    decreases |a|
  {
    if |a| == 0 {
      assert a + b == b;
    } else {
      assert (a + b)[0] == a[0];
      assert (a + b)[1..] == a[1..] + b;
      FilterAppend(a[1..], b, p);
    }
  }

  /** A sequence whose elements all satisfy `p` filters to itself. */
  lemma {:induction false} FilterAll<T>(a: seq<T>, p: T -> bool)
    requires forall i :: 0 <= i < |a| ==> p(a[i])
    ensures Filter(a, p) == a
    decreases |a|
  {
    if |a| > 0 {
      FilterAll(a[1..], p);
    }
  }

  /** A sequence with no element satisfying `p` filters to nothing. */
  lemma {:induction false} FilterNone<T>(a: seq<T>, p: T -> bool)
    requires forall i :: 0 <= i < |a| ==> !p(a[i])
    ensures Filter(a, p) == []
    decreases |a|
  {
    if |a| > 0 {
      FilterNone(a[1..], p);
    }
  }

  /** An element satisfying `p` leaves the filtered sequence non-empty. */
  lemma {:induction false} FilterHasMember<T>(a: seq<T>, p: T -> bool, i: nat)
    requires i < |a| && p(a[i])
    ensures |Filter(a, p)| > 0
    decreases |a|
  {
    if !p(a[0]) {
      FilterHasMember(a[1..], p, i - 1);
    }
  }

  /** `f` applied to every element, in order. */
  function MapSeq<A, B>(xs: seq<A>, f: A -> B): (r: seq<B>)
    ensures |r| == |xs| && forall k :: 0 <= k < |xs| ==> r[k] == f(xs[k])
  {
    seq(|xs|, k requires 0 <= k < |xs| => f(xs[k]))
  }

  lemma MapAppend<A, B>(a: seq<A>, b: seq<A>, f: A -> B)
    ensures MapSeq(a + b, f) == MapSeq(a, f) + MapSeq(b, f)
  {
  }

  /** Mapping a sequence with one element singled out. */
  lemma MapSplice<A, B>(a: seq<A>, x: A, b: seq<A>, c: seq<A>, f: A -> B)
    ensures MapSeq(a + [x] + b + c, f) == MapSeq(a, f) + [f(x)] + MapSeq(b, f) + MapSeq(c, f)
  {
    MapAppend(a, [x], f);
    MapAppend(a + [x], b, f);
    MapAppend(a + [x] + b, c, f);
  }
}

=== FILE: text.dfy ===
/**
 * The string operations the Python code relies on, with Python's semantics:
 * `str.strip`, `str.lower`, `startswith`, `in`, `split()`, `split('\n')`,
 * `replace`, `join`, `str(int)` and `int(str)`.
 */
module Text {
  import opened Wrappers

  /** The ASCII characters Python's `str.isspace` accepts (Unicode spaces beyond Latin-1 are not modelled). */
  predicate IsSpace(c: char) {
    c == ' ' || c == '\t' || c == '\n' || c == '\r' || c == '\U{B}' || c == '\U{C}'
    || ('\U{1C}' <= c <= '\U{1F}') || c == '\U{85}' || c == '\U{A0}'
  }

  predicate IsDigit(c: char) {
    '0' <= c <= '9'
  }

  predicate AllDigits(s: string) {
    forall i :: 0 <= i < |s| ==> IsDigit(s[i])
  }

  /** Drops leading whitespace. */
  function TrimLeft(s: string): (r: string)
    ensures |r| <= |s| && r == s[|s| - |r|..]
    ensures forall i :: 0 <= i < |s| - |r| ==> IsSpace(s[i])
    ensures |r| > 0 ==> !IsSpace(r[0])
  {
    if |s| > 0 && IsSpace(s[0]) then TrimLeft(s[1..]) else s
  }

  /** Drops trailing whitespace. */
  function TrimRight(s: string): (r: string)
    ensures |r| <= |s| && r == s[..|r|]
    ensures forall i :: |r| <= i < |s| ==> IsSpace(s[i])
    ensures |r| > 0 ==> !IsSpace(r[|r| - 1])
  {
    if |s| > 0 && IsSpace(s[|s| - 1]) then TrimRight(s[..|s| - 1]) else s
  }

  /** Python's `s.strip()`. */
  function Strip(s: string): (r: string)
    ensures |r| <= |s|
    ensures |r| > 0 ==> !IsSpace(r[0]) && !IsSpace(r[|r| - 1])
  {
    TrimRight(TrimLeft(s))
  }

  function LowerChar(c: char): char {
    if 'A' <= c <= 'Z' then (c as int + 32) as char else c
  }

  function UpperChar(c: char): char {
    if 'a' <= c <= 'z' then (c as int - 32) as char else c
  }

  /** Python's `s.lower()` on ASCII letters. */
  function ToLower(s: string): (r: string)
    ensures |r| == |s|
  {
    seq(|s|, i requires 0 <= i < |s| => LowerChar(s[i]))
  }

  /** Python's `s.upper()` on ASCII letters. */
  function ToUpper(s: string): (r: string)
    ensures |r| == |s|
  {
    seq(|s|, i requires 0 <= i < |s| => UpperChar(s[i]))
  }

  /** Lower-casing forgets any earlier upper-casing. */
  lemma LowerOfUpper(s: string)
    ensures ToLower(ToUpper(s)) == ToLower(s)
  {
  }

  /** A string that starts and ends with a non-space is its own strip. */
  lemma StripKeeps(s: string)
    requires |s| > 0 && !IsSpace(s[0]) && !IsSpace(s[|s| - 1])
    ensures Strip(s) == s
  {
  }

  /** A concatenation starts with its first part and ends with its last. */
  lemma ConcatEnds(a: string, b: string, c: string)
    ensures StartsWith(a + b + c, a) && EndsWith(a + b + c, c)
  {
    assert (a + b + c)[..|a|] == a;
    assert (a + b + c)[|a + b|..] == c;
  }

  predicate StartsWith(s: string, p: string) {
    |p| <= |s| && s[..|p|] == p
  }

  predicate EndsWith(s: string, p: string) {
    |p| <= |s| && s[|s| - |p|..] == p
  }

  predicate MatchAt(s: string, p: string, j: int) {
    0 <= j && j + |p| <= |s| && s[j..j + |p|] == p
  }

  /** The first position at or after `i` where `p` occurs in `s`. */
  function IndexOfFrom(s: string, p: string, i: nat): (r: Option<nat>)
    requires i <= |s|
    ensures r.Some? ==> i <= r.value && MatchAt(s, p, r.value)
    ensures r.Some? ==> forall j :: i <= j < r.value ==> !MatchAt(s, p, j)
    ensures r.None? ==> forall j :: i <= j ==> !MatchAt(s, p, j)
    decreases |s| - i
  {
    if i + |p| > |s| then None
    else if s[i..i + |p|] == p then Some(i)
    else if i == |s| then None
    else IndexOfFrom(s, p, i + 1)
  }

  /** Python's `s.find(p)`, as an option. */
  function IndexOf(s: string, p: string): Option<nat> {
    IndexOfFrom(s, p, 0)
  }

  /** Python's `p in s`. */
  predicate Contains(s: string, p: string) {
    IndexOf(s, p).Some?
  }

  /** The first position of character `c` in `s`. */
  function IndexOfChar(s: string, c: char): (r: Option<nat>)
    ensures r.Some? ==> r.value < |s| && s[r.value] == c && forall j :: 0 <= j < r.value ==> s[j] != c
    ensures r.None? ==> forall j :: 0 <= j < |s| ==> s[j] != c
  {
    if |s| == 0 then None
    else if s[0] == c then Some(0)
    else match IndexOfChar(s[1..], c)
      case None => None
      case Some(k) => Some(k + 1)
  }

  /** Python's `s.split(sep)` for a one-character separator: never empty, no piece holds `sep`. */
  function SplitOn(s: string, sep: char): (r: seq<string>)
    ensures |r| >= 1
    ensures forall k, j :: 0 <= k < |r| && 0 <= j < |r[k]| ==> r[k][j] != sep
    decreases |s|
  {
    match IndexOfChar(s, sep)
    case None => [s]
    case Some(k) => [s[..k]] + SplitOn(s[k + 1..], sep)
  }

  /** Python's `sep.join(parts)`. */
  function Join(parts: seq<string>, sep: string): string {
    if |parts| == 0 then ""
    else if |parts| == 1 then parts[0]
    else parts[0] + sep + Join(parts[1..], sep)
  }

  lemma {:induction false} SplitJoin(s: string, sep: char)
    ensures Join(SplitOn(s, sep), [sep]) == s
    decreases |s|
  {
    match IndexOfChar(s, sep)
    case None =>
    case Some(k) =>
      var rest := SplitOn(s[k + 1..], sep);
      SplitJoin(s[k + 1..], sep);
      assert SplitOn(s, sep) == [s[..k]] + rest;
      assert (SplitOn(s, sep))[1..] == rest;
      assert s == s[..k] + [sep] + s[k + 1..];
  }

  /** The end of the token that starts at `i`: the first whitespace at or after `i`. */
  function TokenEnd(t: string, i: nat): (k: nat)
    requires i <= |t|
    ensures i <= k <= |t|
    ensures forall j :: i <= j < k ==> !IsSpace(t[j])
    ensures k == |t| || IsSpace(t[k])
    decreases |t| - i
  {
    if i == |t| || IsSpace(t[i]) then i else TokenEnd(t, i + 1)
  }

  /** Python's `s.split()`: the maximal runs of non-whitespace characters, in order. */
  function Words(s: string): (r: seq<string>)
    ensures AllWords(r)
    decreases |s|
  {
    var t := TrimLeft(s);
    if |t| == 0 then []
    else
      var k := TokenEnd(t, 0);
      FirstWord(t);
      ConsWord(t[..k], Words(t[k..]));
      [t[..k]] + Words(t[k..])
  }

  /** Every element is a word. */
  predicate AllWords(r: seq<string>) {
    forall k :: 0 <= k < |r| ==> IsWord(r[k])
  }

  lemma ConsWord(w: string, rest: seq<string>)
    requires IsWord(w) && AllWords(rest)
    ensures AllWords([w] + rest)
  {
  }

  lemma TrimLeftSpace(x: string)
    ensures TrimLeft(" " + x) == TrimLeft(x)
  {
    assert (" " + x)[1..] == x;
  }

  /** A word followed by a space and more text splits off as the first word. */
  lemma WordsCons(a: string, rest: string)
    requires IsWord(a)
    ensures Words(a + " " + rest) == [a] + Words(rest)
  {
    var t := a + " " + rest;
    assert TrimLeft(t) == t;
    TokenEndOfWord(a, rest);
    assert t[..|a|] == a;
    assert t[|a|..] == " " + rest;
    TrimLeftSpace(rest);
    WordsAfterSpace(rest);
  }

  lemma WordsAfterSpace(rest: string)
    ensures Words(" " + rest) == Words(rest)
  {
    TrimLeftSpace(rest);
    assert TrimLeft(" " + rest) == TrimLeft(rest);
    assert TrimLeft(TrimLeft(rest)) == TrimLeft(rest);
  }

  lemma TokenEndOfWord(a: string, rest: string)
    requires IsWord(a)
    ensures TokenEnd(a + " " + rest, 0) == |a|
  {
    var t := a + " " + rest;
    assert t[|a|] == ' ';
    assert forall j :: 0 <= j < |a| ==> t[j] == a[j];
  }

  lemma WordsSingle(a: string)
    requires IsWord(a)
    ensures Words(a) == [a]
  {
    assert TrimLeft(a) == a;
    assert TokenEnd(a, 0) == |a|;
    assert a[..|a|] == a;
    assert a[|a|..] == [];
  }

  /** Three words joined by single spaces split back into the three. */
  lemma WordsThree(a: string, b: string, c: string)
    requires IsWord(a) && IsWord(b) && IsWord(c)
    ensures Words(a + " " + b + " " + c) == [a, b, c]
  {
    SpacedRight(a, b, c);
    WordsSingle(c);
    WordsCons(b, c);
    WordsCons(a, b + " " + c);
  }

  lemma SpacedRight(a: string, b: string, c: string)
    ensures a + " " + b + " " + c == a + " " + (b + " " + c)
  {
  }

  /** The token at the front of a string that starts with a non-space is a non-empty word. */
  lemma FirstWord(t: string)
    requires |t| > 0 && !IsSpace(t[0])
    ensures 0 < TokenEnd(t, 0) && IsWord(t[..TokenEnd(t, 0)])
  {
    var k := TokenEnd(t, 0);
    assert forall j :: 0 <= j < k ==> t[..k][j] == t[j];
  }

  /** A non-empty run of non-whitespace characters. */
  predicate IsWord(w: string) {
    |w| > 0 && forall j :: 0 <= j < |w| ==> !IsSpace(w[j])
  }

  /** Python's `s.replace(p, rep)`: non-overlapping occurrences, scanned left to right. */
  function ReplaceAll(s: string, p: string, rep: string): string
    requires |p| > 0
    decreases |s|
  {
    if |s| < |p| then s
    else if s[..|p|] == p then rep + ReplaceAll(s[|p|..], p, rep)
    else [s[0]] + ReplaceAll(s[1..], p, rep)
  }

  function DigitChar(d: int): char
    requires 0 <= d < 10
  {
    ('0' as int + d) as char
  }

  /** Python's `str(n)` for a non-negative integer. */
  function NatToString(n: nat): (r: string)
    ensures |r| >= 1 && AllDigits(r)
  {
    if n < 10 then [DigitChar(n)] else NatToString(n / 10) + [DigitChar(n % 10)]
  }

  function DigitsValue(s: string): nat
    requires AllDigits(s)
  {
    if |s| == 0 then 0 else DigitsValue(s[..|s| - 1]) * 10 + (s[|s| - 1] as int - '0' as int)
  }

  /**
   * Python's `int(s)` on a string with no surrounding whitespace: an optional sign and
   * at least one ASCII digit (digit-group underscores are not modelled).
   */
  function ParseInt(s: string): Option<int> {
    if |s| > 0 && (s[0] == '-' || s[0] == '+') then
      var body := s[1..];
      if |body| > 0 && AllDigits(body) then
        var v: int := if s[0] == '-' then 0 - DigitsValue(body) as int else DigitsValue(body);
        Some(v)
      else None
    else if |s| > 0 && AllDigits(s) then Some(DigitsValue(s))
    else None
  }

  lemma {:induction false} DigitsOfNat(n: nat)
    ensures DigitsValue(NatToString(n)) == n
  {
    if n >= 10 {
      var p := NatToString(n / 10);
      var s := p + [DigitChar(n % 10)];
      assert s[..|s| - 1] == p;
      DigitsOfNat(n / 10);
    }
  }

  /** `int(str(n)) == n`. */
  lemma ParseIntOfNatToString(n: nat)
    ensures ParseInt(NatToString(n)) == Some(n)
  {
    DigitsOfNat(n);
  }

  lemma NatToStringInjective(a: nat, b: nat)
    requires NatToString(a) == NatToString(b)
    ensures a == b
  {
    DigitsOfNat(a);
    DigitsOfNat(b);
  }

  /** Python's `f"{s:>w}"`: left-padded with spaces to width `w`. */
  function PadLeft(s: string, w: nat): (r: string)
    ensures |r| == if |s| < w then w else |s|
    ensures r[|r| - |s|..] == s
    ensures forall i :: 0 <= i < |r| - |s| ==> r[i] == ' '
  {
    var pad: seq<char> := seq(if |s| < w then w - |s| else 0, _ => ' ');
    assert (pad + s)[|pad|..] == s;
    pad + s
  }
}

=== FILE: watermark.dfy ===
/**
 * Loading a watermark asset (with a per-path cache), placing it relative to the image,
 * and alpha-blending it in. Resampling the asset is an abstract kernel.
 */
module Watermark {
  import opened Wrappers
  import opened Imaging

  /** One RGBA pixel of the asset, as PIL's `convert("RGBA")` delivers it. */
  datatype Rgba = Rgba(r: Byte, g: Byte, b: Byte, a: Byte)

  type Asset = Grid<Rgba>

  type AssetCache = map<string, Asset>

  /** What opening the asset file gives: no file, a file the decoder rejects, or the pixels. */
  datatype AssetFile = Missing | Unreadable | Readable(asset: Asset)

  datatype LoadedAsset = LoadedAsset(asset: Option<Asset>, cache: AssetCache)

  /**
   * `load_watermark`: a cached asset is returned without opening the file; otherwise a
   * missing or unreadable file gives `None` and leaves the cache alone, and a decoded
   * asset is cached under the path string.
   */
  function LoadWatermark(cache: AssetCache, path: string, file: AssetFile): (r: LoadedAsset)
    ensures path in cache ==> r == LoadedAsset(Some(cache[path]), cache)
    ensures path !in cache ==> (r.asset.Some? <==> file.Readable?)
    ensures path !in cache && file.Readable? ==> r.asset == Some(file.asset) && r.cache == cache[path := file.asset]
    ensures r.asset.None? ==> r.cache == cache
  {
    if path in cache then LoadedAsset(Some(cache[path]), cache)
    else match file
      case Readable(a) => LoadedAsset(Some(a), cache[path := a])
      case _ => LoadedAsset(None, cache)
  }

  /** The cache only grows and never changes an entry it holds. */
  lemma AssetCacheOnlyGrows(cache: AssetCache, path: string, file: AssetFile)
    ensures var c := LoadWatermark(cache, path, file).cache;
      cache.Keys <= c.Keys && forall p :: p in cache ==> c[p] == cache[p]
  {
  }

  /** A second load of a path that loaded answers from the cache, whatever the file now holds. */
  lemma SecondAssetLoadHits(cache: AssetCache, path: string, f1: AssetFile, f2: AssetFile)
    requires LoadWatermark(cache, path, f1).asset.Some?
    ensures var first := LoadWatermark(cache, path, f1);
      LoadWatermark(first.cache, path, f2) == first
  {
  }

  /** The configured horizontal position: `"center"`, `"left"`, and anything else is right. */
  datatype Horizontal = Left | Center | Right

  function HorizontalOf(s: string): (h: Horizontal)
    ensures h == Center <==> s == "center"
    ensures h == Left <==> s == "left"
  {
    if s == "center" then Center else if s == "left" then Left else Right
  }

  /** The distance kept from the left or right edge before clamping. */
  const EdgePadding: int := 50

  datatype Settings = Settings(sizeRatio: real, horizontal: string, vertical: real, opacity: real)

  /** Where the resized asset goes: top-left corner `(x, y)` and size `w x h`. */
  datatype Placement = Placement(x: int, y: int, w: int, h: int)

  /** `max(0, min(v, hi))`. */
  function Clamp(v: int, hi: int): (c: int)
    ensures 0 <= c
    ensures hi >= 0 ==> c <= hi
    ensures 0 <= v <= hi ==> c == v
  {
    Max(0, Min(v, hi))
  }

  /** The asset's width: `int(W * size_ratio)`. */
  function AssetWidth(width: nat, s: Settings): int {
    Trunc(width as real * s.sizeRatio)
  }

  /** The horizontal offset before clamping. */
  function RawX(width: nat, w: int, pos: Horizontal): (x: int)
    ensures pos == Left ==> x == EdgePadding
    ensures pos == Right ==> x + w + EdgePadding == width
    ensures pos == Center ==> 0 <= (width - w) - 2 * x <= 1
  {
    match pos
    case Center => (width - w) / 2
    case Left => EdgePadding
    case Right => width - w - EdgePadding
  }

  /**
   * The placement `apply_watermark` computes for a `height x width` image and an asset of
   * `assetH x assetW`: the asset is scaled to `int(W * ratio)` wide keeping its aspect,
   * centred vertically on `int(H * vertical)`, and clamped into the frame. An asset of
   * width 0 divides by zero: `None`.
   */
  function Place(height: nat, width: nat, assetH: nat, assetW: nat, s: Settings): (p: Option<Placement>)
    ensures p.None? <==> assetW == 0
    ensures p.Some? ==> p.value.w == AssetWidth(width, s)
    ensures p.Some? && p.value.w >= 0 ==> p.value.h * assetW <= p.value.w * assetH < (p.value.h + 1) * assetW
    ensures p.Some? ==> 0 <= p.value.x && 0 <= p.value.y
    ensures p.Some? && p.value.w <= width ==> p.value.x + p.value.w <= width
    ensures p.Some? && p.value.h <= height ==> p.value.y + p.value.h <= height
    ensures p.Some? ==> p.value.x == Clamp(RawX(width, p.value.w, HorizontalOf(s.horizontal)), width - p.value.w)
    ensures p.Some? ==> p.value.y == Clamp(Trunc(height as real * s.vertical) - p.value.h / 2, height - p.value.h)
  {
    if assetW == 0 then None
    else
      var w := AssetWidth(width, s);
      var h := AssetHeight(w, assetH, assetW);
      var x := RawX(width, w, HorizontalOf(s.horizontal));
      var y := Trunc(height as real * s.vertical) - h / 2;
      Some(Placement(Clamp(x, width - w), Clamp(y, height - h), w, h))
  }

  /**
   * Where there is room, the asset sits where the position asks: 50 pixels from the left
   * or right edge, or centred (the left margin at most one pixel narrower than the right).
   */
  lemma PlaceHonoursPosition(height: nat, width: nat, assetH: nat, assetW: nat, s: Settings)
    requires assetW > 0
    ensures var p := Place(height, width, assetH, assetW, s).value;
      && (HorizontalOf(s.horizontal) == Left && EdgePadding + p.w <= width ==> p.x == EdgePadding)
      && (HorizontalOf(s.horizontal) == Right && 0 <= p.w && EdgePadding + p.w <= width ==>
            p.x + p.w + EdgePadding == width)
      && (HorizontalOf(s.horizontal) == Center && 0 <= p.w <= width ==> 0 <= (width - p.w) - 2 * p.x <= 1)
  {
  }

  /** The asset's height: `int(w * assetH / assetW)`, so the aspect ratio is kept up to truncation. */
  function AssetHeight(w: int, assetH: nat, assetW: nat): (h: int)
    requires assetW > 0
    ensures w >= 0 ==> 0 <= h && FloorQuotient(h, w * assetH, assetW)
  {
    if w >= 0 then
      var n: nat := w * assetH;
      FloorDiv(n, assetW);
      n / assetW
    else Trunc(w as real * (assetH as real / assetW as real))
  }

  /** `q` is the quotient of `n` by `d` rounded down. */
  predicate FloorQuotient(q: int, n: int, d: int) {
    q * d <= n < (q + 1) * d
  }

  lemma FloorDiv(n: nat, d: nat)
    requires d > 0
    ensures n / d >= 0 && FloorQuotient(n / d, n, d)
  {
    var q, m := n / d, n % d;
    assert n == q * d + m && 0 <= m < d;
    assert (q + 1) * d == q * d + d;
  }

  /** The resampled asset: `cv2.resize(watermark, (w, h))` with the kernel left abstract. */
  type AssetResize = (Asset, nat, nat, int, int) -> Rgba

  function Resized(asset: Asset, h: nat, w: nat, resize: AssetResize): (r: Asset)
    ensures HasShape(r, h, w)
  {
    Build(h, w, (i, j) => resize(asset, h, w, i, j))
  }

  /** The blend weight of an asset pixel: its alpha over 255, times the opacity. */
  function Alpha(q: Rgba, opacity: real): (a: real)
    requires 0.0 <= opacity <= 1.0
    ensures 0.0 <= a <= 1.0
  {
    ScaleWithin(q.a as real / 255.0, opacity);
    q.a as real / 255.0 * opacity
  }

  /** The colour of an asset pixel, without its alpha. */
  function Colour(q: Rgba): Pixel {
    Pixel(q.b, q.g, q.r)
  }

  /**
   * One image pixel under one asset pixel: the image-wide blend towards the asset's colour
   * at the effective weight `Alpha`, so a transparent asset or zero opacity keeps the pixel
   * and an opaque asset at full opacity replaces it.
   */
  function Over(p: Pixel, q: Rgba, opacity: real): (r: Pixel)
    requires 0.0 <= opacity <= 1.0
    ensures r == BlendPixel(p, Colour(q), Alpha(q, opacity))
    ensures Min(p.b, q.b) <= r.b <= Max(p.b, q.b)
    ensures Min(p.g, q.g) <= r.g <= Max(p.g, q.g)
    ensures Min(p.r, q.r) <= r.r <= Max(p.r, q.r)
    ensures opacity == 0.0 || q.a == 0 ==> r == p
    ensures opacity == 1.0 && q.a == 255 ==> r == Colour(q)
  {
    var a := Alpha(q, opacity);
    Pixel(BlendByte(p.b, q.b, a), BlendByte(p.g, q.g, a), BlendByte(p.r, q.r, a))
  }

  predicate Covers(pl: Placement, i: int, j: int) {
    pl.y <= i < pl.y + pl.h && pl.x <= j < pl.x + pl.w
  }

  /**
   * The placement actually used, or `None` when `apply_watermark` leaves the image alone:
   * a zero or negative size makes the resize fail, and an asset larger than the frame
   * does not fit the slice it is assigned to.
   */
  function Fitted(img: Image, asset: Asset, s: Settings): (p: Option<Placement>)
    ensures p.Some? ==> 0 < p.value.w && 0 < p.value.h
    ensures p.Some? ==> 0 <= p.value.x && p.value.x + p.value.w <= Width(img)
    ensures p.Some? ==> 0 <= p.value.y && p.value.y + p.value.h <= Height(img)
    ensures p.Some? ==> Place(Height(img), Width(img), Height(asset), Width(asset), s) == p
    ensures p.None? <==>
              || Place(Height(img), Width(img), Height(asset), Width(asset), s).None?
              || (var pl := Place(Height(img), Width(img), Height(asset), Width(asset), s).value;
                  pl.w <= 0 || pl.h <= 0 || pl.w > Width(img) || pl.h > Height(img))
  {
    match Place(Height(img), Width(img), Height(asset), Width(asset), s)
    case None => None
    case Some(pl) =>
      if pl.w <= 0 || pl.h <= 0 || pl.w > Width(img) || pl.h > Height(img) then None
      else Some(pl)
  }

  /** The image with `wm` blended over the rectangle `pl`, which lies inside it. */
  function Stamp(img: Image, wm: Asset, pl: Placement, opacity: real): (r: Image)
    requires 0.0 <= opacity <= 1.0
    requires 0 <= pl.x && 0 <= pl.y && 0 <= pl.w && 0 <= pl.h && HasShape(wm, pl.h, pl.w)
    ensures HasShape(r, Height(img), Width(img))
    ensures forall i, j :: InBounds(img, i, j) ==>
      r[i][j] == if Covers(pl, i, j) then Over(img[i][j], wm[i - pl.y][j - pl.x], opacity) else img[i][j]
  {
    StampCells(img, wm, pl, opacity);
    MapCells(img, StampCell(wm, pl, opacity))
  }

  lemma StampCells(img: Image, wm: Asset, pl: Placement, opacity: real)
    requires 0.0 <= opacity <= 1.0
    requires 0 <= pl.x && 0 <= pl.y && 0 <= pl.w && 0 <= pl.h && HasShape(wm, pl.h, pl.w)
    ensures forall i, j :: InBounds(img, i, j) ==>
      MapCells(img, StampCell(wm, pl, opacity))[i][j]
      == if Covers(pl, i, j) then Over(img[i][j], wm[i - pl.y][j - pl.x], opacity) else img[i][j]
  {
    var r := MapCells(img, StampCell(wm, pl, opacity));
    forall i, j | InBounds(img, i, j)
      ensures r[i][j] == if Covers(pl, i, j) then Over(img[i][j], wm[i - pl.y][j - pl.x], opacity) else img[i][j]
    {
      assert r[i][j] == StampCell(wm, pl, opacity)(i, j, img[i][j]);
    }
  }

  /** What `Stamp` does to the pixel at row `i`, column `j`. */
  function StampCell(wm: Asset, pl: Placement, opacity: real): (int, int, Pixel) -> Pixel
    requires 0.0 <= opacity <= 1.0
    requires 0 <= pl.x && 0 <= pl.y && 0 <= pl.w && 0 <= pl.h && HasShape(wm, pl.h, pl.w)
  {
    (i, j, p: Pixel) => if Covers(pl, i, j) then Over(p, wm[i - pl.y][j - pl.x], opacity) else p
  }

  /**
   * `apply_watermark`: without an asset, or when the asset cannot be placed, the image
   * is returned; otherwise the covered rectangle is blended with the resized asset and
   * every other pixel is kept.
   */
  function ApplyWatermark(img: Image, asset: Option<Asset>, s: Settings, resize: AssetResize): (r: Image)
    requires 0.0 <= s.opacity <= 1.0
    ensures asset.None? ==> r == img
    ensures asset.Some? && Fitted(img, asset.value, s).None? ==> r == img
    ensures HasShape(r, Height(img), Width(img))
    ensures asset.Some? && Fitted(img, asset.value, s).Some? ==>
      var pl := Fitted(img, asset.value, s).value;
      r == Stamp(img, Resized(asset.value, pl.h, pl.w, resize), pl, s.opacity)
  {
    if asset.None? then img
    else match Fitted(img, asset.value, s)
      case None => img
      case Some(pl) => Stamp(img, Resized(asset.value, pl.h, pl.w, resize), pl, s.opacity)
  }

  /**
   * When the placed asset has a positive size and fits the frame, the watermark is stamped
   * exactly at the rectangle `Place` computes, with the asset resized to that size.
   */
  lemma StampedAtPlace(img: Image, asset: Asset, s: Settings, resize: AssetResize)
    requires 0.0 <= s.opacity <= 1.0 && Width(asset) > 0
    requires var pl := Place(Height(img), Width(img), Height(asset), Width(asset), s).value;
             0 < pl.w <= Width(img) && 0 < pl.h <= Height(img)
    ensures var pl := Place(Height(img), Width(img), Height(asset), Width(asset), s).value;
      ApplyWatermark(img, Some(asset), s, resize) == Stamp(img, Resized(asset, pl.h, pl.w, resize), pl, s.opacity)
  {
  }

  /** Opacity 0 leaves every pixel as it was. */
  lemma ZeroOpacityUnchanged(img: Image, asset: Option<Asset>, s: Settings, resize: AssetResize)
    requires s.opacity == 0.0
    ensures ApplyWatermark(img, asset, s, resize) == img
  {
    var r := ApplyWatermark(img, asset, s, resize);
    forall i | 0 <= i < |img| ensures r[i] == img[i] {
      assert |r[i]| == |img[i]|;
      forall j | 0 <= j < |img[i]| ensures r[i][j] == img[i][j] {
        assert InBounds(img, i, j);
      }
    }
  }

  /** Only the rectangle the asset covers can change. */
  lemma OutsideUnchanged(img: Image, asset: Asset, s: Settings, resize: AssetResize, i: int, j: int)
    requires 0.0 <= s.opacity <= 1.0 && InBounds(img, i, j)
    requires Fitted(img, asset, s).None? || !Covers(Fitted(img, asset, s).value, i, j)
    ensures ApplyWatermark(img, Some(asset), s, resize)[i][j] == img[i][j]
  {
    if Fitted(img, asset, s).Some? {
      var pl := Fitted(img, asset, s).value;
      var wm := Resized(asset, pl.h, pl.w, resize);
      assert ApplyWatermark(img, Some(asset), s, resize) == Stamp(img, wm, pl, s.opacity);
    }
  }

  /** Inside the rectangle each pixel is the blend of the image and the resized asset. */
  lemma InsideBlended(img: Image, asset: Asset, s: Settings, resize: AssetResize, i: int, j: int)
    requires 0.0 <= s.opacity <= 1.0 && InBounds(img, i, j)
    requires Fitted(img, asset, s).Some? && Covers(Fitted(img, asset, s).value, i, j)
    ensures var pl := Fitted(img, asset, s).value;
      0 <= i - pl.y < pl.h && 0 <= j - pl.x < pl.w
      && ApplyWatermark(img, Some(asset), s, resize)[i][j]
         == Over(img[i][j], Resized(asset, pl.h, pl.w, resize)[i - pl.y][j - pl.x], s.opacity)
  {
    var pl := Fitted(img, asset, s).value;
    var wm := Resized(asset, pl.h, pl.w, resize);
    assert ApplyWatermark(img, Some(asset), s, resize) == Stamp(img, wm, pl, s.opacity);
  }
}

=== FILE: web_integrator.dfy ===
/**
 * The web integration: request headers, the five-minute cache of the active event id,
 * how an upload finds its event, the JPEG settings an upload is encoded with, and the
 * upload retry loop.
 *
 * Every HTTP call is an oracle answer; `now` is the clock reading `time.time()` returns.
 * JWT encoding is outside the model: the token is a parameter (the empty string when
 * encoding fails).
 */
module WebIntegrator {
  import opened Wrappers
  import opened Text
  import opened Retry
  import opened EventApi
  import EventSelector

  /** Seconds a cached active event id stays valid. */
  const CacheDuration: real := 300.0

  /** The `X-Source` header value. */
  const SourceTag: string := "tethered-shooting-system"

  /** `_get_auth_headers` for a token. */
  function AuthHeaders(token: string): (h: map<string, string>)
    ensures h.Keys == {"Authorization", "Content-Type", "X-Source"}
    ensures StartsWith(h["Authorization"], "Bearer ") && h["Authorization"][7..] == token
    ensures h["Content-Type"] == "application/json" && h["X-Source"] == SourceTag
  {
    map["Authorization" := "Bearer " + token, "Content-Type" := "application/json", "X-Source" := SourceTag]
  }

  /** `active_event_id` and `active_event_cache_time`. */
  datatype Cache = Cache(activeId: Option<string>, time: real)

  /** The integrator starts with no cached event at time 0. */
  const EmptyCache: Cache := Cache(None, 0.0)

  /** The cached id is used: it is truthy and younger than the cache duration. */
  predicate CacheHit(c: Cache, now: real) {
    Truthy(c.activeId) && now - c.time < CacheDuration
  }

  /**
   * `get_active_event`: the cached id while it is valid; otherwise the id of the first
   * listed event, which also refreshes the cache; otherwise `None`, with the cache untouched.
   */
  function GetActiveEvent(c: Cache, now: real, reply: EventsReply): (r: (Option<string>, Cache))
    ensures CacheHit(c, now) ==> r == (c.activeId, c)
    ensures !CacheHit(c, now) && ListedActive(reply).Some? ==>
              r.0 == ListedActive(reply).value && r.1 == Cache(r.0, now)
    ensures !CacheHit(c, now) && ListedActive(reply).None? ==> r == (None, c)
  {
    if CacheHit(c, now) then (c.activeId, c)
    else match ListedActive(reply)
      case Some(id) => (id, Cache(id, now))
      case None => (None, c)
  }

  /**
   * Once the cache misses, the integrator asks the server exactly as the event selector's own
   * `get_active_event` does and gets the same id back.
   */
  lemma MissAgreesWithSelector(c: Cache, now: real, reply: EventsReply)
    requires !CacheHit(c, now)
    ensures GetActiveEvent(c, now, reply).0 == EventSelector.GetActiveEvent(reply)
  {
  }

  /** A fetched id is served from the cache, whatever the server would say, for the next five minutes. */
  lemma FetchedIdIsCached(c: Cache, t: real, reply: EventsReply, t2: real, reply2: EventsReply)
    requires !CacheHit(c, t) && Truthy(GetActiveEvent(c, t, reply).0)
    requires t <= t2 < t + CacheDuration
    ensures var c1 := GetActiveEvent(c, t, reply).1;
      GetActiveEvent(c1, t2, reply2) == (GetActiveEvent(c, t, reply).0, c1)
  {
  }

  /** Once five minutes have passed, the server is asked again. */
  lemma CacheExpires(c: Cache, now: real, reply: EventsReply)
    requires now - c.time >= CacheDuration
    ensures GetActiveEvent(c, now, reply).0 == (if ListedActive(reply).Some? then ListedActive(reply).value else None)
  {
  }

  /**
   * `requests.post(...)` creating an event: `Unreachable` when it raises, else the status
   * and the `"id"` of the returned object (`Some(None)` when it has none, `None` when the
   * body is not a JSON object).
   */
  datatype CreateReply = CreateUnreachable | Created(status: int, id: Option<Option<string>>)

  /** `create_default_event`: a 200 or 201 with a readable body yields its id and refreshes the cache. */
  function CreateDefaultEvent(c: Cache, now: real, reply: CreateReply): (r: (Option<string>, Cache))
    ensures reply.Created? && reply.status in {200, 201} && reply.id.Some? ==>
              r == (reply.id.value, Cache(reply.id.value, now))
    ensures !(reply.Created? && reply.status in {200, 201} && reply.id.Some?) ==> r == (None, c)
  {
    if reply.Created? && reply.status in {200, 201} && reply.id.Some? then (reply.id.value, Cache(reply.id.value, now))
    else (None, c)
  }

  /** Which event an upload goes to, and whether an event had to be created. */
  datatype Resolution = Resolution(eventId: Option<string>, cache: Cache, created: bool)

  /**
   * The event resolution of `upload_photo`: the given id when truthy, else the active
   * event, else a newly created one; `None` when all three are falsy.
   */
  function ResolveEvent(given: Option<string>, c: Cache, now: real, fetch: EventsReply, create: CreateReply): (r: Resolution)
    ensures r.eventId.Some? ==> Truthy(r.eventId)
    ensures Truthy(given) ==> r == Resolution(given, c, false)
    ensures !Truthy(given) ==>
              (r.created <==> !Truthy(GetActiveEvent(c, now, fetch).0))
    ensures !Truthy(given) && !r.created ==> r.eventId == GetActiveEvent(c, now, fetch).0
    ensures r.created && Truthy(CreateDefaultEvent(GetActiveEvent(c, now, fetch).1, now, create).0) ==>
              r.eventId == CreateDefaultEvent(GetActiveEvent(c, now, fetch).1, now, create).0
    ensures r.eventId.None? <==>
              !Truthy(given) && !Truthy(GetActiveEvent(c, now, fetch).0)
              && !Truthy(CreateDefaultEvent(GetActiveEvent(c, now, fetch).1, now, create).0)
  {
    if Truthy(given) then Resolution(given, c, false)
    else
      var (active, c1) := GetActiveEvent(c, now, fetch);
      if Truthy(active) then Resolution(active, c1, false)
      else
        var (made, c2) := CreateDefaultEvent(c1, now, create);
        Resolution(if Truthy(made) then made else None, c2, true)
  }

  /** `prepare_image_for_upload`'s JPEG quality: high 95, medium 80, low 70, anything else 85. */
  function JpegQuality(quality: string): (q: nat)
    ensures q in {95, 80, 70, 85}
    ensures q == 95 <==> quality == "high"
    ensures q == 80 <==> quality == "medium"
    ensures q == 70 <==> quality == "low"
  {
    if quality == "high" then 95 else if quality == "medium" then 80 else if quality == "low" then 70 else 85
  }

  /** The box an upload must fit in: 4K for "high", full HD otherwise. */
  function MaxBox(quality: string): (box: (nat, nat))
    ensures quality == "high" ==> box == (3840, 2160)
    ensures quality != "high" ==> box == (1920, 1080)
  {
    if quality == "high" then (3840, 2160) else (1920, 1080)
  }

  /** The image is shrunk (PIL `thumbnail`) exactly when it exceeds the box in some dimension. */
  predicate NeedsShrink(quality: string, w: nat, h: nat) {
    w > MaxBox(quality).0 || h > MaxBox(quality).1
  }

  /** The 4K box holds the full-HD one: an image too large for the "high" box is shrunk at every quality. */
  lemma HighBoxHoldsEveryBox(quality: string, w: nat, h: nat)
    ensures NeedsShrink("high", w, h) ==> NeedsShrink(quality, w, h)
  {
  }

  /** One upload POST: it raised a timeout or another error, or a response came back. */
  datatype PostReply = Timeout | Raised | Response(status: int, jsonOk: bool)

  /** The upload is accepted: 200 or 201 and the body is readable JSON. */
  predicate Accepted(r: PostReply) {
    r.Response? && r.status in {200, 201} && r.jsonOk
  }

  /** 413: the file is too large, and the upload gives up at once. */
  predicate TooLarge(r: PostReply) {
    r.Response? && r.status == 413
  }

  /** An attempt that ends the loop. */
  predicate Settles(r: PostReply) {
    Accepted(r) || TooLarge(r)
  }

  function SettlesAt(replies: nat -> PostReply): nat -> bool {
    (k: nat) => Settles(replies(k))
  }

  /** Reference: the upload succeeds iff the first settling attempt within the limit is accepted. */
  function UploadOutcome(attempts: nat, replies: nat -> PostReply): bool {
    match FirstWhere(attempts, SettlesAt(replies))
    case Some(k) => Accepted(replies(k))
    case None => false
  }

  /** Reference: the POSTs made, up to and including the first settling attempt. */
  function PostsMade(attempts: nat, replies: nat -> PostReply): (n: nat)
    ensures n <= attempts
  {
    match FirstWhere(attempts, SettlesAt(replies))
    case Some(k) => k + 1
    case None => attempts
  }

  /**
   * The retry loop of `upload_photo`: one POST per attempt, True on acceptance, False at once
   * on 413, and a `2**attempt` sleep after any other outcome except on the last attempt.
   */
  method PostWithRetry(attempts: nat, replies: nat -> PostReply) returns (ok: bool, posts: nat, sleeps: seq<nat>)
    ensures ok == UploadOutcome(attempts, replies)
    ensures posts == PostsMade(attempts, replies)
    ensures ok ==> 1 <= posts && Accepted(replies(posts - 1))
    ensures forall k :: 0 <= k < posts - 1 ==> !Settles(replies(k))
    ensures sleeps == Backoff(if posts == 0 then 0 else posts - 1)
  {
    var settles := SettlesAt(replies);
    posts := 0;
    sleeps := [];
    ok := false;
    var attempt := 0;
    while attempt < attempts
      invariant 0 <= attempt <= attempts
      invariant posts == attempt && !ok
      invariant forall k :: 0 <= k < attempt ==> !settles(k) && !Settles(replies(k))
      invariant sleeps == Backoff(attempt)
      invariant attempt < attempts || attempts == 0
    {
      posts := posts + 1;
      var reply := replies(attempt);
      if Accepted(reply) || TooLarge(reply) {
        FirstWhereIsFirst(attempts, settles, attempt);
        ok := Accepted(reply);
        return;
      }
      if attempt < attempts - 1 {
        sleeps := sleeps + [Pow2(attempt)];
        assert sleeps == Backoff(attempt + 1);
      } else {
        assert FirstWhere(attempts, settles).None?;
        return;
      }
      attempt := attempt + 1;
    }
  }

  /** A 2xx whose body is not JSON counts as a failed attempt: the photo is posted again. */
  lemma UnreadableSuccessPostsAgain(attempts: nat, replies: nat -> PostReply)
    requires attempts >= 2 && replies(0) == Response(200, false)
    ensures PostsMade(attempts, replies) >= 2
  {
    var k := FirstWhere(attempts, SettlesAt(replies));
    if k.Some? {
      assert k.value != 0;
    }
  }

  /** A 413 on the first attempt ends the upload with no further POST. */
  lemma TooLargeStops(attempts: nat, replies: nat -> PostReply)
    requires attempts >= 1 && replies(0).Response? && replies(0).status == 413
    ensures !UploadOutcome(attempts, replies) && PostsMade(attempts, replies) == 1
  {
    FirstWhereIsFirst(attempts, SettlesAt(replies), 0);
  }

  /** The whole `upload_photo`: resolution, preparation, then the retry loop. */
  datatype UploadResult = UploadResult(ok: bool, cache: Cache, posts: nat)

  function UploadPhoto(given: Option<string>, c: Cache, now: real, fetch: EventsReply, create: CreateReply,
                       prepared: bool, attempts: nat, replies: nat -> PostReply): (r: UploadResult)
    ensures r.cache == ResolveEvent(given, c, now, fetch, create).cache
    ensures r.ok ==> ResolveEvent(given, c, now, fetch, create).eventId.Some? && prepared
    ensures r.ok <==> ResolveEvent(given, c, now, fetch, create).eventId.Some? && prepared && UploadOutcome(attempts, replies)
    ensures r.posts <= attempts
    ensures r.posts > 0 ==> ResolveEvent(given, c, now, fetch, create).eventId.Some? && prepared
  {
    var res := ResolveEvent(given, c, now, fetch, create);
    if res.eventId.None? || !prepared then UploadResult(false, res.cache, 0)
    else UploadResult(UploadOutcome(attempts, replies), res.cache, PostsMade(attempts, replies))
  }
}

=== FILE: wrappers.dfy ===
/** Failure-compatible optional values, standing in for Python's `None` returns. */
module Wrappers {

  datatype Option<+T> = None | Some(value: T) {

    predicate IsFailure() {
      None?
    }

    function PropagateFailure<U>(): Option<U>
      requires None?
    {
      None
    }

    function Extract(): T
      requires Some?
    {
      value
    }

    /** The value, or `default` when absent. */
    function GetOr(default: T): T {
      match this
      case Some(v) => v
      case None => default
    }
  }
}
